=== FILE: README.md ===
# Storefront core in Dafny

A Dafny model of the core of an online shop. The backend is a NestJS service layer over a relational store. The frontend has a checkout page, an administrator dashboard and a profile page.

It covers the following parts of the shop.

- **Accounts** (`Auth`, `PaymentMethods`): registration, login, the `me` view, profile updates, password changes, and the server-side sanitiser for saved payment methods.
- **Catalogue** (`Products`): listing, lookup by id and slug, creation, update and soft removal.
- **Carts** (`Cart`): one cart per user with at most one line per product.
- **Orders** (`Orders`, `OrderDocuments`):
  - order creation priced from the catalogue;
  - lookup and status changes;
  - the PDF documents stored per order and type.
- **Administration** (`Admin`): the user list with order statistics, a user's orders, and the administrator guard.
- **Checkout page** (`CheckoutFormat`, `Checkout`):
  - the card-number, expiry and e-mail formatters;
  - the ordered form validation;
  - removal of a saved method;
  - the profile update the page sends to remember the shopper's data and payment method.
- **Administrator dashboard** (`AdminPage`): the access test, the user search, the totals and the status colours.
- **Profile page** (`ProfilePage`): the two forms and the requests they send.

Conventions:

- Each table is a sequence in insertion order. Reading it "newest first" (`ORDER BY createdAt DESC`) reads it backwards.
- Each service call is a function from the store and the request to a `Result`. It yields either the new store and the reply, or the HTTP exception the service throws, with its message.
- Money is in integer cents.
- A request value after `Number(...)` is a `JsNumber`: an integer or not.
- An optional or dynamically typed field is an `Option`.
- Password hashing, token signing, the clock and generated ids are parameters.

The modules are `Wrappers`, `Text`, `Entities` and `Seqs` (shared definitions), then one module per service or page.

## Model

| member | source | states |
|---|---|---|
| Entities.ParseDocumentType | backend/src/modules/orders/orders.service.ts:159-161 | a string is accepted as a document type exactly when it is the stored name of one, and the result is the type it names |
| Entities.ParseOrderStatus | backend/src/entities/order.entity.ts:6-12 | a string is a value of the `status` column exactly when it is the stored name of an order status, and the result is the status it names |
| Entities.ParsePaymentMethodType | backend/src/modules/auth/auth.service.ts:139-150 | a method name is allowed exactly when it names card, paypal or bank, and the result is that type |
| Entities.WithoutPassword | backend/src/modules/auth/auth.service.ts:131-136 | the user view keeps every modelled column of the user (id, names, e-mail, role, active flag, creation time) and drops the password; `updatedAt` is not modelled |
| Text.Contains | frontend/src/pages/AdminPage.tsx:274-276 | `includes` holds exactly when the needle occurs at some position of the text |
| Text.MatchesEmailPattern | frontend/src/pages/ProfilePage.tsx:59 | the `\S+@\S+\.\S+` test holds exactly when the text has no whitespace and has an `@` after at least one character, followed (after at least one character) by a `.` with at least one character after it |
| PaymentMethods.Truncated | backend/src/modules/auth/auth.service.ts:161-172 | a type-specific field is kept only for its own type and only when it is a string; the kept value is exactly `slice(0, n)` of the input: its first `n` characters, or all of it when shorter |
| PaymentMethods.Normalize | backend/src/modules/auth/auth.service.ts:152-177 | a sanitised method keeps the id, type and default flag; its label is the first 120 characters of the input label (all of it when shorter); each type-specific field is present exactly when the entry is of that type and supplies it, and then is the input cut to 120 (PayPal e-mail), 40 (brand) or 5 (expiry) characters; the card suffix is exactly the last four digits (all of them when fewer) and the IBAN suffix exactly the last four non-space characters |
| PaymentMethods.NormalizeAll | backend/src/modules/auth/auth.service.ts:141-177 | every sanitised method satisfies the field bounds, and the list is empty exactly when no entry is well formed |
| PaymentMethods.NormalizeAllAppend | backend/src/modules/auth/auth.service.ts:141-177 | filtering and mapping distribute over concatenation, so each entry is kept or dropped on its own and the order is kept |
| PaymentMethods.FirstDefaultIndex | backend/src/modules/auth/auth.service.ts:185-192 | the index found is the first flagged method, or the length when none is flagged |
| PaymentMethods.EnforceSingleDefault | backend/src/modules/auth/auth.service.ts:179-195 | only default flags change; a non-empty list ends with exactly one default; it is the first flagged method when there is one, and otherwise the first method |
| PaymentMethods.Sanitize | backend/src/modules/auth/auth.service.ts:138-196 | the result is empty exactly when no entry is well formed; otherwise it has exactly one default, and every method is within the field bounds |
| PaymentMethods.NormalizeFixesBounded | backend/src/modules/auth/auth.service.ts:141-177 | a bounded method with non-blank id and label passes the filter and comes out of the map unchanged |
| PaymentMethods.NormalizeAllFixesStable | backend/src/modules/auth/auth.service.ts:141-177 | sending back a list of bounded methods with non-blank ids and labels yields the same list from the filter-and-map step |
| PaymentMethods.EnforceFixesSingleDefault | backend/src/modules/auth/auth.service.ts:179-195 | a list that already has exactly one default is left unchanged by the default-fixing step |
| PaymentMethods.ResubmitStable | backend/src/modules/auth/auth.service.ts:138-196 | the client sending back a stable list stores that very list |
| PaymentMethods.NormalizeAllNonBlank | backend/src/modules/auth/auth.service.ts:141-159 | when truncation leaves every kept label non-blank, every sanitised id and label is non-blank |
| PaymentMethods.SanitizeIsStable | backend/src/modules/auth/auth.service.ts:138-196 | under that condition the sanitiser's output is stable, so sanitising the returned list again changes nothing |
| PaymentMethods.LabelTruncationCanBlank | backend/src/modules/auth/auth.service.ts:146-159 | without the condition, a label of 120 spaces and an `x` is kept on the first save but dropped on the next round trip |
| Auth.Register | backend/src/modules/auth/auth.service.ts:21-30 | registration fails with a conflict exactly when the e-mail is taken; otherwise exactly one user is appended, with the next id, the hashed password, the user role and the DTO's names and e-mail; the reply is that user's response |
| Auth.RegisterPreservesValid | backend/src/modules/auth/auth.service.ts:21-30 | registration keeps user ids and e-mails unique |
| Auth.Login | backend/src/modules/auth/auth.service.ts:32-40 | login succeeds exactly when the user found by e-mail matches the password, and then returns that user's response; an unknown e-mail and a wrong password fail with the same exception |
| Auth.RegisterThenLogin | backend/src/modules/auth/auth.service.ts:21-40 | with a sound hashing scheme, a freshly registered user logs in with the same credentials and gets the same response |
| Auth.DefaultsFirst | backend/src/modules/auth/auth.service.ts:51 | the saved methods are a permutation of the stored ones with every default before every non-default |
| Auth.GetMe | backend/src/modules/auth/auth.service.ts:46-61 | `me` fails exactly for an unknown user; otherwise it returns the user without the password, the shipping fields or absent values when there is no profile, and a permutation of the user's stored methods, defaults first |
| Auth.EmailConflictMeans | backend/src/modules/auth/auth.service.ts:67-72 | among unique users, the e-mail check rejects exactly a non-empty address that another user already has |
| Auth.UpdateProfileEmailConflict | backend/src/modules/auth/auth.service.ts:63-72 | for a known user, re-submitting one's own address never conflicts, and a new address conflicts exactly when someone else has it |
| Auth.Applied | backend/src/modules/auth/auth.service.ts:74-113 | a successful update changes only the given name and e-mail fields of that user; it writes the shipping profile (created as default if missing) only when a shipping field is given; when a list is given, the user's methods are replaced by the sanitised list; nothing of other users changes |
| Auth.UpdateProfile | backend/src/modules/auth/auth.service.ts:63-116 | an unknown user is refused first, then an e-mail conflict; otherwise the store becomes the applied update and the reply is the new `me` view |
| Auth.FilterOutOwner | backend/src/modules/auth/auth.service.ts:96 | deleting a user's method rows leaves that user none and every other user's rows as they were |
| Auth.RowsOfNewRows | backend/src/modules/auth/auth.service.ts:98-111 | the inserted rows all belong to the updated user |
| Auth.ReplaceMethodsEffect | backend/src/modules/auth/auth.service.ts:94-113 | after the delete-and-insert, the user's rows carry exactly the new list's contents and every other user's rows are unchanged |
| Auth.UniqueAfterUpdate | backend/src/modules/auth/auth.service.ts:74-80 | rewriting a user with the same id and an e-mail nobody else has keeps ids and e-mails unique |
| Auth.FreshEmail | backend/src/modules/auth/auth.service.ts:67-77 | after a passed e-mail check, the address the user ends up with belongs to no one else |
| Auth.ReplaceIdsBelow | backend/src/modules/auth/auth.service.ts:96-111 | the inserted rows take fresh ids, so every row id stays below the advanced counter |
| Auth.UpdateProfilePreservesValid | backend/src/modules/auth/auth.service.ts:63-116 | with e-mails as the DTO validator admits them, a successful update keeps ids and e-mails unique and row ids fresh |
| Auth.AppliedPreservesValid | backend/src/modules/auth/auth.service.ts:67-111 | applying an update whose e-mail check passed keeps ids and e-mails unique and row ids fresh |
| Auth.ChangePassword | backend/src/modules/auth/auth.service.ts:118-129 | an unknown user and a wrong current password are refused; otherwise only that user's stored hash changes, to the hash of the new password |
| Auth.ChangedPasswordLogsIn | backend/src/modules/auth/auth.service.ts:118-129 | after a password change the new password logs in, also when it repeats the current one |
| Auth.ChangePasswordThenLogin | backend/src/modules/auth/auth.service.ts:118-129 | after a password change the new password logs in and the old one (when the scheme tells them apart) no longer does |
| Products.FindAll | backend/src/modules/products/products.service.ts:14-23 | the listing holds exactly the active products of the (truthy) category and featured flag asked for, as many entries as such rows, newest first |
| Products.FindOne | backend/src/modules/products/products.service.ts:25-32 | lookup by id fails with not-found exactly when no active product has the id, and otherwise returns one that has it |
| Products.FindBySlug | backend/src/modules/products/products.service.ts:34-41 | lookup by slug fails exactly when no active product has the slug, and otherwise returns one that has it |
| Products.Create | backend/src/modules/products/products.service.ts:43-46 | creation is refused exactly when a row (active or not) has the slug; otherwise one active product is appended with the next id, the DTO's fields and the column defaults, with absent images stored as an empty list |
| Products.CreateThenFind | backend/src/modules/products/products.service.ts:43-46 | a created product keeps the catalogue valid and is found by its id and its slug |
| Products.Update | backend/src/modules/products/products.service.ts:48-52 | only an active product can be updated; each given field is overwritten, each absent one is kept, and id, slug and creation time never change |
| Products.UpdateThenFind | backend/src/modules/products/products.service.ts:48-52 | an update that does not deactivate the product keeps the catalogue valid and is what lookup by id returns at once |
| Products.Remove | backend/src/modules/products/products.service.ts:54-58 | removal is a soft delete of an active product: only its active flag is cleared |
| Products.RemoveHides | backend/src/modules/products/products.service.ts:54-58 | after removal the product is not found by id, by slug or in any listing, and a second removal fails |
| Products.SavePreservesValid | backend/src/modules/products/products.service.ts:48-58 | rewriting a row with the same id, slug and creation time keeps the catalogue valid |
| Cart.QuantityOf | backend/src/modules/cart/cart.service.ts:42 | the quantity read is absent exactly when no line has the product, and otherwise is the quantity of such a line |
| Cart.AddLine | backend/src/modules/cart/cart.service.ts:29-35 | the product's quantity grows by the amount (from zero when it had no line), other products are untouched, and lines stay distinct |
| Cart.SetLine | backend/src/modules/cart/cart.service.ts:47-49 | the product's quantity becomes the new one and other products are untouched |
| Cart.DropLine | backend/src/modules/cart/cart.service.ts:45-46 | the product no longer has a line and other products are untouched |
| Cart.GetCart | backend/src/modules/cart/cart.service.ts:15-21 | an existing cart is returned unchanged; a missing one is created empty with the next id and stored |
| Cart.AddItem | backend/src/modules/cart/cart.service.ts:23-38 | the product's quantity grows by the amount (one by default), other lines and other users' carts are untouched, and the store stays valid |
| Cart.UpdateItem | backend/src/modules/cart/cart.service.ts:40-52 | a product without a line is not found; a quantity of zero or less removes its line, any other replaces it; other lines and carts are untouched |
| Cart.RemoveItem | backend/src/modules/cart/cart.service.ts:54-59 | afterwards the product has no line, and other lines and carts are untouched; removing an absent product changes nothing but the cart's creation |
| Cart.ClearCart | backend/src/modules/cart/cart.service.ts:61-65 | afterwards the cart has no lines and keeps its id; other carts are untouched |
| Cart.Step | backend/src/modules/cart/cart.service.ts:15-65 | every cart endpoint keeps each cart filed under its owner with distinct product lines |
| Cart.Run | backend/src/modules/cart/cart.service.ts:15-65 | any sequence of cart requests from any users keeps the store valid and never replaces an existing cart |
| Cart.AddThenRemove | backend/src/modules/cart/cart.service.ts:23-59 | adding a product then removing it leaves it absent and every other product as it was |
| Cart.UpdateThenGet | backend/src/modules/cart/cart.service.ts:40-52 | setting a positive quantity and reading the cart back yields that quantity |
| Orders.Distinct | backend/src/modules/orders/orders.service.ts:41 | the ids are deduplicated: same members, no repeats, in order of first appearance |
| Orders.MissingIds | backend/src/modules/orders/orders.service.ts:41-44 | the missing ids are exactly the requested ids with no active product, each once |
| Orders.Lines | backend/src/modules/orders/orders.service.ts:49-56 | one line per requested row, in order, with the row's product and quantity and the catalogue price |
| Orders.TotalAppend | backend/src/modules/orders/orders.service.ts:58 | the total of concatenated lines is the sum of their totals |
| Orders.TotalNonNegative | backend/src/modules/orders/orders.service.ts:58 | with non-negative prices and positive quantities, the total is non-negative and zero only when every price is zero |
| Orders.CreateOrder | backend/src/modules/orders/orders.service.ts:19-84 | an empty request, an invalid row and unknown products are refused in that order, the last listing the missing ids; otherwise exactly one processing order is appended with the next id, catalogue-priced lines and their total |
| Orders.AppendOrder | backend/src/modules/orders/orders.service.ts:60-83 | storing an order with the next id and a current time keeps the store valid and makes the order findable |
| Orders.CreateOrderThenFind | backend/src/modules/orders/orders.service.ts:60-84 | a created order keeps the store valid and is what lookup by id returns |
| Orders.ClientPriceIgnored | backend/src/modules/orders/orders.service.ts:29-56 | two requests that differ only in the client's unit prices give the same outcome |
| Orders.PricedFromCatalog | backend/src/modules/orders/orders.service.ts:49-58 | two units of a product priced 19.99 with a client price of 0.01 make an order of 39.98 |
| Orders.MissingReportedOnce | backend/src/modules/orders/orders.service.ts:41-47 | two rows naming the same unknown product report it once |
| Orders.FindByUser | backend/src/modules/orders/orders.service.ts:86-91 | exactly the user's orders, newest first |
| Orders.FindOne | backend/src/modules/orders/orders.service.ts:93-97 | lookup fails with not-found exactly for an unknown id, and otherwise returns an order with that id |
| Orders.UpdateStatus | backend/src/modules/orders/orders.service.ts:99-103 | for a status that is already an enumeration member (a body holding a status name, see `Orders.UpdateStatusRequest`): an unknown order is not found; otherwise only that order's status changes, to the status given |
| Orders.UpdateStatusRequest | backend/src/modules/orders/orders.controller.ts:33-39 | with the body unvalidated: an unknown order is not found; otherwise the request fails with a server error exactly when `status` is present but not the stored name of a status; an absent `status` leaves the store as it was and replies with the stored order; a status name changes only that order's status to the status it names |
| Orders.UpdateStatusRequestThenFind | backend/src/modules/orders/orders.controller.ts:33-39 | a body holding a status name is the typed status change, and any request that succeeds keeps the store valid and is what lookup reports afterwards |
| Orders.UpdateStatusThenFind | backend/src/modules/orders/orders.service.ts:99-103 | a status change keeps the store valid, is what lookup reports afterwards, and leaves every other order's lookup unchanged |
| Orders.AnyTransition | backend/src/modules/orders/orders.service.ts:99-103 | any existing order can be moved to any status |
| OrderDocuments.Normalize | backend/src/modules/orders/orders.service.ts:118-125 | a kept document keeps its type and data; its file name is exactly the first 160 characters of the submitted one (all of it when shorter); a truthy MIME type is exactly its first 80 characters, and an absent or empty one becomes `application/pdf` |
| OrderDocuments.NormalizeAll | backend/src/modules/orders/orders.service.ts:118-125 | the normalised list is empty exactly when no document passes the filter |
| OrderDocuments.Types | backend/src/modules/orders/orders.service.ts:131 | the types to replace are exactly the types among the normalised documents |
| OrderDocuments.FindOwned | backend/src/modules/orders/orders.service.ts:114-115 | the ownership lookup finds nothing exactly when the user owns no order with that id |
| OrderDocuments.SaveDocuments | backend/src/modules/orders/orders.service.ts:105-153 | an empty list, an order the user does not own and a list with no usable document are refused in that order; otherwise each submitted type's group becomes exactly the submitted documents of that type, every other group is unchanged, the inserted rows carry the time of the save, and the reply lists, without their data, all the order's stored documents with their creation times (the query has no `ORDER BY`; the model lists them in table order) |
| OrderDocuments.GroupAfterReplace | backend/src/modules/orders/orders.service.ts:131-150 | the delete-then-insert empties the replaced groups before filling them, and leaves other orders and types alone |
| OrderDocuments.NewRowsOfType | backend/src/modules/orders/orders.service.ts:140-150 | the inserted rows of one type carry the submitted documents of that type, in order |
| OrderDocuments.ReplaceEffect | backend/src/modules/orders/orders.service.ts:131-150 | after the replacement each submitted type's group holds the submitted payloads and all other groups are unchanged |
| OrderDocuments.GetDocument | backend/src/modules/orders/orders.service.ts:155-181 | ownership, then the type name, then the document's existence are checked in that order; the document returned, data and creation time included, belongs to the order and has the type asked for (the query has no `ORDER BY`; the model picks the first of the group) |
| OrderDocuments.SingleOfType | backend/src/modules/orders/orders.service.ts:131 | with distinct submitted types each type occurs exactly once |
| OrderDocuments.SaveThenGet | backend/src/modules/orders/orders.service.ts:105-181 | when the submitted types are distinct, saving keeps one document per order and type, and fetching a saved type returns what was submitted |
| OrderDocuments.SameTypeAllStored | backend/src/modules/orders/orders.service.ts:118-150 | two usable documents of one type are both stored, so a group can hold more than one document |
| OrderDocuments.TwoInvoicesBothStored | backend/src/modules/orders/orders.service.ts:105-153 | one request with two invoices stores both |
| Admin.Summarize | backend/src/modules/admin/admin.service.ts:22-32 | a user's summary is the user without the password, the number of the user's orders and the sum of their totals |
| Admin.FilterCount | backend/src/modules/admin/admin.service.ts:25-29 | the user's orders number `CountOf`, and a user without orders has spent nothing |
| Admin.FilterSpent | backend/src/modules/admin/admin.service.ts:25-26 | the totals of the user's orders add up to what the user spent |
| Admin.SumReverse | backend/src/modules/admin/admin.service.ts:25-26 | reading the orders newest first does not change their sum |
| Admin.GetAllUsers | backend/src/modules/admin/admin.service.ts:16-36 | every user appears once, newest first, without the password and with their order count and spending |
| Admin.GetUserOrders | backend/src/modules/admin/admin.service.ts:38-43 | exactly the user's orders, newest first |
| Admin.CanActivate | backend/src/modules/admin/admin.guard.ts:6-12 | the guard admits exactly an administrator and refuses everyone else with a forbidden error; it never answers false |
| Admin.NoOrdersNoSpending | backend/src/modules/admin/admin.service.ts:25-31 | a user with no orders reports zero orders and zero spent |
| AdminPage.IsAdmin | frontend/src/pages/AdminPage.tsx:256 | the page opens exactly for a signed-in user the backend guard would admit |
| AdminPage.FilterUsers | frontend/src/pages/AdminPage.tsx:271-278 | the search keeps, in order, exactly the users whose lower-cased first name, last name or e-mail contains the lower-cased query |
| AdminPage.EmptySearchKeepsAll | frontend/src/pages/AdminPage.tsx:271-278 | an empty query keeps every user |
| AdminPage.DashboardTotals | frontend/src/pages/AdminPage.tsx:280-282 | the user count is the list's length, and an empty list has no orders and no revenue; the order and revenue sums themselves are tied to the orders table by `AdminPage.DashboardMatchesOrders` |
| AdminPage.AllUsersInit | backend/src/modules/admin/admin.service.ts:16-36 | the oldest user's summary is the list's last entry, and the rest is the list of the other users |
| AdminPage.DashboardMatchesOrders | frontend/src/pages/AdminPage.tsx:280-282 | on the list the backend returns, the dashboard counts each user's orders and spending once |
| AdminPage.StatusClass | frontend/src/pages/AdminPage.tsx:37-48 | for a status string the API returns, the grey fallback colour is used exactly when it names no order status |
| AdminPage.StatusClassOfName | frontend/src/pages/AdminPage.tsx:37-48 | every stored status gets its own colour |
| CheckoutFormat.Grouped | frontend/src/pages/CheckoutPage.tsx:92 | the grouped number has one separator per complete group of four digits before the last, and starts and ends with a digit |
| CheckoutFormat.InsertSpacesGrouped | frontend/src/pages/CheckoutPage.tsx:92 | the regular-expression replacement is the grouping plus one trailing space after a final complete group |
| CheckoutFormat.TrimInsertSpaces | frontend/src/pages/CheckoutPage.tsx:92 | trimming the replacement of a digit string yields exactly the grouping |
| CheckoutFormat.DigitsOfGrouped | frontend/src/pages/CheckoutPage.tsx:92 | grouping adds only spaces: the digits come back unchanged |
| CheckoutFormat.FormatCardNumber | frontend/src/pages/CheckoutPage.tsx:90-93 | the formatted number is the first sixteen digits of the input grouped by four, at most 19 characters, and its digits are exactly those sixteen (or fewer) |
| CheckoutFormat.FormatCardNumberIdempotent | frontend/src/pages/CheckoutPage.tsx:90-93 | formatting a formatted number changes nothing |
| CheckoutFormat.FormattedCardAccepted | frontend/src/pages/CheckoutPage.tsx:453 | any input with at least sixteen digits formats to a number that passes the card-number check |
| CheckoutFormat.FormatExpiry | frontend/src/pages/CheckoutPage.tsx:95-99 | the formatted expiry is the first four digits when there are at most two of them; otherwise it is the first two digits, a slash, then the remaining ones (`123` gives `12/3`) |
| CheckoutFormat.FormatExpiryIdempotent | frontend/src/pages/CheckoutPage.tsx:95-99 | formatting a formatted expiry changes nothing |
| CheckoutFormat.ExpiryMonth | frontend/src/pages/CheckoutPage.tsx:102-104 | a well-formed expiry names a month from 1 to 12 |
| CheckoutFormat.ExpiryYear | frontend/src/pages/CheckoutPage.tsx:102-105 | a well-formed expiry names a year of this century |
| CheckoutFormat.ExpiryText | frontend/src/pages/CheckoutPage.tsx:102-105 | the text of a month and a two-digit year is well formed and reads back as that month and year |
| CheckoutFormat.IsValidFutureExpiry | frontend/src/pages/CheckoutPage.tsx:101-112 | an accepted expiry has the `MM/YY` shape and a year not before the current one; the full characterisation (both directions) is `CheckoutFormat.ExpiryRoundTrip` |
| CheckoutFormat.ExpiryRoundTrip | frontend/src/pages/CheckoutPage.tsx:101-112 | an expiry is valid exactly when it is the text of a month and year not before the current ones; the current month is still valid |
| CheckoutFormat.TypedExpiry | frontend/src/pages/CheckoutPage.tsx:95-99 | typing the four digits of an expiry produces its text |
| CheckoutFormat.InferCardBrand | frontend/src/pages/CheckoutPage.tsx:114-119 | the brand is Visa exactly for a leading 4, Mastercard exactly for 51-55, Amex exactly for 34 or 37, and otherwise the generic card |
| CheckoutFormat.BrandFromPrefix | frontend/src/pages/CheckoutPage.tsx:114-119 | only the first two digits decide the brand |
| CheckoutFormat.LocalPart | frontend/src/pages/CheckoutPage.tsx:122 | the result is the text of the address before its first `@` (all of it when there is none) |
| CheckoutFormat.DomainPart | frontend/src/pages/CheckoutPage.tsx:122 | the result is the text between the first `@` and the next `@` or the end, and empty when there is no `@` |
| CheckoutFormat.MaskEmail | frontend/src/pages/CheckoutPage.tsx:121-126 | the mask is `***@***` exactly when the local part or the domain part is empty; otherwise it is the first one or two characters of the address (two exactly when the local part is longer than two), `***@` and the whole domain part |
| CheckoutFormat.MaskEmailParts | frontend/src/pages/CheckoutPage.tsx:121-126 | for an address `local@domain` the mask keeps the domain whole and at most two leading characters of the local part |
| Checkout.RemoveSavedPaymentMethod | frontend/src/pages/CheckoutPage.tsx:363-368 | the methods with that id are dropped and the rest kept in order; when some remain and none is the default, the first becomes the default; no other flag changes |
| Checkout.RemoveKeepsOneDefault | frontend/src/pages/CheckoutPage.tsx:363-368 | removing from a list with at most one default leaves exactly one default, unless the list becomes empty |
| Checkout.DefaultCountZero | frontend/src/pages/CheckoutPage.tsx:366 | no default is counted exactly when no method is flagged |
| Checkout.DefaultCountOne | frontend/src/pages/CheckoutPage.tsx:366-367 | a default count of one is the same as exactly one default |
| Checkout.SelectedSaved | frontend/src/pages/CheckoutPage.tsx:396 | the selected method is the first saved method with the selected id, absent exactly when none has it |
| Checkout.ValidateCheckoutInputs | frontend/src/pages/CheckoutPage.tsx:409-484 | a signed-out shopper is stopped by the authentication check, and an accepted form is signed in with a non-empty cart; the full contract (the first failing check, accepted iff none fails) is `Checkout.ValidateIsFirstFailure` |
| Checkout.ValidateIsFirstFailure | frontend/src/pages/CheckoutPage.tsx:409-484 | the validation accepts exactly when no check fails; otherwise it reports a failing check, and every check that runs before it passes |
| Checkout.FormattedNumberPasses | frontend/src/pages/CheckoutPage.tsx:447-456 | a number typed through the formatter with at least sixteen digits passes the card-number check |
| Checkout.Stars | frontend/src/pages/CheckoutPage.tsx:564 | the padding is that many asterisks |
| Checkout.Candidate | frontend/src/pages/CheckoutPage.tsx:512-569 | the method built from the form has the given id, default flag and payment type; a card carries the inferred brand, exactly the last four digits of the number and the typed expiry; PayPal carries the trimmed lower-cased address; a bank transfer carries the last four IBAN characters; each label is built from those fields (the PayPal one through `MaskEmail`) and the other type-specific fields are absent |
| Checkout.NewSavedMethod | frontend/src/pages/CheckoutPage.tsx:512-569 | a method is added exactly when no existing one is equivalent; it is the candidate built from the form, with the new id, and is the default exactly when there were none |
| Checkout.PersistCheckoutData | frontend/src/pages/CheckoutPage.tsx:486-589 | nothing is sent when signed out or when nothing is to be remembered; the contact fields are sent, trimmed, exactly when the shopper asks to remember them; a method list is sent only as the existing list plus the new method, and always when there is a new method to remember |
| Checkout.RepersistAddsNothing | frontend/src/pages/CheckoutPage.tsx:512-569 | after a method is saved, the same form adds nothing at a second checkout |
| Checkout.PersistKeepsOneDefault | frontend/src/pages/CheckoutPage.tsx:524-573 | the list sent keeps exactly one default when the existing list had one or was empty |
| ProfilePage.SavePassword | frontend/src/pages/ProfilePage.tsx:88-109 | a request is sent exactly when the current password is given, the new one has at least six characters and the confirmation repeats it; otherwise the first failing check is the error |
| ProfilePage.SavedPasswordLogsIn | frontend/src/pages/ProfilePage.tsx:88-109 | a change the page sends, with the right current password, makes the new password log in, including one that repeats the current password |
| ProfilePage.SaveProfile | frontend/src/pages/ProfilePage.tsx:58-76 | a request is sent exactly when the e-mail has the address shape, and it carries every field as typed and no payment methods |
| ProfilePage.SavedProfileKeepsStoreValid | frontend/src/pages/ProfilePage.tsx:58-86 | every update the page sends keeps user ids and e-mails unique |

Notes on what the code does:

- No backend route creates draft orders. The checkout page's save-for-later posts to `/orders/draft` (frontend/src/pages/CheckoutPage.tsx:741), which no controller serves, and `createOrder` always stores a new order with status `processing`.
- `saveDocuments` inserts every usable submitted document after deleting the order's documents of the submitted types. Two documents of one type in one request are therefore both stored, and `getDocument` returns only one of them (`OrderDocuments.SameTypeAllStored`, `OrderDocuments.TwoInvoicesBothStored`). With distinct types per request, one document per type holds (`OrderDocuments.SaveThenGet`).
- The payment-method sanitiser checks for a non-blank label before truncating it, so a stored label can be blank. Such a label is then dropped on the next save (`PaymentMethods.LabelTruncationCanBlank`).

## Left out

- Password hashing and token signing are parameters (`PasswordScheme`, `TokenSigner`). bcrypt's salt and cost factor and JWT's format are not modelled. The lemmas that need it assume only that a password matches its own hash.
- Request validation by the framework (`class-validator` decorators and the validation pipe) runs before the services. Its type and format checks are not modelled: a service accepts any value of its DTO datatype. The model relies on the pipe in these places.
  - The DTO datatypes hold only the declared fields. This models the pipe's `whitelist: true` (backend/src/main.ts:59), which strips every other body field.
  - Auth.Register: the new user has the user role, is active and takes the counter id only because `role`, `isActive` and `id` are stripped before `userRepo.create({ ...dto, password: hashed })`.
  - Products.Update: id, slug and creation time stay unchanged only because `id`, `slug` and `createdAt` are stripped before `Object.assign(product, dto)`.
  - Auth.UpdateProfilePreservesValid requires a non-empty e-mail, as `@IsEmail` guarantees.
  - The status change is the exception: its body is a plain object type, which the pipe does not check, and `Orders.UpdateStatusRequest` models the raw field.
- The database:
  - It is modelled as sequences and maps. Transactions, connection failures and concurrent requests are not modelled.
  - A failed request leaves the store unchanged, except for the cart that `getCart` creates. A profile update with `paymentMethods: null` is the other exception (see the `Auth.UpdateProfile` line).
  - Unique indexes are modelled only where a service relies on them: the slug on creation, and user e-mails and ids through `Auth.Valid`.
- Products.Create: a duplicate slug is reported as a server error with a fixed message. The driver's actual error text is not modelled.
- Auth.DefaultsFirst: the secondary `updatedAt DESC` order of `getMe` is not modelled. Methods of the same default flag keep table order. The contract states the permutation and the defaults-first order only.
- Auth.GetMe: the `me` view returns methods whose ids are the row ids. Rows carry no client id, so the contract relates contents, not client ids.
- Cart: the order of lines in a cart returned by the ORM is not modelled. Lines keep insertion order.
- Quantities in the cart service are taken as given. The service validates none, and neither does the model.
- Money is integer cents. The decimal column type and JavaScript floating-point arithmetic on prices are not modelled. A price is exact.
- Orders.CreateOrder: `Number(...)` on request values is a `JsNumber`, with no model of NaN propagation or of how a non-numeric string is coerced.
- Null elements in the payment-method and document arrays are `None` entries, dropped by the filters. Other non-object values are treated the same way.
- Orders.CreateOrder: an element of `items` is always an object. A null element makes the source throw a `TypeError` at `item.productId` (a server error); the model has no such element.
- Orders.CreateOrder: product ids and quantities are unbounded integers. A value beyond the 32-bit integer columns of `order_items` fails in the database; the model stores it.
- Cart.AddItem: `cart_items.productId` is a foreign key to `products`. Adding an id with no product fails in the database with a server error, after `getCart` has created the cart; the model adds the line.
- Products.Create: `categoryId` is a foreign key to `categories`, which are not modelled; a category id that names no category fails in the database, and the model accepts it. The same holds for Products.Update.
- Products.Create: `images` is a nullable column without a default, so a product created without images stores NULL. The model stores an empty list.
- OrderDocuments.SaveDocuments: the reply comes from `find({ where: { orderId } })`, which has no `ORDER BY`, so the order of the listed documents is up to the database. The model lists them in table order.
- Orders.UpdateStatusRequest: the reply to a request without `status` is the order object with `status` set to undefined, so the JSON reply lacks the field; the model replies with the stored order. Every value that is not a string (`null`, a number, a boolean, an object, an array) is one `NotText` case failing with the enumeration error's message, although the database words the `null` case as a NOT NULL violation.
- OrderDocuments.GetDocument: `getOne()` runs without `ORDER BY`, so which document of a group with several comes back is up to the database. The model returns the first in table order.
- AdminPage.StatusClass: `STATUS_COLORS` is a plain object, so a key such as `constructor` or `toString` yields an inherited member rather than the grey class. The model gives such strings the grey class; the API only returns order statuses.
- String handling:
  - Lower-casing folds only ASCII letters.
  - Lengths and slices count code points rather than UTF-16 units.
  - `trim` and `\s` use the ECMAScript whitespace set.
- The current date of the checkout page and the id built from `Date.now()` and `Math.random()` are parameters.
- The checkout page's I/O is not modelled: the PDF generation, the clipboard, opening PayPal in a new window, the API calls, navigation, React state and rendering. `persistCheckoutData` is modelled up to the payload it sends; the stored profile it reads is a parameter.
- The checkout page's `getCheckoutContext` labels, which are display text only, are not modelled. The billing address and selected method it computes are modelled (`Checkout.FinalBilling`, `Checkout.SelectedSaved`).
- Entities.WithoutPassword: the `updatedAt` column of `users` is not modelled, so the user view in the register, login and `me` replies lacks the `updatedAt` that `{ password, ...user }` keeps.
- Orders.FindOne: an order carries no `updatedAt`, no `checkoutData` (a nullable JSON column that no service writes) and no eager `documents` relation. The replies of `findOne`, `findByUser`, `createOrder`, `updateStatus` and the admin's `getUserOrders` include them; the model's orders do not. The documents themselves are modelled in `OrderDocuments`.
- Auth.UpdateProfile: a DTO field is either absent or a string (a list for `paymentMethods`). JSON `null`, which `@IsOptional` lets through and the service treats as a given value, is not modelled. `phone: null` would clear the phone. `firstName: null` or `email: null` would make the save of the user fail. `paymentMethods: null` throws a `TypeError` in the sanitiser after the user row, and any shipping fields, have already been saved.
- Checkout.ValidateIsFirstFailure: the side effects of a failed check (the error message shown, the redirect to the login page) are not modelled. The result names the failing check instead.
- Controllers, routing, authentication middleware, the categories service, the seed and stock scripts, `main.ts` start-up and schema synchronisation are outside the core and not modelled.

=== FILE: admin.dfy ===
/** The administrator's views (backend/src/modules/admin/admin.service.ts) and the guard
    in front of them (backend/src/modules/admin/admin.guard.ts). */
module Admin {
  import opened Wrappers
  import opened Entities
  import opened Seqs
  import Orders

  const AdminOnly: string := "Accesso riservato agli amministratori"

  /** One entry of `getAllUsers`: the user without the password, with order statistics. */
  datatype UserSummary = UserSummary(user: PublicUser, orderCount: nat, totalSpent: int)

  function CreatedAt(u: User): nat {
    u.createdAt
  }

  /** The sum of the order totals, left to right (`reduce((sum, o) => sum + o.total, 0)`). */
  function SumTotals(orders: seq<Order>): int {
    if |orders| == 0 then 0 else SumTotals(orders[..|orders| - 1]) + orders[|orders| - 1].total
  }

  /** The number of orders placed by `userId`, counted over the table. */
  function CountOf(orders: seq<Order>, userId: nat): nat {
    if |orders| == 0 then 0 else (if orders[0].userId == Some(userId) then 1 else 0) + CountOf(orders[1..], userId)
  }

  /** The sum of the totals of the orders placed by `userId`, over the table. */
  function SpentBy(orders: seq<Order>, userId: nat): int {
    if |orders| == 0 then 0 else (if orders[0].userId == Some(userId) then orders[0].total else 0) + SpentBy(orders[1..], userId)
  }

  /** The summary of one user, from their orders newest first. */
  function Summarize(u: User, db: Orders.OrderDb): (s: UserSummary)
    ensures s.user == WithoutPassword(u)
    ensures s.orderCount == CountOf(db.orders, u.id)
    ensures s.totalSpent == SpentBy(db.orders, u.id)
    ensures CountOf(db.orders, u.id) == 0 ==> s.totalSpent == 0
  {
    var mine := Orders.FindByUser(db, u.id);
    var filtered := Filter(db.orders, (o: Order) => o.userId == Some(u.id));
    assert mine == Reverse(filtered);
    FilterCount(db.orders, u.id);
    SumReverse(filtered);
    FilterSpent(db.orders, u.id);
    UserSummary(WithoutPassword(u), |mine|, SumTotals(mine))
  }

  /** Filtering by owner keeps exactly `CountOf` orders. */
  lemma {:induction false} FilterCount(orders: seq<Order>, userId: nat)
    ensures |Filter(orders, (o: Order) => o.userId == Some(userId))| == CountOf(orders, userId)
    ensures CountOf(orders, userId) == 0 ==> SpentBy(orders, userId) == 0
    decreases |orders|
  {
    if |orders| > 0 {
      FilterCount(orders[1..], userId);
    }
  }

  /** The totals of the owner's orders add up to `SpentBy`. */
  lemma {:induction false} FilterSpent(orders: seq<Order>, userId: nat)
    ensures SumTotals(Filter(orders, (o: Order) => o.userId == Some(userId))) == SpentBy(orders, userId)
    decreases |orders|
  {
    if |orders| > 0 {
      FilterSpent(orders[1..], userId);
      var p := (o: Order) => o.userId == Some(userId);
      var head := if p(orders[0]) then [orders[0]] else [];
      assert Filter(orders, p) == head + Filter(orders[1..], p);
      SumAppend(head, Filter(orders[1..], p));
      assert SumTotals([]) == 0;
    }
  }

  lemma {:induction false} SumAppend(a: seq<Order>, b: seq<Order>)
    ensures SumTotals(a + b) == SumTotals(a) + SumTotals(b)
    decreases |b|
  {
    if |b| == 0 {
      assert a + b == a;
    } else {
      assert (a + b)[..|a + b| - 1] == a + b[..|b| - 1];
      SumAppend(a, b[..|b| - 1]);
    }
  }

  /** Reading the orders newest first does not change their sum. */
  lemma {:induction false} SumReverse(orders: seq<Order>)
    ensures SumTotals(Reverse(orders)) == SumTotals(orders)
    decreases |orders|
  {
    if |orders| > 0 {
      SumReverse(orders[1..]);
      assert Reverse(orders) == Reverse(orders[1..]) + [orders[0]];
      SumAppend(Reverse(orders[1..]), [orders[0]]);
      SumAppend([orders[0]], orders[1..]);
      assert [orders[0]] + orders[1..] == orders;
      assert SumTotals([orders[0]]) == SumTotals([]) + orders[0].total;
    }
  }

  /** `getAllUsers`: every user once, newest first, without the password, with the number
      and the summed totals of their orders. */
  function GetAllUsers(users: seq<User>, db: Orders.OrderDb): (r: seq<UserSummary>)
    ensures |r| == |users|
    ensures forall i :: 0 <= i < |r| ==>
              && r[i].user == WithoutPassword(users[|users| - 1 - i])
              && r[i].orderCount == CountOf(db.orders, users[|users| - 1 - i].id)
              && r[i].totalSpent == SpentBy(db.orders, users[|users| - 1 - i].id)
    ensures Ascending(users, CreatedAt) ==>
              forall i, j :: 0 <= i < j < |r| ==> r[i].user.createdAt >= r[j].user.createdAt
  {
    var newest := Reverse(users);
    var r := seq(|newest|, i requires 0 <= i < |newest| => Summarize(newest[i], db));
    if Ascending(users, CreatedAt) then
      ReverseOfAscending(users, CreatedAt);
      assert forall i :: 0 <= i < |r| ==> r[i].user.createdAt == newest[i].createdAt;
      r
    else r
  }

  /** `getUserOrders`: exactly that user's orders, newest first. */
  function GetUserOrders(db: Orders.OrderDb, userId: nat): (r: seq<Order>)
    ensures forall i :: 0 <= i < |r| ==> r[i] in db.orders && r[i].userId == Some(userId)
    ensures forall i :: 0 <= i < |db.orders| && db.orders[i].userId == Some(userId) ==> db.orders[i] in r
    ensures |r| == CountOf(db.orders, userId)
    ensures Ascending(db.orders, Orders.CreatedAt) ==> Descending(r, Orders.CreatedAt)
  {
    FilterCount(db.orders, userId);
    Orders.FindByUser(db, userId)
  }

  /** `AdminGuard.canActivate`, given the role of the authenticated user (None when the
      request carries no user): admits an administrator, refuses everyone else. */
  function CanActivate(role: Option<UserRole>): (r: Result<bool, Error>)
    ensures r.Success? <==> role == Some(RoleAdmin)
    ensures r.Failure? ==> r.error == Forbidden(AdminOnly)
    ensures r != Success(false)
  {
    if role != Some(RoleAdmin) then Failure(Forbidden(AdminOnly)) else Success(true)
  }

  /** A user with no orders reports zero orders and zero spent. */
  lemma NoOrdersNoSpending(u: User, db: Orders.OrderDb)
    requires forall i :: 0 <= i < |db.orders| ==> db.orders[i].userId != Some(u.id)
    ensures Summarize(u, db).orderCount == 0 && Summarize(u, db).totalSpent == 0
  {
    NoOrdersCount(db.orders, u.id);
  }

  lemma {:induction false} NoOrdersCount(orders: seq<Order>, userId: nat)
    requires forall i :: 0 <= i < |orders| ==> orders[i].userId != Some(userId)
    ensures CountOf(orders, userId) == 0
    decreases |orders|
  {
    if |orders| > 0 {
      NoOrdersCount(orders[1..], userId);
    }
  }
}

=== FILE: admin_page.dfy ===
/** The administrator dashboard (frontend/src/pages/AdminPage.tsx): the access test, the
    search over the user list, the dashboard totals and the order-status colours. */
module AdminPage {
  import opened Wrappers
  import opened Text
  import opened Entities
  import opened Seqs
  import opened Admin

  const FallbackStatusClass: string := "text-gray-400 bg-gray-400/10 border-gray-400/30"

  /** `isAdmin`: signed in, with the administrator role. */
  function IsAdmin(authenticated: bool, role: Option<UserRole>): (r: bool)
    ensures r <==> authenticated && CanActivate(role) == Success(true)
  {
    authenticated && role == Some(RoleAdmin)
  }

  // ---------------------------------------------------------------------------
  // Search

  /** The search condition for an already lower-cased query. */
  function Matches(q: string): UserSummary -> bool {
    (u: UserSummary) =>
      Contains(Lower(u.user.firstName), q) || Contains(Lower(u.user.lastName), q) || Contains(Lower(u.user.email), q)
  }

  /** The lower-cased query occurs in the lower-cased first name, last name or e-mail. */
  ghost predicate Keeps(search: string, u: UserSummary) {
    var q := Lower(search);
    IsSubstring(q, Lower(u.user.firstName)) || IsSubstring(q, Lower(u.user.lastName)) || IsSubstring(q, Lower(u.user.email))
  }

  /** The `filtered` list: the users the query keeps, in the order of the list. */
  function FilterUsers(users: seq<UserSummary>, search: string): (r: seq<UserSummary>)
    ensures IsSubsequence(r, users)
    ensures forall i :: 0 <= i < |r| ==> Keeps(search, r[i])
    ensures forall i :: 0 <= i < |users| ==> (users[i] in r <==> Keeps(search, users[i]))
  {
    FilterIsSubsequence(users, Matches(Lower(search)));
    Filter(users, Matches(Lower(search)))
  }

  /** An empty query keeps every user. */
  lemma EmptySearchKeepsAll(users: seq<UserSummary>)
    ensures FilterUsers(users, "") == users
  {
    assert Lower("") == "";
    forall i | 0 <= i < |users| ensures Matches("")(users[i]) {
      assert OccursAt("", Lower(users[i].user.email), 0);
    }
    FilterAll(users, Matches(""));
  }

  // ---------------------------------------------------------------------------
  // Dashboard totals

  /** `users.reduce((s, u) => s + u.orderCount, 0)`. */
  function TotalOrders(users: seq<UserSummary>): nat {
    if |users| == 0 then 0 else TotalOrders(users[..|users| - 1]) + users[|users| - 1].orderCount
  }

  /** `users.reduce((s, u) => s + u.totalSpent, 0)`. */
  function TotalRevenue(users: seq<UserSummary>): int {
    if |users| == 0 then 0 else TotalRevenue(users[..|users| - 1]) + users[|users| - 1].totalSpent
  }

  /** The dashboard figures: the number of users, their orders and their spending. */
  datatype Totals = Totals(totalUsers: nat, totalOrders: nat, totalRevenue: int)

  function DashboardTotals(users: seq<UserSummary>): (t: Totals)
    ensures t.totalUsers == |users|
    ensures |users| == 0 ==> t.totalOrders == 0 && t.totalRevenue == 0
  {
    Totals(|users|, TotalOrders(users), TotalRevenue(users))
  }

  /** The orders of the listed users, counted user by user over the orders table. */
  function OrdersOf(users: seq<User>, orders: seq<Order>): nat {
    if |users| == 0 then 0 else CountOf(orders, users[0].id) + OrdersOf(users[1..], orders)
  }

  /** The spending of the listed users, summed user by user over the orders table. */
  function SpendingOf(users: seq<User>, orders: seq<Order>): int {
    if |users| == 0 then 0 else SpentBy(orders, users[0].id) + SpendingOf(users[1..], orders)
  }

  /** On the list `getAllUsers` returns, the dashboard counts each listed user's orders and
      spending once, whatever order the list is in. */
  lemma {:induction false} DashboardMatchesOrders(users: seq<User>, db: Orders.OrderDb)
    ensures var t := DashboardTotals(GetAllUsers(users, db));
            t.totalUsers == |users| && t.totalOrders == OrdersOf(users, db.orders)
            && t.totalRevenue == SpendingOf(users, db.orders)
    decreases |users|
  {
    if |users| > 0 {
      DashboardMatchesOrders(users[1..], db);
      AllUsersInit(users, db);
    }
  }

  /** Without its last entry (the oldest user), the list is the list of the other users. */
  lemma AllUsersInit(users: seq<User>, db: Orders.OrderDb)
    requires |users| > 0
    ensures var r := GetAllUsers(users, db);
            && r[..|r| - 1] == GetAllUsers(users[1..], db)
            && r[|r| - 1].orderCount == CountOf(db.orders, users[0].id)
            && r[|r| - 1].totalSpent == SpentBy(db.orders, users[0].id)
  {
    var r := GetAllUsers(users, db);
    var rest := GetAllUsers(users[1..], db);
    forall i | 0 <= i < |rest| ensures r[i] == rest[i] {
      assert users[|users| - 1 - i] == users[1..][|users[1..]| - 1 - i];
    }
  }

  // ---------------------------------------------------------------------------
  // Status colours

  /** The `STATUS_COLORS` entry of a known status. */
  function StatusColor(s: OrderStatus): string {
    match s
    case Pending => "text-yellow-400 bg-yellow-400/10 border-yellow-400/30"
    case Processing => "text-blue-400 bg-blue-400/10 border-blue-400/30"
    case Shipped => "text-purple-400 bg-purple-400/10 border-purple-400/30"
    case Delivered => "text-green-400 bg-green-400/10 border-green-400/30"
    case Cancelled => "text-red-400 bg-red-400/10 border-red-400/30"
  }

  /** `STATUS_COLORS[status] ?? gray`: the colour of a status string from the API. */
  function StatusClass(status: string): (r: string)
    ensures r == FallbackStatusClass <==> forall s: OrderStatus :: s.Name() != status
  {
    if status == "pending" then assert Pending.Name() == status; StatusColor(Pending)
    else if status == "processing" then assert Processing.Name() == status; StatusColor(Processing)
    else if status == "shipped" then assert Shipped.Name() == status; StatusColor(Shipped)
    else if status == "delivered" then assert Delivered.Name() == status; StatusColor(Delivered)
    else if status == "cancelled" then assert Cancelled.Name() == status; StatusColor(Cancelled)
    else FallbackStatusClass
  }

  /** Every status the backend stores gets its own colour. */
  lemma StatusClassOfName(s: OrderStatus)
    ensures StatusClass(s.Name()) == StatusColor(s)
  {
  }
}

=== FILE: auth.dfy ===
/** The authentication and profile service (backend/src/modules/auth/auth.service.ts)
    over an abstract store of users, shipping profiles and payment-method rows.
    Password hashing and token signing are parameters with no interpretation. */
module Auth {
  import opened Wrappers
  import opened Text
  import opened Entities
  import opened PaymentMethods
  import opened Seqs

  const EmailInUse: string := "Email già in uso"
  const InvalidCredentials: string := "Credenziali non valide"
  const UserNotFound: string := "Utente non trovato"
  const WrongCurrentPassword: string := "Password attuale non valida"

  /** bcrypt: `hash(p)` is the stored hash of `p`, `matches(p, h)` is `compare(p, h)`. */
  datatype PasswordScheme = PasswordScheme(hash: string -> string, matches: (string, string) -> bool)

  /** `jwtService.sign({ sub, email, role })`. */
  type TokenSigner = (nat, string, UserRole) -> string

  /** A row of `payment_methods`: the database id, the owner, and the saved fields
      (the client-side `id` is not stored, so `content.id` is always empty). */
  datatype MethodRow = MethodRow(rowId: nat, userId: nat, content: SavedPaymentMethod)

  /** The tables the service reads and writes, with the next free ids. */
  datatype AuthDb = AuthDb(
    users: seq<User>,
    profiles: map<nat, ShippingProfile>,
    methods: seq<MethodRow>,
    nextUserId: nat,
    nextMethodId: nat)

  /** The store's integrity: user ids and e-mails unique (the primary key and the unique
      index on `email`), and every id below the next one to hand out. */
  ghost predicate Valid(db: AuthDb) {
    && UniqueUsers(db.users)
    && (forall i :: 0 <= i < |db.users| ==> db.users[i].id < db.nextUserId)
    && (forall i :: 0 <= i < |db.methods| ==> db.methods[i].rowId < db.nextMethodId)
  }

  /** No two users share an id or an e-mail. */
  ghost predicate UniqueUsers(users: seq<User>) {
    forall i, j :: 0 <= i < j < |users| ==> users[i].id != users[j].id && users[i].email != users[j].email
  }

  /** `userRepo.findOne({ where: { id } })`, as a row position. */
  function FindUser(users: seq<User>, id: nat): Option<nat> {
    IndexWhere(users, (u: User) => u.id == id)
  }

  /** `userRepo.findOne({ where: { email } })`, as a row position. */
  function FindByEmail(users: seq<User>, email: string): Option<nat> {
    IndexWhere(users, (u: User) => u.email == email)
  }

  /** `users[k]` is the row a lookup by `email` finds. */
  ghost predicate FirstWithEmail(users: seq<User>, k: int, email: string) {
    0 <= k < |users| && users[k].email == email && forall j :: 0 <= j < k ==> users[j].email != email
  }

  /** `users[k]` is the row a lookup by `id` finds. */
  ghost predicate FirstWithId(users: seq<User>, k: int, id: nat) {
    0 <= k < |users| && users[k].id == id && forall j :: 0 <= j < k ==> users[j].id != id
  }

  datatype RegisterDto = RegisterDto(
    firstName: string,
    lastName: string,
    email: string,
    password: string,
    address: Option<string>,
    billingAddress: Option<string>)

  datatype LoginDto = LoginDto(email: string, password: string)

  datatype ChangePasswordDto = ChangePasswordDto(currentPassword: string, newPassword: string)

  /** The fields of `UpdateProfileDto` the service reads; `paymentMethods` is the raw array. */
  datatype UpdateProfileDto = UpdateProfileDto(
    firstName: Option<string>,
    lastName: Option<string>,
    email: Option<string>,
    phone: Option<string>,
    address: Option<string>,
    billingAddress: Option<string>,
    paymentMethods: Option<seq<RawEntry>>)

  /** `{ accessToken, user }` with the password stripped from the user. */
  datatype AuthResponse = AuthResponse(accessToken: string, user: PublicUser)

  /** The `getMe` view of a user. */
  datatype Me = Me(
    user: PublicUser,
    phone: Option<string>,
    address: Option<string>,
    billingAddress: Option<string>,
    paymentMethods: seq<SavedPaymentMethod>)

  /** `buildResponse`. */
  function BuildResponse(u: User, sign: TokenSigner): AuthResponse {
    AuthResponse(sign(u.id, u.email, u.role), WithoutPassword(u))
  }

  /** `register`: reject a taken e-mail, otherwise store the user with the hashed password
      and the default role. The optional address fields are not user columns. */
  function Register(db: AuthDb, dto: RegisterDto, scheme: PasswordScheme, sign: TokenSigner, now: nat)
    : (r: Result<(AuthDb, AuthResponse), Error>)
    ensures r.Failure? <==> exists k :: 0 <= k < |db.users| && db.users[k].email == dto.email
    ensures r.Failure? ==> r.error == Conflict(EmailInUse)
    ensures r.Success? ==>
              var db' := r.value.0;
              && |db'.users| == |db.users| + 1
              && db'.users[..|db.users|] == db.users
              && db'.profiles == db.profiles && db'.methods == db.methods
              && var u := db'.users[|db.users|];
                 && u.id == db.nextUserId
                 && u.email == dto.email && u.firstName == dto.firstName && u.lastName == dto.lastName
                 && u.password == scheme.hash(dto.password)
                 && u.role == RoleUser && u.isActive
                 && r.value.1 == BuildResponse(u, sign)
  {
    match FindByEmail(db.users, dto.email)
    case Some(_) => Failure(Conflict(EmailInUse))
    case None =>
      var u := User(db.nextUserId, dto.firstName, dto.lastName, dto.email, scheme.hash(dto.password),
                    RoleUser, true, now);
      var db' := db.(users := db.users + [u], nextUserId := db.nextUserId + 1);
      assert db'.users[..|db.users|] == db.users;
      Success((db', BuildResponse(u, sign)))
  }

  lemma RegisterPreservesValid(db: AuthDb, dto: RegisterDto, scheme: PasswordScheme, sign: TokenSigner, now: nat)
    requires Valid(db)
    ensures var r := Register(db, dto, scheme, sign, now);
            r.Success? ==> Valid(r.value.0)
  {
    var r := Register(db, dto, scheme, sign, now);
    if r.Success? {
      var users := r.value.0.users;
      forall i, j | 0 <= i < j < |users| ensures users[i].id != users[j].id && users[i].email != users[j].email {
        if j == |db.users| {
          assert users[i] == db.users[i];
        } else {
          assert users[i] == db.users[i] && users[j] == db.users[j];
        }
      }
    }
  }

  /** `login`: an unknown e-mail and a wrong password fail with the same exception. */
  function Login(db: AuthDb, dto: LoginDto, scheme: PasswordScheme, sign: TokenSigner)
    : (r: Result<AuthResponse, Error>)
    ensures r.Failure? ==> r.error == Unauthorized(InvalidCredentials)
    ensures r.Success? <==>
              exists k :: FirstWithEmail(db.users, k, dto.email) && scheme.matches(dto.password, db.users[k].password)
    ensures r.Success? ==>
              exists k :: FirstWithEmail(db.users, k, dto.email) && r.value == BuildResponse(db.users[k], sign)
  {
    match FindByEmail(db.users, dto.email)
    case None => Failure(Unauthorized(InvalidCredentials))
    case Some(k) =>
      assert FirstWithEmail(db.users, k, dto.email);
      if !scheme.matches(dto.password, db.users[k].password) then Failure(Unauthorized(InvalidCredentials))
      else Success(BuildResponse(db.users[k], sign))
  }

  // ---------------------------------------------------------------------------
  // Reading the profile

  /** The rows of `payment_methods` owned by `userId`, in table order. */
  function RowsOf(methods: seq<MethodRow>, userId: nat): seq<MethodRow> {
    Filter(methods, (row: MethodRow) => row.userId == userId)
  }

  /** `mapPaymentMethodEntityToSaved`: the API id is the database id as a string. */
  function ToSaved(row: MethodRow): SavedPaymentMethod {
    row.content.(id := NatToString(row.rowId))
  }

  function ToSavedAll(rows: seq<MethodRow>): (r: seq<SavedPaymentMethod>)
    ensures |r| == |rows| && forall i :: 0 <= i < |rows| ==> r[i] == ToSaved(rows[i])
  {
    seq(|rows|, i requires 0 <= i < |rows| => ToSaved(rows[i]))
  }

  /** The fields of a method other than its id. */
  function Content(m: SavedPaymentMethod): SavedPaymentMethod {
    m.(id := "")
  }

  function Contents(ms: seq<SavedPaymentMethod>): (r: seq<SavedPaymentMethod>)
    ensures |r| == |ms| && forall i :: 0 <= i < |ms| ==> r[i] == Content(ms[i])
  {
    seq(|ms|, i requires 0 <= i < |ms| => Content(ms[i]))
  }

  /** `ORDER BY isDefault DESC`: the default methods first, each group in table order. */
  function DefaultsFirst(ms: seq<SavedPaymentMethod>): (r: seq<SavedPaymentMethod>)
    ensures multiset(r) == multiset(ms)
    ensures forall i, j :: 0 <= i < j < |r| && r[j].isDefault ==> r[i].isDefault
  {
    PartitionMultiset(ms);
    Filter(ms, IsDefault) + Filter(ms, NotDefault)
  }

  predicate IsDefault(m: SavedPaymentMethod) {
    m.isDefault
  }

  predicate NotDefault(m: SavedPaymentMethod) {
    !m.isDefault
  }

  lemma {:induction false} PartitionMultiset(ms: seq<SavedPaymentMethod>)
    ensures multiset(Filter(ms, IsDefault)) + multiset(Filter(ms, NotDefault)) == multiset(ms)
    decreases |ms|
  {
    if |ms| > 0 {
      PartitionMultiset(ms[1..]);
      var head := [ms[0]];
      assert ms == head + ms[1..];
      if ms[0].isDefault {
        assert Filter(ms, IsDefault) == head + Filter(ms[1..], IsDefault);
        assert Filter(ms, NotDefault) == Filter(ms[1..], NotDefault);
      } else {
        assert Filter(ms, IsDefault) == Filter(ms[1..], IsDefault);
        assert Filter(ms, NotDefault) == head + Filter(ms[1..], NotDefault);
      }
    }
  }

  /** `getMe`: the user without the password, the shipping profile's fields (null when
      there is none) and the saved methods, defaults first. */
  function GetMe(db: AuthDb, userId: nat): (r: Result<Me, Error>)
    ensures r.Failure? <==> forall k :: 0 <= k < |db.users| ==> db.users[k].id != userId
    ensures r.Failure? ==> r.error == Unauthorized(UserNotFound)
    ensures r.Success? ==> exists k :: FirstWithId(db.users, k, userId) && r.value.user == WithoutPassword(db.users[k])
    ensures r.Success? && userId !in db.profiles ==>
              r.value.phone.None? && r.value.address.None? && r.value.billingAddress.None?
    ensures r.Success? && userId in db.profiles ==>
              && r.value.phone == db.profiles[userId].phone
              && r.value.address == db.profiles[userId].shippingAddress
              && r.value.billingAddress == db.profiles[userId].billingAddress
    ensures r.Success? ==> multiset(r.value.paymentMethods) == multiset(ToSavedAll(RowsOf(db.methods, userId)))
    ensures r.Success? ==> forall i, j :: 0 <= i < j < |r.value.paymentMethods| && r.value.paymentMethods[j].isDefault ==>
                                           r.value.paymentMethods[i].isDefault
  {
    match FindUser(db.users, userId)
    case None => Failure(Unauthorized(UserNotFound))
    case Some(k) =>
      assert FirstWithId(db.users, k, userId);
      var profile := if userId in db.profiles then Some(db.profiles[userId]) else None;
      Success(Me(
        WithoutPassword(db.users[k]),
        if profile.Some? then profile.value.phone else None,
        if profile.Some? then profile.value.shippingAddress else None,
        if profile.Some? then profile.value.billingAddress else None,
        DefaultsFirst(ToSavedAll(RowsOf(db.methods, userId)))))
  }

  // ---------------------------------------------------------------------------
  // Updating the profile

  /** The profile's e-mail change would take an address another user already has: the
      new e-mail is truthy, differs from the current one, and the row found for it
      belongs to someone else. */
  predicate EmailConflict(users: seq<User>, k: nat, email: Option<string>)
    requires k < |users|
  {
    && email.Some? && email.value != "" && email.value != users[k].email
    && match FindByEmail(users, email.value)
       case None => false
       case Some(j) => users[j].id != users[k].id
  }

  /** `Object.assign(user, updatePayload)` with only the defined name and e-mail fields. */
  function ApplyUserFields(u: User, dto: UpdateProfileDto): User {
    u.(firstName := dto.firstName.GetOr(u.firstName),
       lastName := dto.lastName.GetOr(u.lastName),
       email := dto.email.GetOr(u.email))
  }

  /** One of phone, address or billing address is defined. */
  predicate TouchesShipping(dto: UpdateProfileDto) {
    dto.phone.Some? || dto.address.Some? || dto.billingAddress.Some?
  }

  /** The existing profile (or a new default one) with the defined fields overwritten. */
  function ApplyShipping(profiles: map<nat, ShippingProfile>, userId: nat, dto: UpdateProfileDto): ShippingProfile {
    var base := if userId in profiles then profiles[userId] else ShippingProfile(userId, None, None, None, true);
    base.(phone := if dto.phone.Some? then dto.phone else base.phone,
          shippingAddress := if dto.address.Some? then dto.address else base.shippingAddress,
          billingAddress := if dto.billingAddress.Some? then dto.billingAddress else base.billingAddress)
  }

  /** The rows inserted for a sanitised list, with consecutive fresh ids. */
  function NewRows(ms: seq<SavedPaymentMethod>, userId: nat, firstId: nat): (r: seq<MethodRow>)
    ensures |r| == |ms|
    ensures forall i :: 0 <= i < |ms| ==> r[i] == MethodRow(firstId + i, userId, Content(ms[i]))
  {
    seq(|ms|, i requires 0 <= i < |ms| => MethodRow(firstId + i, userId, Content(ms[i])))
  }

  /** Delete every row of `userId`, then insert the new list. */
  function ReplaceMethods(methods: seq<MethodRow>, userId: nat, ms: seq<SavedPaymentMethod>, firstId: nat): seq<MethodRow> {
    Filter(methods, (row: MethodRow) => row.userId != userId) + NewRows(ms, userId, firstId)
  }

  /** The store after a successful update of user row `k`: only the defined fields of that
      user change, the shipping profile is written when one of its fields is given, and the
      payment methods are replaced when a list is given; nothing else changes. */
  function Applied(db: AuthDb, k: nat, userId: nat, dto: UpdateProfileDto): (db': AuthDb)
    requires k < |db.users|
    ensures |db'.users| == |db.users|
    ensures forall j :: 0 <= j < |db.users| && j != k ==> db'.users[j] == db.users[j]
    ensures db'.users[k] == ApplyUserFields(db.users[k], dto)
    ensures userId in db'.profiles <==> userId in db.profiles || TouchesShipping(dto)
    ensures forall other :: other != userId ==>
              && (other in db'.profiles <==> other in db.profiles)
              && (other in db.profiles ==> db'.profiles[other] == db.profiles[other])
    ensures !TouchesShipping(dto) ==> db'.profiles == db.profiles
    ensures TouchesShipping(dto) ==> db'.profiles[userId] == ApplyShipping(db.profiles, userId, dto)
    ensures dto.paymentMethods.None? ==> db'.methods == db.methods
    ensures dto.paymentMethods.Some? ==>
              Contents(ToSavedAll(RowsOf(db'.methods, userId))) == Contents(Sanitize(dto.paymentMethods.value))
    ensures forall other :: other != userId ==> RowsOf(db'.methods, other) == RowsOf(db.methods, other)
    ensures db'.nextUserId == db.nextUserId && db'.nextMethodId >= db.nextMethodId
  {
    var users := db.users[k := ApplyUserFields(db.users[k], dto)];
    var profiles := if TouchesShipping(dto) then db.profiles[userId := ApplyShipping(db.profiles, userId, dto)]
                    else db.profiles;
    var sanitized := if dto.paymentMethods.Some? then Sanitize(dto.paymentMethods.value) else [];
    var methods := if dto.paymentMethods.Some? then ReplaceMethods(db.methods, userId, sanitized, db.nextMethodId)
                   else db.methods;
    ReplaceMethodsEffect(db.methods, userId, sanitized, db.nextMethodId);
    AuthDb(users, profiles, methods, db.nextUserId, db.nextMethodId + |sanitized|)
  }

  /** `updateProfile`: an unknown user, then an e-mail taken by someone else, are refused;
      otherwise the store becomes `Applied` and the reply is the new `getMe` view. */
  function UpdateProfile(db: AuthDb, userId: nat, dto: UpdateProfileDto): (r: Result<(AuthDb, Me), Error>)
    ensures (r.Failure? && r.error == Unauthorized(UserNotFound)) <==>
              forall k :: 0 <= k < |db.users| ==> db.users[k].id != userId
    ensures forall k :: FirstWithId(db.users, k, userId) ==>
              && (r.Failure? <==> EmailConflict(db.users, k, dto.email))
              && (r.Failure? ==> r.error == Conflict(EmailInUse))
              && (r.Success? ==> r.value.0 == Applied(db, k, userId, dto))
    ensures r.Success? ==> GetMe(r.value.0, userId) == Success(r.value.1)
  {
    match FindUser(db.users, userId)
    case None => Failure(Unauthorized(UserNotFound))
    case Some(k) =>
      assert FirstWithId(db.users, k, userId);
      if EmailConflict(db.users, k, dto.email) then Failure(Conflict(EmailInUse))
      else
        var db' := Applied(db, k, userId, dto);
        assert FirstWithId(db'.users, k, userId);
        Success((db', GetMe(db', userId).value))
  }

  lemma {:induction false} FilterOutOwner(methods: seq<MethodRow>, userId: nat, other: nat)
    ensures RowsOf(Filter(methods, (row: MethodRow) => row.userId != userId), other)
            == (if other == userId then [] else RowsOf(methods, other))
    decreases |methods|
  {
    if |methods| > 0 {
      var ne := (row: MethodRow) => row.userId != userId;
      var eq := (row: MethodRow) => row.userId == other;
      FilterOutOwner(methods[1..], userId, other);
      var head := if ne(methods[0]) then [methods[0]] else [];
      assert Filter(methods, ne) == head + Filter(methods[1..], ne);
      FilterAppend(head, Filter(methods[1..], ne), eq);
      assert RowsOf(methods, other) == (if eq(methods[0]) then [methods[0]] else []) + RowsOf(methods[1..], other);
    }
  }

  lemma {:induction false} RowsOfNewRows(ms: seq<SavedPaymentMethod>, userId: nat, firstId: nat, other: nat)
    ensures RowsOf(NewRows(ms, userId, firstId), other) == if other == userId then NewRows(ms, userId, firstId) else []
    decreases |ms|
  {
    if |ms| > 0 {
      var rows := NewRows(ms, userId, firstId);
      assert rows[1..] == NewRows(ms[1..], userId, firstId + 1);
      RowsOfNewRows(ms[1..], userId, firstId + 1, other);
    }
  }

  /** After a replacement the owner's rows carry exactly the new contents and every other
      user's rows are untouched. */
  lemma ReplaceMethodsEffect(methods: seq<MethodRow>, userId: nat, ms: seq<SavedPaymentMethod>, firstId: nat)
    ensures Contents(ToSavedAll(RowsOf(ReplaceMethods(methods, userId, ms, firstId), userId))) == Contents(ms)
    ensures forall other :: other != userId ==>
              RowsOf(ReplaceMethods(methods, userId, ms, firstId), other) == RowsOf(methods, other)
  {
    var kept := Filter(methods, (row: MethodRow) => row.userId != userId);
    var added := NewRows(ms, userId, firstId);
    forall other
      ensures RowsOf(kept + added, other) == (if other == userId then added else RowsOf(methods, other))
    {
      FilterAppend(kept, added, (row: MethodRow) => row.userId == other);
      FilterOutOwner(methods, userId, other);
      RowsOfNewRows(ms, userId, firstId, other);
    }
    var stored := Contents(ToSavedAll(added));
    assert |stored| == |ms|;
    forall i | 0 <= i < |ms| ensures stored[i] == Contents(ms)[i] {
      assert added[i] == MethodRow(firstId + i, userId, Content(ms[i]));
    }
  }

  /** Re-submitting one's own e-mail never conflicts; a new e-mail conflicts exactly when
      another user already has it. */
  lemma UpdateProfileEmailConflict(db: AuthDb, userId: nat, dto: UpdateProfileDto)
    requires Valid(db)
    requires exists k :: 0 <= k < |db.users| && db.users[k].id == userId
    ensures var r := UpdateProfile(db, userId, dto);
            r.Failure? <==>
              && dto.email.Some? && dto.email.value != ""
              && exists j :: 0 <= j < |db.users| && db.users[j].email == dto.email.value && db.users[j].id != userId
  {
    var k :| 0 <= k < |db.users| && db.users[k].id == userId;
    assert FindUser(db.users, userId) == Some(k);
    assert FirstWithId(db.users, k, userId);
    EmailConflictMeans(db.users, k, dto.email);
  }

  /** Among users with unique ids and e-mails, a conflict is another user holding the
      (non-empty) new address. */
  lemma EmailConflictMeans(users: seq<User>, k: nat, email: Option<string>)
    requires UniqueUsers(users) && k < |users|
    ensures EmailConflict(users, k, email) <==>
              && email.Some? && email.value != ""
              && exists j :: 0 <= j < |users| && users[j].email == email.value && users[j].id != users[k].id
  {
    if email.Some? && email.value != "" {
      var e := email.value;
      if exists j :: 0 <= j < |users| && users[j].email == e && users[j].id != users[k].id {
        var j :| 0 <= j < |users| && users[j].email == e && users[j].id != users[k].id;
        assert FindByEmail(users, e) == Some(j);
      }
    }
  }

  /** With e-mails as the DTO validator admits them (never empty), a successful update keeps
      ids and e-mails unique. */
  lemma UpdateProfilePreservesValid(db: AuthDb, userId: nat, dto: UpdateProfileDto)
    requires Valid(db)
    requires dto.email.Some? ==> dto.email.value != ""
    ensures var r := UpdateProfile(db, userId, dto);
            r.Success? ==> Valid(r.value.0)
  {
    var r := UpdateProfile(db, userId, dto);
    if r.Success? {
      var k: nat :| FirstWithId(db.users, k, userId);
      assert r.value.0 == Applied(db, k, userId, dto);
      AppliedPreservesValid(db, k, userId, dto);
    }
  }

  /** An update without an e-mail conflict keeps the store valid. */
  lemma AppliedPreservesValid(db: AuthDb, k: nat, userId: nat, dto: UpdateProfileDto)
    requires Valid(db) && k < |db.users|
    requires dto.email.Some? ==> dto.email.value != ""
    requires !EmailConflict(db.users, k, dto.email)
    ensures Valid(Applied(db, k, userId, dto))
  {
    var db' := Applied(db, k, userId, dto);
    var u := ApplyUserFields(db.users[k], dto);
    FreshEmail(db.users, k, dto.email);
    UniqueAfterUpdate(db.users, k, u);
    assert db'.users == db.users[k := u];
    MethodIdsBelow(db, k, userId, dto);
  }

  /** Without a conflict, the e-mail the user ends up with belongs to nobody else. */
  lemma FreshEmail(users: seq<User>, k: nat, email: Option<string>)
    requires UniqueUsers(users) && k < |users|
    requires email.Some? ==> email.value != ""
    requires !EmailConflict(users, k, email)
    ensures forall j :: 0 <= j < |users| && j != k ==> users[j].email != email.GetOr(users[k].email)
  {
  }

  /** Overwriting one user with a row of the same id and an e-mail nobody else has keeps
      ids and e-mails unique. */
  lemma UniqueAfterUpdate(users: seq<User>, k: nat, u: User)
    requires UniqueUsers(users) && k < |users| && u.id == users[k].id
    requires forall j :: 0 <= j < |users| && j != k ==> users[j].email != u.email
    ensures UniqueUsers(users[k := u])
  {
    var users' := users[k := u];
    forall i, j | 0 <= i < j < |users'|
      ensures users'[i].id != users'[j].id && users'[i].email != users'[j].email
    {
      if i == k || j == k {
        var other := if i == k then j else i;
        assert users'[other] == users[other];
      }
    }
  }

  lemma MethodIdsBelow(db: AuthDb, k: nat, userId: nat, dto: UpdateProfileDto)
    requires Valid(db) && k < |db.users|
    ensures var db' := Applied(db, k, userId, dto);
            forall i :: 0 <= i < |db'.methods| ==> db'.methods[i].rowId < db'.nextMethodId
  {
    if dto.paymentMethods.Some? {
      var ms := Sanitize(dto.paymentMethods.value);
      ReplaceIdsBelow(db.methods, userId, ms, db.nextMethodId);
    }
  }

  /** Replacement rows take the next ids, so every id stays below the advanced counter. */
  lemma ReplaceIdsBelow(methods: seq<MethodRow>, userId: nat, ms: seq<SavedPaymentMethod>, firstId: nat)
    requires forall i :: 0 <= i < |methods| ==> methods[i].rowId < firstId
    ensures var r := ReplaceMethods(methods, userId, ms, firstId);
            forall i :: 0 <= i < |r| ==> r[i].rowId < firstId + |ms|
  {
    var kept := Filter(methods, (row: MethodRow) => row.userId != userId);
    var r := ReplaceMethods(methods, userId, ms, firstId);
    forall i | 0 <= i < |r| ensures r[i].rowId < firstId + |ms| {
      if i < |kept| {
        assert r[i] == kept[i];
        assert kept[i] in methods;
      } else {
        assert r[i] == NewRows(ms, userId, firstId)[i - |kept|];
      }
    }
  }

  /** `changePassword`: a wrong current password is rejected; otherwise only the stored
      hash of that user changes. */
  function ChangePassword(db: AuthDb, userId: nat, dto: ChangePasswordDto, scheme: PasswordScheme)
    : (r: Result<AuthDb, Error>)
    ensures (r.Failure? && r.error == Unauthorized(UserNotFound)) <==>
              forall k :: 0 <= k < |db.users| ==> db.users[k].id != userId
    ensures forall k :: FirstWithId(db.users, k, userId) ==>
              && (r.Failure? <==> !scheme.matches(dto.currentPassword, db.users[k].password))
              && (r.Failure? ==> r.error == Unauthorized(WrongCurrentPassword))
              && (r.Success? ==> r.value == db.(users := db.users[k := db.users[k].(password := scheme.hash(dto.newPassword))]))
  {
    match FindUser(db.users, userId)
    case None => Failure(Unauthorized(UserNotFound))
    case Some(k) =>
      assert FirstWithId(db.users, k, userId);
      var u := db.users[k];
      if !scheme.matches(dto.currentPassword, u.password) then Failure(Unauthorized(WrongCurrentPassword))
      else Success(db.(users := db.users[k := u.(password := scheme.hash(dto.newPassword))]))
  }

  /** bcrypt's promise: a password matches its own hash. */
  ghost predicate SoundScheme(scheme: PasswordScheme) {
    forall p :: scheme.matches(p, scheme.hash(p))
  }

  /** A freshly registered user can log in with the same credentials and receives the
      same user view. */
  lemma RegisterThenLogin(db: AuthDb, dto: RegisterDto, scheme: PasswordScheme, sign: TokenSigner, now: nat)
    requires SoundScheme(scheme)
    ensures var r := Register(db, dto, scheme, sign, now);
            r.Success? ==> Login(r.value.0, LoginDto(dto.email, dto.password), scheme, sign) == Success(r.value.1)
  {
    var r := Register(db, dto, scheme, sign, now);
    if r.Success? {
      var users := r.value.0.users;
      var n := |db.users|;
      assert forall j :: 0 <= j < n ==> users[j] == db.users[j];
      assert FirstWithEmail(users, n, dto.email);
      assert scheme.matches(dto.password, users[n].password);
      var found := FindByEmail(users, dto.email);
      assert found == Some(n);
    }
  }

  /** After a password change the new password logs in, whatever the old one was. */
  lemma ChangedPasswordLogsIn(db: AuthDb, userId: nat, dto: ChangePasswordDto, scheme: PasswordScheme, sign: TokenSigner)
    requires Valid(db) && SoundScheme(scheme)
    ensures var r := ChangePassword(db, userId, dto, scheme);
            r.Success? ==>
              exists k :: 0 <= k < |db.users| && db.users[k].id == userId
                && Login(r.value, LoginDto(db.users[k].email, dto.newPassword), scheme, sign).Success?
  {
    var r := ChangePassword(db, userId, dto, scheme);
    if r.Success? {
      var k := FindUser(db.users, userId).value;
      assert FirstWithId(db.users, k, userId);
      var users := r.value.users;
      var e := db.users[k].email;
      assert FirstWithEmail(users, k, e);
      assert FindByEmail(users, e) == Some(k);
      assert users[k].password == scheme.hash(dto.newPassword);
    }
  }

  /** After a password change the new password logs in and the old one (when it is a
      different password a sound scheme tells apart) no longer does. */
  lemma ChangePasswordThenLogin(db: AuthDb, userId: nat, dto: ChangePasswordDto, scheme: PasswordScheme, sign: TokenSigner)
    requires Valid(db) && SoundScheme(scheme)
    requires !scheme.matches(dto.currentPassword, scheme.hash(dto.newPassword))
    ensures var r := ChangePassword(db, userId, dto, scheme);
            r.Success? ==>
              exists k :: 0 <= k < |db.users| && db.users[k].id == userId
                && Login(r.value, LoginDto(db.users[k].email, dto.newPassword), scheme, sign).Success?
                && Login(r.value, LoginDto(db.users[k].email, dto.currentPassword), scheme, sign).Failure?
  {
    var r := ChangePassword(db, userId, dto, scheme);
    if r.Success? {
      var k := FindUser(db.users, userId).value;
      assert FirstWithId(db.users, k, userId);
      var users := r.value.users;
      var e := db.users[k].email;
      assert FirstWithEmail(users, k, e);
      assert FindByEmail(users, e) == Some(k);
      assert users[k].password == scheme.hash(dto.newPassword);
    }
  }
}

=== FILE: cart.dfy ===
/** The shopping-cart service (backend/src/modules/cart/cart.service.ts). Each user has
    at most one cart, created on first access; a cart holds at most one line per product.
    Quantities are taken as given: the service validates none of them. */
module Cart {
  import opened Wrappers
  import opened Entities
  import opened Seqs

  const NotInCart: string := "Prodotto non nel carrello"

  /** A row of `cart_items`. */
  datatype CartLine = CartLine(productId: nat, quantity: int)

  /** A row of `carts` with its items. */
  datatype Cart = Cart(id: nat, userId: nat, lines: seq<CartLine>)

  /** The carts by owner, with the next cart id. */
  datatype CartDb = CartDb(carts: map<nat, Cart>, nextCartId: nat)

  /** The reply of an operation: the store afterwards (a cart may have been created even
      when the operation fails) and the cart, or the error. */
  datatype CartReply = CartReply(db: CartDb, result: Result<Cart, Error>)

  /** No product appears on two lines. */
  predicate NoDuplicates(lines: seq<CartLine>) {
    forall i, j :: 0 <= i < j < |lines| ==> lines[i].productId != lines[j].productId
  }

  /** Every cart is filed under its owner, holds distinct products and has an id below
      the next one. */
  ghost predicate Valid(db: CartDb) {
    forall u :: u in db.carts ==>
      db.carts[u].userId == u && NoDuplicates(db.carts[u].lines) && db.carts[u].id < db.nextCartId
  }

  /** The position of the line for `productId` (`findOne({ cartId, productId })`). */
  function LineOf(lines: seq<CartLine>, productId: nat): Option<nat> {
    IndexWhere(lines, (l: CartLine) => l.productId == productId)
  }

  /** The quantity the cart holds of `productId`, or None when it has no line for it. */
  function QuantityOf(lines: seq<CartLine>, productId: nat): (r: Option<int>)
    ensures r.None? <==> forall i :: 0 <= i < |lines| ==> lines[i].productId != productId
    ensures r.Some? ==> exists i :: 0 <= i < |lines| && lines[i] == CartLine(productId, r.value)
  {
    match LineOf(lines, productId)
    case None => None
    case Some(k) => Some(lines[k].quantity)
  }

  /** Add `quantity` to the line for `productId`, or append a new line. */
  function AddLine(lines: seq<CartLine>, productId: nat, quantity: int): (r: seq<CartLine>)
    requires NoDuplicates(lines)
    ensures NoDuplicates(r)
    ensures QuantityOf(r, productId) == Some(QuantityOf(lines, productId).GetOr(0) + quantity)
    ensures forall p :: p != productId ==> QuantityOf(r, p) == QuantityOf(lines, p)
  {
    match LineOf(lines, productId)
    case Some(k) =>
      var r := lines[k := lines[k].(quantity := lines[k].quantity + quantity)];
      SameProducts(lines, r);
      assert LineOf(r, productId) == Some(k);
      r
    case None =>
      var r := lines + [CartLine(productId, quantity)];
      assert forall i :: 0 <= i < |lines| ==> r[i] == lines[i];
      assert r[|lines|].productId == productId;
      assert LineOf(r, productId) == Some(|lines|);
      r
  }

  /** Two line lists with the same product on every line agree on where each product is. */
  lemma SameProducts(a: seq<CartLine>, b: seq<CartLine>)
    requires |a| == |b| && forall i :: 0 <= i < |a| ==> a[i].productId == b[i].productId
    ensures forall p :: LineOf(a, p) == LineOf(b, p)
  {
    forall p ensures LineOf(a, p) == LineOf(b, p) {
      var x, y := LineOf(a, p), LineOf(b, p);
      if x.Some? && y.Some? {
        assert x.value == y.value;
      }
    }
  }

  /** Overwrite the quantity of the line at `k`. */
  function SetLine(lines: seq<CartLine>, k: nat, quantity: int): (r: seq<CartLine>)
    requires NoDuplicates(lines) && k < |lines|
    ensures NoDuplicates(r)
    ensures QuantityOf(r, lines[k].productId) == Some(quantity)
    ensures forall p :: p != lines[k].productId ==> QuantityOf(r, p) == QuantityOf(lines, p)
  {
    var r := lines[k := lines[k].(quantity := quantity)];
    SameProducts(lines, r);
    assert LineOf(r, lines[k].productId) == Some(k);
    r
  }

  /** Delete the line at `k`. */
  function DropLine(lines: seq<CartLine>, k: nat): (r: seq<CartLine>)
    requires NoDuplicates(lines) && k < |lines|
    ensures NoDuplicates(r)
    ensures QuantityOf(r, lines[k].productId).None?
    ensures forall p :: p != lines[k].productId ==> QuantityOf(r, p) == QuantityOf(lines, p)
  {
    var r := lines[..k] + lines[k + 1..];
    assert forall i :: 0 <= i < |r| ==> r[i] == (if i < k then lines[i] else lines[i + 1]);
    forall p | p != lines[k].productId ensures QuantityOf(r, p) == QuantityOf(lines, p) {
      var x := LineOf(lines, p);
      if x.Some? {
        var m := x.value;
        var at := if m < k then m else m - 1;
        assert r[at] == lines[m];
        forall j | 0 <= j < at ensures r[j].productId != p {
          assert r[j] == lines[j] || (j >= k && r[j] == lines[j + 1]);
        }
        assert LineOf(r, p) == Some(at);
      } else {
        forall j | 0 <= j < |r| ensures r[j].productId != p {
          assert r[j] == lines[j] || r[j] == lines[j + 1];
        }
      }
    }
    r
  }

  /** `getCart`: the user's cart, created empty on first access. */
  function GetCart(db: CartDb, userId: nat): (r: (CartDb, Cart))
    requires Valid(db)
    ensures userId in r.0.carts && r.0.carts[userId] == r.1 && r.1.userId == userId
    ensures userId in db.carts ==> r.0 == db
    ensures userId !in db.carts ==>
              && r.1.lines == [] && r.1.id == db.nextCartId
              && r.0 == CartDb(db.carts[userId := r.1], db.nextCartId + 1)
  {
    if userId in db.carts then (db, db.carts[userId])
    else
      var c := Cart(db.nextCartId, userId, []);
      (CartDb(db.carts[userId := c], db.nextCartId + 1), c)
  }

  /** Store the cart's new lines under its owner. */
  function Store(db: CartDb, c: Cart, lines: seq<CartLine>): CartDb {
    db.(carts := db.carts[c.userId := c.(lines := lines)])
  }

  /** `addItem`: the quantity (1 when omitted) is added to the product's line, which is
      created when missing; other lines are untouched. */
  function AddItem(db: CartDb, userId: nat, productId: nat, quantity: Option<int>): (r: CartReply)
    requires Valid(db)
    ensures Valid(r.db) && r.result.Success?
    ensures userId in r.db.carts && r.db.carts[userId] == r.result.value
    ensures QuantityOf(r.result.value.lines, productId)
            == Some(QuantityOf(Lines(db, userId), productId).GetOr(0) + quantity.GetOr(1))
    ensures forall p :: p != productId ==> QuantityOf(r.result.value.lines, p) == QuantityOf(Lines(db, userId), p)
    ensures forall u :: u != userId ==> (u in r.db.carts <==> u in db.carts)
    ensures forall u :: u != userId && u in db.carts ==> r.db.carts[u] == db.carts[u]
  {
    var (db1, c) := GetCart(db, userId);
    var lines := AddLine(c.lines, productId, quantity.GetOr(1));
    var db2 := Store(db1, c, lines);
    CartReply(db2, Success(db2.carts[userId]))
  }

  /** The lines of the user's cart, empty when the user has none yet. */
  function Lines(db: CartDb, userId: nat): seq<CartLine> {
    if userId in db.carts then db.carts[userId].lines else []
  }

  /** `updateItem`: a product without a line is not found; a quantity of zero or less
      removes the line; any other quantity replaces the line's. */
  function UpdateItem(db: CartDb, userId: nat, productId: nat, quantity: int): (r: CartReply)
    requires Valid(db)
    ensures Valid(r.db)
    ensures r.result.Failure? <==> QuantityOf(Lines(db, userId), productId).None?
    ensures r.result.Failure? ==> r.result.error == NotFound(NotInCart) && r.db == GetCart(db, userId).0
    ensures r.result.Success? ==>
              && userId in r.db.carts && r.db.carts[userId] == r.result.value
              && QuantityOf(r.result.value.lines, productId) == (if quantity <= 0 then None else Some(quantity))
              && forall p :: p != productId ==> QuantityOf(r.result.value.lines, p) == QuantityOf(Lines(db, userId), p)
    ensures forall u :: u != userId ==> (u in r.db.carts <==> u in db.carts)
    ensures forall u :: u != userId && u in db.carts ==> r.db.carts[u] == db.carts[u]
  {
    var (db1, c) := GetCart(db, userId);
    match LineOf(c.lines, productId)
    case None => CartReply(db1, Failure(NotFound(NotInCart)))
    case Some(k) =>
      var lines := if quantity <= 0 then DropLine(c.lines, k) else SetLine(c.lines, k, quantity);
      var db2 := Store(db1, c, lines);
      CartReply(db2, Success(db2.carts[userId]))
  }

  /** `removeItem`: drop the product's line when there is one; otherwise nothing changes
      but the cart's creation. */
  function RemoveItem(db: CartDb, userId: nat, productId: nat): (r: CartReply)
    requires Valid(db)
    ensures Valid(r.db) && r.result.Success?
    ensures userId in r.db.carts && r.db.carts[userId] == r.result.value
    ensures QuantityOf(r.result.value.lines, productId).None?
    ensures forall p :: p != productId ==> QuantityOf(r.result.value.lines, p) == QuantityOf(Lines(db, userId), p)
    ensures QuantityOf(Lines(db, userId), productId).None? ==> r.db == GetCart(db, userId).0
    ensures forall u :: u != userId ==> (u in r.db.carts <==> u in db.carts)
    ensures forall u :: u != userId && u in db.carts ==> r.db.carts[u] == db.carts[u]
  {
    var (db1, c) := GetCart(db, userId);
    match LineOf(c.lines, productId)
    case None => CartReply(db1, Success(c))
    case Some(k) =>
      var db2 := Store(db1, c, DropLine(c.lines, k));
      CartReply(db2, Success(db2.carts[userId]))
  }

  /** `clearCart`: every line goes; the cart itself stays. */
  function ClearCart(db: CartDb, userId: nat): (r: CartReply)
    requires Valid(db)
    ensures Valid(r.db) && r.result.Success?
    ensures userId in r.db.carts && r.db.carts[userId] == r.result.value
    ensures forall p :: QuantityOf(r.result.value.lines, p).None?
    ensures userId in db.carts ==> r.result.value.id == db.carts[userId].id
    ensures forall u :: u != userId ==> (u in r.db.carts <==> u in db.carts)
    ensures forall u :: u != userId && u in db.carts ==> r.db.carts[u] == db.carts[u]
  {
    var (db1, c) := GetCart(db, userId);
    var db2 := Store(db1, c, []);
    CartReply(db2, Success(db2.carts[userId]))
  }

  /** The cart endpoints as one type of request. */
  datatype CartOp =
    | GetOp
    | AddOp(productId: nat, amount: Option<int>)
    | UpdateOp(productId: nat, quantity: int)
    | RemoveOp(productId: nat)
    | ClearOp

  function Step(db: CartDb, userId: nat, op: CartOp): (r: CartReply)
    requires Valid(db)
    ensures Valid(r.db)
  {
    match op
    case GetOp => var (db1, c) := GetCart(db, userId); CartReply(db1, Success(c))
    case AddOp(p, q) => AddItem(db, userId, p, q)
    case UpdateOp(p, q) => UpdateItem(db, userId, p, q)
    case RemoveOp(p) => RemoveItem(db, userId, p)
    case ClearOp => ClearCart(db, userId)
  }

  /** Any sequence of requests, from any users, leaves every cart free of duplicate lines. */
  function Run(db: CartDb, requests: seq<(nat, CartOp)>): (r: CartDb)
    requires Valid(db)
    ensures Valid(r)
    ensures forall u :: u in db.carts ==> u in r.carts && r.carts[u].id == db.carts[u].id
    decreases |requests|
  {
    if |requests| == 0 then db
    else Run(Step(db, requests[0].0, requests[0].1).db, requests[1..])
  }

  /** Adding a product and then removing it leaves every other product's quantity as it was. */
  lemma AddThenRemove(db: CartDb, userId: nat, productId: nat, quantity: Option<int>)
    requires Valid(db)
    ensures var r1 := AddItem(db, userId, productId, quantity);
            var r2 := RemoveItem(r1.db, userId, productId);
            && QuantityOf(r2.result.value.lines, productId).None?
            && forall p :: p != productId ==>
                 QuantityOf(r2.result.value.lines, p) == QuantityOf(Lines(db, userId), p)
  {
    var r1 := AddItem(db, userId, productId, quantity);
    assert Lines(r1.db, userId) == r1.result.value.lines;
  }

  /** Setting a quantity and reading the cart back yields that quantity. */
  lemma UpdateThenGet(db: CartDb, userId: nat, productId: nat, quantity: int)
    requires Valid(db)
    requires QuantityOf(Lines(db, userId), productId).Some? && quantity > 0
    ensures var r := UpdateItem(db, userId, productId, quantity);
            QuantityOf(GetCart(r.db, userId).1.lines, productId) == Some(quantity)
  {
  }
}

=== FILE: checkout.dfy ===
/** The checkout page's client-side logic (frontend/src/pages/CheckoutPage.tsx): removing a
    saved payment method, the ordered validation of the form, and the profile update the page
    sends when the shopper asks to remember their data or the new payment method. The
    current date, the stored profile and the fresh method id are parameters. */
module Checkout {
  import opened Wrappers
  import opened Text
  import opened Entities
  import opened Seqs
  import opened PaymentMethods
  import opened CheckoutFormat

  /** The shop's IBAN for bank transfers. */
  const ShopIban: string := "IT60X0542811101000000123456"
  const MinPhoneDigits: nat := 8
  const Bullet: string := " \U{2022} "

  // ---------------------------------------------------------------------------
  // Counting default flags

  /** The number of methods flagged default. */
  function DefaultCount(ms: seq<SavedPaymentMethod>): (n: nat)
    ensures n <= |ms|
  {
    if |ms| == 0 then 0 else (if ms[0].isDefault then 1 else 0) + DefaultCount(ms[1..])
  }

  lemma {:induction false} DefaultCountAppend(a: seq<SavedPaymentMethod>, b: seq<SavedPaymentMethod>)
    ensures DefaultCount(a + b) == DefaultCount(a) + DefaultCount(b)
    decreases |a|
  {
    if |a| == 0 {
      assert a + b == b;
    } else {
      assert (a + b)[1..] == a[1..] + b;
      DefaultCountAppend(a[1..], b);
    }
  }

  /** No default is counted exactly when none is flagged. */
  lemma {:induction false} DefaultCountZero(ms: seq<SavedPaymentMethod>)
    ensures DefaultCount(ms) == 0 <==> !HasDefault(ms)
    decreases |ms|
  {
    if |ms| > 0 {
      var t := ms[1..];
      DefaultCountZero(t);
      if HasDefault(ms) && !ms[0].isDefault {
        var k :| 0 <= k < |ms| && ms[k].isDefault;
        assert t[k - 1].isDefault;
      }
      if HasDefault(t) {
        var k :| 0 <= k < |t| && t[k].isDefault;
        assert ms[k + 1].isDefault;
      }
    }
  }

  /** A count of one is the same as exactly one default. */
  lemma {:induction false} DefaultCountOne(ms: seq<SavedPaymentMethod>)
    ensures DefaultCount(ms) == 1 <==> ExactlyOneDefault(ms)
    decreases |ms|
  {
    if |ms| > 0 {
      var t := ms[1..];
      DefaultCountOne(t);
      DefaultCountZero(t);
      if ms[0].isDefault {
        if DefaultCount(ms) == 1 {
          forall j | 0 < j < |ms| ensures !ms[j].isDefault {
            assert ms[j] == t[j - 1];
          }
          assert OnlyDefaultAt(ms, 0);
        }
      } else {
        if DefaultCount(ms) == 1 {
          var k :| OnlyDefaultAt(t, k);
          forall j | 0 <= j < |ms| && j != k + 1 ensures !ms[j].isDefault {
            if j > 0 {
              assert ms[j] == t[j - 1];
            }
          }
          assert OnlyDefaultAt(ms, k + 1);
        }
        if ExactlyOneDefault(ms) {
          var k :| OnlyDefaultAt(ms, k);
          assert OnlyDefaultAt(t, k - 1);
        }
      }
    }
  }

  /** Filtering never adds defaults. */
  lemma {:induction false} DefaultCountFilter(s: seq<SavedPaymentMethod>, p: SavedPaymentMethod -> bool)
    ensures DefaultCount(Filter(s, p)) <= DefaultCount(s)
    decreases |s|
  {
    if |s| > 0 {
      DefaultCountFilter(s[1..], p);
      var head := if p(s[0]) then [s[0]] else [];
      assert Filter(s, p) == head + Filter(s[1..], p);
      DefaultCountAppend(head, Filter(s[1..], p));
    }
  }

  // ---------------------------------------------------------------------------
  // Removing a saved method

  /** `method.id !== id`. */
  function OtherId(id: string): SavedPaymentMethod -> bool {
    (m: SavedPaymentMethod) => m.id != id
  }

  /** `removeSavedPaymentMethod`: the list sent to the profile update. The methods with that
      id are dropped; if some remain and none of them is the default, the first one becomes
      the default; all other entries are kept as they were, in order. */
  function RemoveSavedPaymentMethod(methods: seq<SavedPaymentMethod>, id: string): (r: seq<SavedPaymentMethod>)
    ensures var kept := Filter(methods, OtherId(id));
            && |r| == |kept|
            && (forall i :: 0 <= i < |r| ==> r[i] == kept[i].(isDefault := r[i].isDefault) && r[i].id != id)
            && (forall i :: 0 < i < |r| ==> r[i].isDefault == kept[i].isDefault)
            && (|r| > 0 ==> (r[0].isDefault <==> kept[0].isDefault || !HasDefault(kept)))
    ensures |r| > 0 ==> HasDefault(r)
  {
    var kept := Filter(methods, OtherId(id));
    if |kept| > 0 && !HasDefault(kept) then [kept[0].(isDefault := true)] + kept[1..] else kept
  }

  /** Removing a method from a list with at most one default leaves exactly one default,
      unless nothing is left. */
  lemma RemoveKeepsOneDefault(methods: seq<SavedPaymentMethod>, id: string)
    requires DefaultCount(methods) <= 1
    ensures var r := RemoveSavedPaymentMethod(methods, id);
            |r| > 0 ==> ExactlyOneDefault(r)
  {
    var kept := Filter(methods, OtherId(id));
    var r := RemoveSavedPaymentMethod(methods, id);
    DefaultCountFilter(methods, OtherId(id));
    DefaultCountZero(kept);
    if |r| > 0 {
      if !HasDefault(kept) {
        assert kept == [kept[0]] + kept[1..];
        DefaultCountAppend([kept[0]], kept[1..]);
        DefaultCountAppend([r[0]], kept[1..]);
      }
      DefaultCountOne(r);
    }
  }

  // ---------------------------------------------------------------------------
  // The checkout form and its validation

  /** A cart line as the page sees it: the quantity and the product's stock. */
  datatype CartEntry = CartEntry(quantity: int, stock: int)

  /** The `outOfStockItems` filter condition. */
  predicate OutOfStock(e: CartEntry) {
    e.stock <= 0 || e.quantity > e.stock
  }

  /** The page state the validation and the profile update read. */
  datatype CheckoutForm = CheckoutForm(
    authenticated: bool,
    email: string,
    phone: string,
    shippingAddress: string,
    sameBillingAsShipping: bool,
    billingAddress: string,
    savedMethods: seq<SavedPaymentMethod>,
    useSavedPaymentMethod: bool,
    selectedSavedMethodId: string,
    paymentMethod: PaymentMethodType,
    cardName: string,
    cardNumber: string,
    cardExpiry: string,
    cardCvv: string,
    paypalEmail: string,
    saveMyDataForFuture: bool,
    savePaymentMethodForFuture: bool,
    items: seq<CartEntry>)

  /** `finalBillingAddress`. */
  function FinalBilling(f: CheckoutForm): string {
    if f.sameBillingAsShipping then f.shippingAddress else f.billingAddress
  }

  function HasId(id: string): SavedPaymentMethod -> bool {
    (m: SavedPaymentMethod) => m.id == id
  }

  /** `ms[k]` is the first method with id `id`. */
  ghost predicate FirstWithId(ms: seq<SavedPaymentMethod>, id: string, k: int) {
    0 <= k < |ms| && ms[k].id == id && forall j :: 0 <= j < k ==> ms[j].id != id
  }

  /** The saved method whose id is selected (`find` on the saved list): the first one with
      that id. */
  function SelectedSaved(f: CheckoutForm): (r: Option<SavedPaymentMethod>)
    ensures r.Some? ==> r.value in f.savedMethods && r.value.id == f.selectedSavedMethodId
    ensures r.Some? ==> exists k :: FirstWithId(f.savedMethods, f.selectedSavedMethodId, k) && r.value == f.savedMethods[k]
    ensures r.None? ==> forall i :: 0 <= i < |f.savedMethods| ==> f.savedMethods[i].id != f.selectedSavedMethodId
  {
    match IndexWhere(f.savedMethods, HasId(f.selectedSavedMethodId))
    case None => None
    case Some(k) =>
      assert FirstWithId(f.savedMethods, f.selectedSavedMethodId, k);
      Some(f.savedMethods[k])
  }

  /** The `^\d{3}$` pattern. */
  predicate CvvPattern(s: string) {
    |s| == 3 && AllDigits(s)
  }

  /** A new card is being entered. */
  predicate NewCard(f: CheckoutForm) {
    !f.useSavedPaymentMethod && f.paymentMethod == Card
  }

  /** The checks of `validateCheckoutInputs`, in the order they run. Both CVV checks report
      `errors.invalidCvv`; a failed authentication check redirects to the login page. */
  datatype Check =
    | AuthCheck | EmailCheck | PhoneCheck | ShippingCheck | BillingCheck
    | SavedSelectionCheck | SavedCvvCheck
    | CardNameCheck | CardNumberCheck | ExpiryCheck | CvvCheck
    | PaypalCheck | EmptyCartCheck | StockCheck
  {
    /** The position of the check in the sequence. */
    function Rank(): nat {
      match this
      case AuthCheck => 0
      case EmailCheck => 1
      case PhoneCheck => 2
      case ShippingCheck => 3
      case BillingCheck => 4
      case SavedSelectionCheck => 5
      case SavedCvvCheck => 6
      case CardNameCheck => 7
      case CardNumberCheck => 8
      case ExpiryCheck => 9
      case CvvCheck => 10
      case PaypalCheck => 11
      case EmptyCartCheck => 12
      case StockCheck => 13
    }
  }

  /** Whether check `c` rejects the form, each stated on its own. */
  predicate Fails(f: CheckoutForm, currentMonth: nat, currentYear: nat, c: Check) {
    match c
    case AuthCheck => !f.authenticated
    case EmailCheck => IsBlank(f.email) || !MatchesEmailPattern(f.email)
    case PhoneCheck => IsBlank(f.phone) || |DigitsOnly(f.phone)| < MinPhoneDigits
    case ShippingCheck => IsBlank(f.shippingAddress)
    case BillingCheck => IsBlank(FinalBilling(f))
    case SavedSelectionCheck => f.useSavedPaymentMethod && SelectedSaved(f).None?
    case SavedCvvCheck =>
      f.useSavedPaymentMethod && SelectedSaved(f).Some? && SelectedSaved(f).value.kind == Card && !CvvPattern(f.cardCvv)
    case CardNameCheck => NewCard(f) && IsBlank(f.cardName)
    case CardNumberCheck => NewCard(f) && (|DigitsOnly(f.cardNumber)| != CardDigits || !CardPattern(Trim(f.cardNumber)))
    case ExpiryCheck => NewCard(f) && !IsValidFutureExpiry(f.cardExpiry, currentMonth, currentYear)
    case CvvCheck => NewCard(f) && !CvvPattern(f.cardCvv)
    case PaypalCheck => !f.useSavedPaymentMethod && f.paymentMethod == Paypal && !MatchesEmailPattern(Trim(f.paypalEmail))
    case EmptyCartCheck => |f.items| == 0
    case StockCheck => |Filter(f.items, OutOfStock)| > 0
  }

  /** The checks of the saved-method block. */
  function SavedMethodFailure(f: CheckoutForm): Option<Check> {
    match SelectedSaved(f)
    case None => Some(SavedSelectionCheck)
    case Some(m) => if m.kind == Card && !CvvPattern(f.cardCvv) then Some(SavedCvvCheck) else None
  }

  /** The checks of the new-card block. */
  function NewCardFailure(f: CheckoutForm, currentMonth: nat, currentYear: nat): Option<Check> {
    var digits := DigitsOnly(f.cardNumber);
    if IsBlank(f.cardName) then Some(CardNameCheck)
    else if |digits| != CardDigits || !CardPattern(Trim(f.cardNumber)) then Some(CardNumberCheck)
    else if !IsValidFutureExpiry(f.cardExpiry, currentMonth, currentYear) then Some(ExpiryCheck)
    else if !CvvPattern(f.cardCvv) then Some(CvvCheck)
    else None
  }

  /** `validateCheckoutInputs`: the check that stops the checkout, or `None` when the form
      is accepted. */
  function ValidateCheckoutInputs(f: CheckoutForm, currentMonth: nat, currentYear: nat): (r: Option<Check>)
    ensures !f.authenticated ==> r == Some(AuthCheck)
    ensures r.None? ==> f.authenticated && |f.items| > 0
  {
    if !f.authenticated then Some(AuthCheck)
    else if IsBlank(f.email) || !MatchesEmailPattern(f.email) then Some(EmailCheck)
    else if IsBlank(f.phone) || |DigitsOnly(f.phone)| < MinPhoneDigits then Some(PhoneCheck)
    else if IsBlank(f.shippingAddress) then Some(ShippingCheck)
    else if IsBlank(FinalBilling(f)) then Some(BillingCheck)
    else if f.useSavedPaymentMethod && SavedMethodFailure(f).Some? then SavedMethodFailure(f)
    else if NewCard(f) && NewCardFailure(f, currentMonth, currentYear).Some? then NewCardFailure(f, currentMonth, currentYear)
    else if !f.useSavedPaymentMethod && f.paymentMethod == Paypal && !MatchesEmailPattern(Trim(f.paypalEmail)) then Some(PaypalCheck)
    else if |f.items| == 0 then Some(EmptyCartCheck)
    else if |Filter(f.items, OutOfStock)| > 0 then Some(StockCheck)
    else None
  }

  /** The validation reports the lowest-ranked failing check, and accepts the form exactly
      when no check fails. */
  lemma ValidateIsFirstFailure(f: CheckoutForm, currentMonth: nat, currentYear: nat)
    ensures var r := ValidateCheckoutInputs(f, currentMonth, currentYear);
            && (r.None? <==> forall c: Check :: !Fails(f, currentMonth, currentYear, c))
            && (r.Some? ==> Fails(f, currentMonth, currentYear, r.value))
            && (r.Some? ==> forall c: Check :: c.Rank() < r.value.Rank() ==> !Fails(f, currentMonth, currentYear, c))
  {
    var r := ValidateCheckoutInputs(f, currentMonth, currentYear);
    if r.None? {
      AcceptedPassesAll(f, currentMonth, currentYear);
    } else {
      ReportedIsFirst(f, currentMonth, currentYear);
    }
  }

  lemma AcceptedPassesAll(f: CheckoutForm, currentMonth: nat, currentYear: nat)
    requires ValidateCheckoutInputs(f, currentMonth, currentYear).None?
    ensures forall c: Check :: !Fails(f, currentMonth, currentYear, c)
  {
    forall c: Check ensures !Fails(f, currentMonth, currentYear, c) {
    }
  }

  lemma ReportedIsFirst(f: CheckoutForm, currentMonth: nat, currentYear: nat)
    requires ValidateCheckoutInputs(f, currentMonth, currentYear).Some?
    ensures var c0 := ValidateCheckoutInputs(f, currentMonth, currentYear).value;
            && Fails(f, currentMonth, currentYear, c0)
            && forall c: Check :: c.Rank() < c0.Rank() ==> !Fails(f, currentMonth, currentYear, c)
  {
    var c0 := ValidateCheckoutInputs(f, currentMonth, currentYear).value;
    forall c: Check | c.Rank() < c0.Rank() ensures !Fails(f, currentMonth, currentYear, c) {
    }
  }

  /** A card number typed through `formatCardNumber` with at least sixteen digits passes the
      card-number check. */
  lemma FormattedNumberPasses(f: CheckoutForm, typed: string, currentMonth: nat, currentYear: nat)
    requires f.cardNumber == FormatCardNumber(typed) && |DigitsOnly(typed)| >= CardDigits
    ensures !Fails(f, currentMonth, currentYear, CardNumberCheck)
  {
    FormattedCardAccepted(typed);
    CardNumberCheckPasses(f, currentMonth, currentYear);
  }

  lemma CardNumberCheckPasses(f: CheckoutForm, currentMonth: nat, currentYear: nat)
    requires CardPattern(Trim(f.cardNumber)) && |DigitsOnly(f.cardNumber)| == CardDigits
    ensures !Fails(f, currentMonth, currentYear, CardNumberCheck)
  {
  }

  // ---------------------------------------------------------------------------
  // Remembering the data and the payment method

  /** The body of the `PATCH /auth/me` request; absent fields are left out of the body. */
  datatype ProfilePayload = ProfilePayload(
    email: Option<string>,
    phone: Option<string>,
    address: Option<string>,
    billingAddress: Option<string>,
    paymentMethods: Option<seq<SavedPaymentMethod>>)

  /** `'*'.repeat(n)`. */
  function Stars(n: nat): (r: string)
    ensures |r| == n && forall i :: 0 <= i < n ==> r[i] == '*'
  {
    seq(n, i => '*')
  }

  /** `Math.max(iban.length - 4, 4)`: the number of stars hiding the rest of the IBAN. */
  const BankStars: int := if |ShopIban| - SuffixLength > 4 then |ShopIban| - SuffixLength else 4

  /** The last four characters of the shop's IBAN. */
  function BankLast4(): string {
    TakeLast(ShopIban, SuffixLength)
  }

  /** The method the page would save for the payment details on the form. */
  function Candidate(f: CheckoutForm, isDefault: bool, id: string): (m: SavedPaymentMethod)
    ensures m.id == id && m.kind == f.paymentMethod && m.isDefault == isDefault
    ensures m.kind == Card ==>
              var digits := DigitsOnly(f.cardNumber);
              && m.cardBrand == Some(InferCardBrand(digits))
              && m.cardLast4.Some? && IsTail(m.cardLast4.value, digits, SuffixLength)
              && m.cardExpiry == Some(f.cardExpiry)
              && m.paypalEmail.None? && m.bankIbanLast4.None?
              && m.maskedLabel == m.cardBrand.value + Bullet + "**** **** **** " + m.cardLast4.value + Bullet + f.cardExpiry
    ensures m.kind == Paypal ==>
              && m.paypalEmail == Some(Lower(Trim(f.paypalEmail)))
              && m.cardBrand.None? && m.cardLast4.None? && m.cardExpiry.None? && m.bankIbanLast4.None?
              && m.maskedLabel == "PayPal" + Bullet + MaskEmail(m.paypalEmail.value)
    ensures m.kind == Bank ==>
              && m.bankIbanLast4.Some? && IsTail(m.bankIbanLast4.value, ShopIban, SuffixLength)
              && m.paypalEmail.None? && m.cardBrand.None? && m.cardLast4.None? && m.cardExpiry.None?
              && m.maskedLabel == "Bonifico" + Bullet + Stars(BankStars) + m.bankIbanLast4.value
  {
    match f.paymentMethod
    case Card =>
      var digits := DigitsOnly(f.cardNumber);
      var brand := InferCardBrand(digits);
      var last4 := TakeLast(digits, SuffixLength);
      SavedPaymentMethod(id, Card, brand + Bullet + "**** **** **** " + last4 + Bullet + f.cardExpiry,
        isDefault, None, Some(brand), Some(last4), Some(f.cardExpiry), None)
    case Paypal =>
      var normalized := Lower(Trim(f.paypalEmail));
      SavedPaymentMethod(id, Paypal, "PayPal" + Bullet + MaskEmail(normalized),
        isDefault, Some(normalized), None, None, None, None)
    case Bank =>
      SavedPaymentMethod(id, Bank, "Bonifico" + Bullet + Stars(BankStars) + BankLast4(),
        isDefault, None, None, None, None, Some(BankLast4()))
  }

  /** An existing method is the same as the candidate: for a card the brand, the last four
      digits and the expiry; for PayPal the lower-cased address; for a bank transfer the
      last four IBAN characters. */
  predicate Equivalent(existing: SavedPaymentMethod, candidate: SavedPaymentMethod) {
    match candidate.kind
    case Card =>
      && existing.kind == Card && existing.cardBrand == candidate.cardBrand
      && existing.cardLast4 == candidate.cardLast4 && existing.cardExpiry == candidate.cardExpiry
    case Paypal =>
      existing.kind == Paypal && existing.paypalEmail.Some? && Some(Lower(existing.paypalEmail.value)) == candidate.paypalEmail
    case Bank =>
      existing.kind == Bank && existing.bankIbanLast4 == candidate.bankIbanLast4
  }

  /** The method to append, when none of the existing ones is equivalent; it is the default
      only when there were no methods. */
  function NewSavedMethod(f: CheckoutForm, existing: seq<SavedPaymentMethod>, newId: string): (r: Option<SavedPaymentMethod>)
    ensures r.Some? <==> forall i :: 0 <= i < |existing| ==> !Equivalent(existing[i], Candidate(f, false, newId))
    ensures r.Some? ==> r.value.id == newId && r.value.kind == f.paymentMethod && (r.value.isDefault <==> |existing| == 0)
    ensures r.Some? ==> r.value == Candidate(f, |existing| == 0, newId)
  {
    var c := Candidate(f, |existing| == 0, newId);
    if exists i :: 0 <= i < |existing| && Equivalent(existing[i], c) then None else Some(c)
  }

  /** `persistCheckoutData`: the update sent to the profile, or `None` when the page sends
      none (not signed in, nothing to remember, or nothing new). */
  function PersistCheckoutData(f: CheckoutForm, existing: seq<SavedPaymentMethod>, newId: string): (r: Option<ProfilePayload>)
    ensures !f.authenticated ==> r.None?
    ensures r.Some? ==> f.saveMyDataForFuture || (!f.useSavedPaymentMethod && f.savePaymentMethodForFuture)
    ensures r.Some? ==>
              && (r.value.email.Some? <==> f.saveMyDataForFuture)
              && (r.value.email.Some? ==>
                    (&& r.value.email.value == Trim(f.email) && r.value.phone == Some(Trim(f.phone))
                     && r.value.address == Some(Trim(f.shippingAddress)) && r.value.billingAddress == Some(Trim(FinalBilling(f)))))
              && (r.value.email.None? ==> r.value.phone.None? && r.value.address.None? && r.value.billingAddress.None?)
    ensures r.Some? && r.value.paymentMethods.Some? ==>
              && !f.useSavedPaymentMethod && f.savePaymentMethodForFuture
              && NewSavedMethod(f, existing, newId).Some?
              && r.value.paymentMethods.value == existing + [NewSavedMethod(f, existing, newId).value]
    ensures f.authenticated && f.saveMyDataForFuture ==> r.Some?
    ensures f.authenticated && !f.useSavedPaymentMethod && f.savePaymentMethodForFuture && NewSavedMethod(f, existing, newId).Some? ==>
              r.Some? && r.value.paymentMethods.Some?
  {
    if !f.authenticated then None
    else if !(f.saveMyDataForFuture || (!f.useSavedPaymentMethod && f.savePaymentMethodForFuture)) then None
    else
      var contact := f.saveMyDataForFuture;
      var added := if !f.useSavedPaymentMethod && f.savePaymentMethodForFuture then NewSavedMethod(f, existing, newId) else None;
      if !contact && added.None? then None
      else Some(ProfilePayload(
        if contact then Some(Trim(f.email)) else None,
        if contact then Some(Trim(f.phone)) else None,
        if contact then Some(Trim(f.shippingAddress)) else None,
        if contact then Some(Trim(FinalBilling(f))) else None,
        if added.Some? then Some(existing + [added.value]) else None))
  }

  lemma LowerIdempotent(s: string)
    ensures Lower(Lower(s)) == Lower(s)
  {
  }

  /** A method the page has just saved is equivalent to the one the same form would save
      again, so a second checkout with the same details appends nothing. */
  lemma RepersistAddsNothing(f: CheckoutForm, existing: seq<SavedPaymentMethod>, newId: string, laterId: string)
    ensures var added := NewSavedMethod(f, existing, newId);
            added.Some? ==> NewSavedMethod(f, existing + [added.value], laterId).None?
  {
    var added := NewSavedMethod(f, existing, newId);
    if added.Some? {
      var all := existing + [added.value];
      CandidateMatchesItself(f, |existing| == 0, newId, laterId);
      assert all[|existing|] == Candidate(f, |existing| == 0, newId);
    }
  }

  /** The methods the same form yields are equivalent, whatever their ids and flags. */
  lemma CandidateMatchesItself(f: CheckoutForm, isDefault: bool, id: string, laterId: string)
    ensures Equivalent(Candidate(f, isDefault, id), Candidate(f, false, laterId))
  {
    if f.paymentMethod == Paypal {
      LowerIdempotent(Trim(f.paypalEmail));
    }
  }

  /** Appending the new method keeps a single default: it is the default of a list that was
      empty, and leaves the one default of a non-empty list in place. */
  lemma PersistKeepsOneDefault(f: CheckoutForm, existing: seq<SavedPaymentMethod>, newId: string)
    requires |existing| == 0 || ExactlyOneDefault(existing)
    requires PersistCheckoutData(f, existing, newId).Some?
    requires PersistCheckoutData(f, existing, newId).value.paymentMethods.Some?
    ensures ExactlyOneDefault(PersistCheckoutData(f, existing, newId).value.paymentMethods.value)
  {
    var m := NewSavedMethod(f, existing, newId).value;
    DefaultCountAppend(existing, [m]);
    DefaultCountOne(existing);
    assert DefaultCount([m]) == (if |existing| == 0 then 1 else 0);
    DefaultCountOne(existing + [m]);
  }
}

=== FILE: checkout_format.dfy ===
/** The input formatters and validators of the checkout page
    (frontend/src/pages/CheckoutPage.tsx). The current date is a parameter. */
module CheckoutFormat {
  import opened Text

  const CardDigits: nat := 16
  const ExpiryDigits: nat := 4
  const HiddenEmail: string := "***@***"

  // ---------------------------------------------------------------------------
  // Card number

  /** `digits.replace(/(.{4})/g, '$1 ')`: a space after every complete group of four. */
  function InsertSpaces(d: string): string {
    if |d| < 4 then d else d[..4] + " " + InsertSpaces(d[4..])
  }

  /** The digits in groups of four separated by single spaces, with nothing before the
      first group or after the last. */
  function Grouped(d: string): (r: string)
    ensures |d| == 0 ==> r == ""
    ensures |d| > 0 ==> |r| == |d| + (|d| - 1) / 4 && r[0] == d[0] && r[|r| - 1] == d[|d| - 1]
    decreases |d|
  {
    if |d| <= 4 then d else d[..4] + " " + Grouped(d[4..])
  }

  /** The regular-expression replacement is the grouping plus, after a final complete
      group, one trailing space. */
  lemma {:induction false} InsertSpacesGrouped(d: string)
    requires |d| > 0
    ensures InsertSpaces(d) == Grouped(d) + (if |d| % 4 == 0 then " " else "")
    decreases |d|
  {
    if |d| == 4 {
      assert InsertSpaces(d[4..]) == "";
    } else if |d| > 4 {
      InsertSpacesGrouped(d[4..]);
      assert (|d| - 4) % 4 == |d| % 4;
      var tail := if |d| % 4 == 0 then " " else "";
      calc {
        InsertSpaces(d);
        d[..4] + " " + InsertSpaces(d[4..]);
        d[..4] + " " + (Grouped(d[4..]) + tail);
        (d[..4] + " " + Grouped(d[4..])) + tail;
      }
    }
  }

  /** `formatCardNumber`: at most sixteen digits, grouped by four. */
  function FormatCardNumber(value: string): (r: string)
    ensures r == Grouped(Take(DigitsOnly(value), CardDigits))
    ensures |r| <= 19
    ensures DigitsOnly(r) == Take(DigitsOnly(value), CardDigits)
  {
    var d := Take(DigitsOnly(value), CardDigits);
    assert AllDigits(d);
    TrimInsertSpaces(d);
    DigitsOfGrouped(d);
    Trim(InsertSpaces(d))
  }

  /** Trimming removes exactly the trailing space the replacement leaves after a final
      complete group. */
  lemma TrimInsertSpaces(d: string)
    requires AllDigits(d)
    ensures Trim(InsertSpaces(d)) == Grouped(d)
  {
    if |d| == 0 {
      assert InsertSpaces(d) == "";
    } else {
      InsertSpacesGrouped(d);
      GroupedEndsInDigits(d);
      if |d| % 4 == 0 {
        TrimDropsTrailing(Grouped(d), ' ');
      } else {
        TrimKeeps(Grouped(d));
      }
    }
  }

  /** The grouping of digits starts and ends with a digit. */
  lemma GroupedEndsInDigits(d: string)
    requires |d| > 0 && AllDigits(d)
    ensures var g := Grouped(d); !IsWhitespace(g[0]) && !IsWhitespace(g[|g| - 1])
  {
    DigitNotWhitespace(d[0]);
    DigitNotWhitespace(d[|d| - 1]);
  }

  lemma DigitNotWhitespace(c: char)
    requires IsDigit(c)
    ensures !IsWhitespace(c)
  {
  }

  /** Grouping adds only spaces. */
  lemma {:induction false} DigitsOfGrouped(d: string)
    requires AllDigits(d)
    ensures DigitsOnly(Grouped(d)) == d
    decreases |d|
  {
    if |d| <= 4 {
      DigitsOnlyOfDigits(d);
    } else {
      DigitsOfGrouped(d[4..]);
      DigitsOnlyAppend(d[..4] + " ", Grouped(d[4..]));
      DigitsOnlyAppend(d[..4], " ");
      DigitsOnlyOfDigits(d[..4]);
      assert d == d[..4] + d[4..];
    }
  }

  /** Formatting an already formatted number changes nothing. */
  lemma FormatCardNumberIdempotent(value: string)
    ensures FormatCardNumber(FormatCardNumber(value)) == FormatCardNumber(value)
  {
  }

  /** The `^\d{4}\s\d{4}\s\d{4}\s\d{4}$` pattern: four blocks of four digits separated
      by single whitespace characters. */
  predicate CardPattern(s: string) {
    && |s| == 19
    && AllDigits(s[..4]) && IsWhitespace(s[4])
    && AllDigits(s[5..9]) && IsWhitespace(s[9])
    && AllDigits(s[10..14]) && IsWhitespace(s[14])
    && AllDigits(s[15..])
  }

  /** Sixteen digits group into four blocks of four. */
  lemma GroupedSixteen(d: string)
    requires |d| == 16
    ensures Grouped(d) == d[..4] + " " + d[4..8] + " " + d[8..12] + " " + d[12..]
  {
    assert d[4..][..4] == d[4..8] && d[4..][4..] == d[8..];
    assert d[8..][..4] == d[8..12] && d[8..][4..] == d[12..];
    assert Grouped(d[12..]) == d[12..];
    assert Grouped(d[8..]) == d[8..12] + " " + d[12..];
    assert Grouped(d[4..]) == d[4..8] + " " + (d[8..12] + " " + d[12..]);
  }

  /** Four blocks of digits joined by spaces match the card pattern. */
  lemma BlocksMatch(d: string)
    requires |d| == 16 && AllDigits(d)
    ensures CardPattern(d[..4] + " " + d[4..8] + " " + d[8..12] + " " + d[12..])
  {
    var r := d[..4] + " " + d[4..8] + " " + d[8..12] + " " + d[12..];
    assert r[..4] == d[..4] && r[5..9] == d[4..8] && r[10..14] == d[8..12] && r[15..] == d[12..];
  }

  /** Any input with at least sixteen digits formats to a number the checkout accepts:
      sixteen digits in the four-group pattern, unchanged by trimming. */
  lemma FormattedCardAccepted(value: string)
    requires |DigitsOnly(value)| >= CardDigits
    ensures var r := FormatCardNumber(value);
            CardPattern(Trim(r)) && |DigitsOnly(r)| == CardDigits
  {
    var d := Take(DigitsOnly(value), CardDigits);
    assert AllDigits(d);
    GroupedSixteen(d);
    BlocksMatch(d);
    TrimKeeps(FormatCardNumber(value));
  }

  // ---------------------------------------------------------------------------
  // Expiry

  /** `formatExpiry`: at most four digits, with a slash after the first two once there
      are more than two. */
  function FormatExpiry(value: string): (r: string)
    ensures |r| <= 5
    ensures DigitsOnly(r) == Take(DigitsOnly(value), ExpiryDigits)
    ensures |Take(DigitsOnly(value), ExpiryDigits)| <= 2 ==> r == Take(DigitsOnly(value), ExpiryDigits)
    ensures |Take(DigitsOnly(value), ExpiryDigits)| > 2 ==>
              var d := Take(DigitsOnly(value), ExpiryDigits);
              |r| > 2 && r[2] == '/' && r[..2] == d[..2] && r[3..] == d[2..]
  {
    var d := Take(DigitsOnly(value), ExpiryDigits);
    if |d| <= 2 then
      DigitsOnlyOfDigits(d);
      d
    else
      DigitsOnlyAppend(d[..2] + "/", d[2..]);
      DigitsOnlyAppend(d[..2], "/");
      DigitsOnlyOfDigits(d[..2]);
      DigitsOnlyOfDigits(d[2..]);
      assert d == d[..2] + d[2..];
      d[..2] + "/" + d[2..]
  }

  /** Formatting an already formatted expiry changes nothing. */
  lemma FormatExpiryIdempotent(value: string)
    ensures FormatExpiry(FormatExpiry(value)) == FormatExpiry(value)
  {
  }

  function DigitValue(c: char): nat
    requires IsDigit(c)
  {
    (c as int - '0' as int) as nat
  }

  function DigitChar(n: nat): (c: char)
    requires n < 10
    ensures IsDigit(c) && DigitValue(c) == n
  {
    ('0' as int + n) as char
  }

  /** The `^(0[1-9]|1[0-2])\/\d{2}$` pattern. */
  predicate ExpiryPattern(s: string) {
    && |s| == 5 && s[2] == '/' && IsDigit(s[0]) && IsDigit(s[1]) && IsDigit(s[3]) && IsDigit(s[4])
    && ((s[0] == '0' && s[1] != '0') || (s[0] == '1' && s[1] <= '2'))
  }

  /** The month of a well-formed expiry. */
  function ExpiryMonth(s: string): (m: nat)
    requires ExpiryPattern(s)
    ensures 1 <= m <= 12
  {
    DigitValue(s[0]) * 10 + DigitValue(s[1])
  }

  /** The year of a well-formed expiry: `Number('20' + yy)`. */
  function ExpiryYear(s: string): (y: nat)
    requires ExpiryPattern(s)
    ensures 2000 <= y < 2100
  {
    2000 + DigitValue(s[3]) * 10 + DigitValue(s[4])
  }

  /** `isValidFutureExpiry`, against the given current month (1-12) and year. */
  function IsValidFutureExpiry(value: string, currentMonth: nat, currentYear: nat): (r: bool)
    ensures r ==> ExpiryPattern(value) && ExpiryYear(value) >= currentYear
  {
    if !ExpiryPattern(value) then false
    else
      var month, year := ExpiryMonth(value), ExpiryYear(value);
      if year < currentYear then false
      else if year == currentYear && month < currentMonth then false
      else true
  }

  /** The text `MM/YY` of a month and a two-digit year. */
  function ExpiryText(month: nat, yy: nat): (s: string)
    requires 1 <= month <= 12 && yy < 100
    ensures ExpiryPattern(s) && ExpiryMonth(s) == month && ExpiryYear(s) == 2000 + yy
  {
    [DigitChar(month / 10), DigitChar(month % 10), '/', DigitChar(yy / 10), DigitChar(yy % 10)]
  }

  /** An expiry is valid exactly when it is the text of a month and year not before the
      current ones; the current month itself is valid. */
  lemma ExpiryRoundTrip(value: string, currentMonth: nat, currentYear: nat)
    ensures IsValidFutureExpiry(value, currentMonth, currentYear) <==>
              exists month: nat, yy: nat :: 1 <= month <= 12 && yy < 100 && value == ExpiryText(month, yy)
                && (2000 + yy > currentYear || (2000 + yy == currentYear && month >= currentMonth))
  {
    if IsValidFutureExpiry(value, currentMonth, currentYear) {
      var month, yy := ExpiryMonth(value), ExpiryYear(value) - 2000;
      var t := ExpiryText(month, yy);
      assert t[0] == value[0] && t[1] == value[1] && t[3] == value[3] && t[4] == value[4];
      assert value == t;
    }
  }

  /** Typing the four digits of an expiry yields its text. */
  lemma TypedExpiry(month: nat, yy: nat)
    requires 1 <= month <= 12 && yy < 100
    ensures var t := ExpiryText(month, yy);
            FormatExpiry([t[0], t[1], t[3], t[4]]) == t
  {
    var t := ExpiryText(month, yy);
    var typed := [t[0], t[1], t[3], t[4]];
    DigitsOnlyOfDigits(typed);
  }

  // ---------------------------------------------------------------------------
  // Card brand

  /** `inferCardBrand`, in priority order. */
  function InferCardBrand(digits: string): (r: string)
    ensures r in {"Visa", "Mastercard", "Amex", "Carta"}
    ensures r == "Visa" <==> StartsWith(digits, "4")
    ensures r == "Mastercard" <==> |digits| >= 2 && digits[0] == '5' && '1' <= digits[1] <= '5'
    ensures r == "Amex" <==> |digits| >= 2 && digits[0] == '3' && (digits[1] == '4' || digits[1] == '7')
  {
    if StartsWith(digits, "4") then "Visa"
    else if |digits| >= 2 && digits[0] == '5' && '1' <= digits[1] <= '5' then "Mastercard"
    else if |digits| >= 2 && digits[0] == '3' && (digits[1] == '4' || digits[1] == '7') then "Amex"
    else "Carta"
  }

  /** Only the first two characters decide the brand. */
  lemma BrandFromPrefix(digits: string)
    ensures InferCardBrand(digits) == InferCardBrand(Take(digits, 2))
  {
    var p := Take(digits, 2);
    if |digits| >= 2 {
      assert p[0] == digits[0] && p[1] == digits[1];
    }
    assert StartsWith(digits, "4") <==> StartsWith(p, "4");
  }

  // ---------------------------------------------------------------------------
  // E-mail masking

  /** The part of `s` before the first `@` (the first element of `split('@')`). */
  function LocalPart(s: string): (r: string)
    ensures forall i :: 0 <= i < |r| ==> r[i] != '@'
    ensures |r| <= |s| && r == s[..|r|] && (|r| < |s| ==> s[|r|] == '@')
  {
    s[..IndexFrom(s, '@', 0)]
  }

  /** The second element of `split('@')`, or "" when there is no `@`. */
  function DomainPart(s: string): (r: string)
    ensures forall i :: 0 <= i < |r| ==> r[i] != '@'
    ensures |LocalPart(s)| == |s| ==> r == ""
    ensures |LocalPart(s)| < |s| ==>
              var after := s[|LocalPart(s)| + 1..];
              |r| <= |after| && r == after[..|r|] && (|r| < |after| ==> after[|r|] == '@')
  {
    var at := IndexFrom(s, '@', 0);
    if at == |s| then ""
    else
      var rest := s[at + 1..];
      rest[..IndexFrom(rest, '@', 0)]
  }

  /** `maskEmail`: all hidden exactly when the part before the first `@` or the part after
      it is empty; otherwise the first one or two characters of the address (two only when
      the local part is longer than two), then `***@` and the domain part. */
  function MaskEmail(value: string): (r: string)
    ensures r == HiddenEmail <==> LocalPart(value) == "" || DomainPart(value) == ""
    ensures r != HiddenEmail ==>
              var shown := |r| - |DomainPart(value)| - 4;
              && 1 <= shown <= 2 && shown <= |value|
              && (shown == 2 <==> |LocalPart(value)| > 2)
              && r == value[..shown] + "***@" + DomainPart(value)
  {
    var local, domain := LocalPart(value), DomainPart(value);
    if local == "" || domain == "" then HiddenEmail
    else
      var shown := if |local| <= 2 then 1 else 2;
      var r := local[..shown] + "***@" + domain;
      assert r[3] == '*';
      assert local[..shown] == value[..shown];
      r
  }

  /** For an address `local@domain` (neither part containing `@`) the mask keeps the
      domain whole and at most two leading characters of the local part. */
  lemma MaskEmailParts(local: string, domain: string)
    requires local != "" && domain != ""
    requires forall i :: 0 <= i < |local| ==> local[i] != '@'
    requires forall i :: 0 <= i < |domain| ==> domain[i] != '@'
    ensures MaskEmail(local + "@" + domain) == local[..if |local| <= 2 then 1 else 2] + "***@" + domain
  {
    var s := local + "@" + domain;
    assert IndexFrom(s, '@', 0) == |local| by {
      assert s[|local|] == '@';
      assert forall i :: 0 <= i < |local| ==> s[i] == local[i];
    }
    assert s[..|local|] == local;
    var rest := s[|local| + 1..];
    assert rest == domain;
    assert IndexFrom(rest, '@', 0) == |rest|;
  }
}

=== FILE: entities.dfy ===
/** The persistent records of the storefront and the enumerations they use.
    Money is held in integer cents; `createdAt` is a clock reading supplied by the caller. */
module Entities {
  import opened Wrappers

  /** `UserRole`: 'user' and 'admin'. */
  datatype UserRole = RoleUser | RoleAdmin

  /** `OrderStatus`, in declaration order. */
  datatype OrderStatus = Pending | Processing | Shipped | Delivered | Cancelled {
    /** The string the enumeration stores. */
    function Name(): string {
      match this
      case Pending => "pending"
      case Processing => "processing"
      case Shipped => "shipped"
      case Delivered => "delivered"
      case Cancelled => "cancelled"
    }
  }

  /** The value the `status` enumeration column accepts: the member whose stored string
      is `s`, or none. */
  function ParseOrderStatus(s: string): (r: Option<OrderStatus>)
    ensures r.Some? ==> r.value.Name() == s
    ensures r.None? ==> forall t: OrderStatus :: t.Name() != s
  {
    if s == "pending" then Some(Pending)
    else if s == "processing" then Some(Processing)
    else if s == "shipped" then Some(Shipped)
    else if s == "delivered" then Some(Delivered)
    else if s == "cancelled" then Some(Cancelled)
    else None
  }

  /** `OrderDocumentType`: 'invoice' and 'summary'. */
  datatype OrderDocumentType = Invoice | Summary {
    function Name(): string {
      match this
      case Invoice => "invoice"
      case Summary => "summary"
    }
  }

  /** `Object.values(OrderDocumentType).includes(s)`, returning the member it names. */
  function ParseDocumentType(s: string): (r: Option<OrderDocumentType>)
    ensures r.Some? ==> r.value.Name() == s
    ensures r.None? ==> forall t: OrderDocumentType :: t.Name() != s
  {
    if s == "invoice" then Some(Invoice)
    else if s == "summary" then Some(Summary)
    else None
  }

  /** `PaymentMethodType`: 'card', 'paypal' and 'bank'. */
  datatype PaymentMethodType = Card | Paypal | Bank {
    function Name(): string {
      match this
      case Card => "card"
      case Paypal => "paypal"
      case Bank => "bank"
    }
  }

  /** Membership in the set {'card', 'paypal', 'bank'}, returning the member it names. */
  function ParsePaymentMethodType(s: string): (r: Option<PaymentMethodType>)
    ensures r.Some? ==> r.value.Name() == s
    ensures r.None? ==> forall t: PaymentMethodType :: t.Name() != s
  {
    if s == "card" then Some(Card)
    else if s == "paypal" then Some(Paypal)
    else if s == "bank" then Some(Bank)
    else None
  }

  /** The HTTP exceptions the services throw, each with its message. */
  datatype Error =
    | BadRequest(message: string)
    | Unauthorized(message: string)
    | Forbidden(message: string)
    | NotFound(message: string)
    | Conflict(message: string)
    /** A database error the service does not catch (a unique index rejecting a row). */
    | ServerError(message: string)

  /** A request value after `Number(...)`: an integer, or anything `Number.isInteger`
      rejects (NaN, infinities, fractions). */
  datatype JsNumber = Integer(value: int) | NotInteger

  /** A row of `users`; `password` holds the hash. */
  datatype User = User(
    id: nat,
    firstName: string,
    lastName: string,
    email: string,
    password: string,
    role: UserRole,
    isActive: bool,
    createdAt: nat)

  /** A user as the services return it: every column except the password. */
  datatype PublicUser = PublicUser(
    id: nat,
    firstName: string,
    lastName: string,
    email: string,
    role: UserRole,
    isActive: bool,
    createdAt: nat)

  /** `const { password, ...rest } = user`. */
  function WithoutPassword(u: User): (p: PublicUser)
    ensures p.id == u.id && p.email == u.email && p.role == u.role
    ensures p.firstName == u.firstName && p.lastName == u.lastName
    ensures p.isActive == u.isActive && p.createdAt == u.createdAt
  {
    PublicUser(u.id, u.firstName, u.lastName, u.email, u.role, u.isActive, u.createdAt)
  }

  /** A row of `shipping_profiles` (at most one per user). */
  datatype ShippingProfile = ShippingProfile(
    userId: nat,
    phone: Option<string>,
    shippingAddress: Option<string>,
    billingAddress: Option<string>,
    isDefault: bool)

  /** A saved payment method as the API exchanges it; `kind` is the `method` field. */
  datatype SavedPaymentMethod = SavedPaymentMethod(
    id: string,
    kind: PaymentMethodType,
    maskedLabel: string,
    isDefault: bool,
    paypalEmail: Option<string>,
    cardBrand: Option<string>,
    cardLast4: Option<string>,
    cardExpiry: Option<string>,
    bankIbanLast4: Option<string>)

  /** A row of `products`; `price` in cents. */
  datatype Product = Product(
    id: nat,
    name: string,
    slug: string,
    description: Option<string>,
    price: int,
    images: seq<string>,
    stock: int,
    featured: bool,
    isActive: bool,
    categoryId: Option<nat>,
    createdAt: nat)

  /** A row of `order_items`, held inside its order; `unitPrice` in cents. */
  datatype OrderItem = OrderItem(productId: nat, quantity: int, unitPrice: int)

  /** A row of `orders`; `userId` becomes null when the user is deleted. */
  datatype Order = Order(
    id: nat,
    userId: Option<nat>,
    items: seq<OrderItem>,
    total: int,
    status: OrderStatus,
    shippingAddress: Option<string>,
    notes: Option<string>,
    createdAt: nat)

  /** A row of `order_documents`. */
  datatype OrderDocument = OrderDocument(
    id: nat,
    orderId: nat,
    docType: OrderDocumentType,
    fileName: string,
    mimeType: string,
    dataBase64: string,
    createdAt: nat)
}

=== FILE: order_documents.dfy ===
/** Saving and fetching the PDF documents of an order (`saveDocuments` and `getDocument`
    in backend/src/modules/orders/orders.service.ts). Saving deletes the order's
    documents of every submitted type and inserts the submitted ones. */
module OrderDocuments {
  import opened Wrappers
  import opened Text
  import opened Entities
  import opened Seqs
  import Orders

  const NothingToSave: string := "Nessun documento da salvare"
  const InvalidDocuments: string := "Documenti non validi"
  const InvalidDocumentType: string := "Tipo documento non valido"
  const DocumentNotFound: string := "Documento non trovato"
  const DefaultMimeType: string := "application/pdf"
  const MaxFileName: nat := 160
  const MaxMimeType: nat := 80

  /** One submitted document as the request carries it; a string field is None when it is
      absent. */
  datatype RawDocument = RawDocument(
    docType: string,
    fileName: Option<string>,
    mimeType: Option<string>,
    dataBase64: Option<string>)

  /** An element of the submitted array; None is a null element. */
  type RawDocEntry = Option<RawDocument>

  /** A document as normalised, before it gets a row id. */
  datatype Payload = Payload(docType: OrderDocumentType, fileName: string, mimeType: string, dataBase64: string)

  /** A stored document without its data, which the table does not select by default. */
  datatype DocumentInfo = DocumentInfo(id: nat, orderId: nat, docType: OrderDocumentType, fileName: string, mimeType: string, createdAt: nat)

  /** The `order_documents` table in insertion order, with the next id. */
  datatype DocDb = DocDb(documents: seq<OrderDocument>, nextId: nat)

  /** A JavaScript truthy string: present and not empty. */
  predicate Truthy(s: Option<string>) {
    s.Some? && s.value != ""
  }

  /** The `filter` step: a non-null entry of a known type with a file name and data. */
  predicate Kept(e: RawDocEntry) {
    e.Some? && ParseDocumentType(e.value.docType).Some? && Truthy(e.value.fileName) && Truthy(e.value.dataBase64)
  }

  /** The `map` step: the file name cut to 160 characters, the MIME type cut to 80 or
      defaulted. */
  function Normalize(e: RawDocEntry): (d: Payload)
    requires Kept(e)
    ensures d.docType.Name() == e.value.docType
    ensures 0 < |d.fileName| <= MaxFileName && IsHead(d.fileName, e.value.fileName.value, MaxFileName)
    ensures |e.value.fileName.value| <= MaxFileName ==> d.fileName == e.value.fileName.value
    ensures !Truthy(e.value.mimeType) ==> d.mimeType == DefaultMimeType
    ensures Truthy(e.value.mimeType) ==>
              && 0 < |d.mimeType| <= MaxMimeType && IsHead(d.mimeType, e.value.mimeType.value, MaxMimeType)
              && (|e.value.mimeType.value| <= MaxMimeType ==> d.mimeType == e.value.mimeType.value)
    ensures d.dataBase64 == e.value.dataBase64.value
  {
    var raw := e.value;
    Payload(
      ParseDocumentType(raw.docType).value,
      Take(raw.fileName.value, MaxFileName),
      if Truthy(raw.mimeType) then Take(raw.mimeType.value, MaxMimeType) else DefaultMimeType,
      raw.dataBase64.value)
  }

  /** The kept entries, normalised, in submission order. */
  function NormalizeAll(entries: seq<RawDocEntry>): (r: seq<Payload>)
    ensures |r| == 0 <==> forall i :: 0 <= i < |entries| ==> !Kept(entries[i])
    ensures |r| <= |entries|
  {
    if |entries| == 0 then []
    else (if Kept(entries[0]) then [Normalize(entries[0])] else []) + NormalizeAll(entries[1..])
  }

  /** The types among the normalised documents (`typesToReplace`). */
  function Types(ds: seq<Payload>): (r: set<OrderDocumentType>)
    ensures forall t :: t in r <==> exists i :: 0 <= i < |ds| && ds[i].docType == t
  {
    set i | 0 <= i < |ds| :: ds[i].docType
  }

  /** The payload a stored document carries. */
  function PayloadOf(d: OrderDocument): Payload {
    Payload(d.docType, d.fileName, d.mimeType, d.dataBase64)
  }

  function Payloads(ds: seq<OrderDocument>): (r: seq<Payload>)
    ensures |r| == |ds| && forall i :: 0 <= i < |ds| ==> r[i] == PayloadOf(ds[i])
  {
    seq(|ds|, i requires 0 <= i < |ds| => PayloadOf(ds[i]))
  }

  function Info(d: OrderDocument): DocumentInfo {
    DocumentInfo(d.id, d.orderId, d.docType, d.fileName, d.mimeType, d.createdAt)
  }

  /** A document of the order (`find({ where: { orderId } })`). */
  function OfOrder(orderId: nat): OrderDocument -> bool {
    (d: OrderDocument) => d.orderId == orderId
  }

  /** Membership in the (order, type) group. */
  function InGroup(orderId: nat, t: OrderDocumentType): OrderDocument -> bool {
    (d: OrderDocument) => d.orderId == orderId && d.docType == t
  }

  /** Survival of the delete step: not of this order with one of the replaced types. */
  function Survives(orderId: nat, types: set<OrderDocumentType>): OrderDocument -> bool {
    (d: OrderDocument) => !(d.orderId == orderId && d.docType in types)
  }

  /** A payload of type `t`. */
  function OfType(t: OrderDocumentType): Payload -> bool {
    (p: Payload) => p.docType == t
  }

  /** The order's stored documents of type `t`, in table order. */
  function DocsOf(db: DocDb, orderId: nat, t: OrderDocumentType): seq<OrderDocument> {
    Filter(db.documents, InGroup(orderId, t))
  }

  /** The new rows, with consecutive fresh ids and the insertion time `now`. */
  function NewRows(ds: seq<Payload>, orderId: nat, firstId: nat, now: nat): (r: seq<OrderDocument>)
    ensures |r| == |ds|
    ensures forall i :: 0 <= i < |ds| ==>
              r[i] == OrderDocument(firstId + i, orderId, ds[i].docType, ds[i].fileName, ds[i].mimeType, ds[i].dataBase64, now)
  {
    seq(|ds|, i requires 0 <= i < |ds| =>
      OrderDocument(firstId + i, orderId, ds[i].docType, ds[i].fileName, ds[i].mimeType, ds[i].dataBase64, now))
  }

  /** The delete-then-insert of `saveDocuments`; the inserted rows are stamped `now`. */
  function Replace(db: DocDb, orderId: nat, ds: seq<Payload>, now: nat): DocDb {
    DocDb(Filter(db.documents, Survives(orderId, Types(ds))) + NewRows(ds, orderId, db.nextId, now), db.nextId + |ds|)
  }

  /** `saveDocuments`: an empty list, an order the user does not own, and a list with no
      usable document are refused in that order; otherwise each submitted type's documents
      of the order become exactly the submitted ones and nothing else changes. The reply
      lists the order's documents without their data. */
  function SaveDocuments(orders: Orders.OrderDb, db: DocDb, userId: nat, orderId: nat, documents: seq<RawDocEntry>, now: nat)
    : (r: Result<(DocDb, seq<DocumentInfo>), Error>)
    ensures (r.Failure? && r.error == BadRequest(NothingToSave)) <==> |documents| == 0
    ensures |documents| > 0 && !Owns(orders, userId, orderId) ==> r == Failure(NotFound(Orders.OrderNotFound))
    ensures |documents| > 0 && Owns(orders, userId, orderId) ==>
              (r.Failure? <==> forall i :: 0 <= i < |documents| ==> !Kept(documents[i]))
              && (r.Failure? ==> r.error == BadRequest(InvalidDocuments))
    ensures r.Success? ==> var db' := r.value.0; var ds := NormalizeAll(documents);
              && (forall t :: t in Types(ds) ==> Payloads(DocsOf(db', orderId, t)) == Filter(ds, OfType(t)))
              && (forall t :: t !in Types(ds) ==> DocsOf(db', orderId, t) == DocsOf(db, orderId, t))
              && (forall o, t :: o != orderId ==> DocsOf(db', o, t) == DocsOf(db, o, t))
              && (forall t, d :: t in Types(ds) && d in DocsOf(db', orderId, t) ==> d.createdAt == now)
              && var mine := Filter(db'.documents, OfOrder(orderId));
                 |r.value.1| == |mine| && forall i :: 0 <= i < |mine| ==> r.value.1[i] == Info(mine[i])
  {
    if |documents| == 0 then Failure(BadRequest(NothingToSave))
    else if FindOwned(orders, userId, orderId).None? then Failure(NotFound(Orders.OrderNotFound))
    else
      var ds := NormalizeAll(documents);
      if |ds| == 0 then Failure(BadRequest(InvalidDocuments))
      else
        var db' := Replace(db, orderId, ds, now);
        ReplaceEffect(db, orderId, ds, now);
        forall t | t in Types(ds) ensures forall d :: d in DocsOf(db', orderId, t) ==> d.createdAt == now {
          GroupAfterReplace(db, orderId, ds, now, orderId, t);
        }
        var mine := Filter(db'.documents, OfOrder(orderId));
        Success((db', seq(|mine|, i requires 0 <= i < |mine| => Info(mine[i]))))
  }

  /** `orderRepo.findOne({ where: { id: orderId, userId } })`. */
  function FindOwned(orders: Orders.OrderDb, userId: nat, orderId: nat): (r: Option<nat>)
    ensures r.None? <==> !Owns(orders, userId, orderId)
  {
    IndexWhere(orders.orders, (o: Order) => o.id == orderId && o.userId == Some(userId))
  }

  /** The user owns an order with that id. */
  ghost predicate Owns(orders: Orders.OrderDb, userId: nat, orderId: nat) {
    exists i :: 0 <= i < |orders.orders| && orders.orders[i].id == orderId && orders.orders[i].userId == Some(userId)
  }

  /** The replacement's effect on each (order, type) group. */
  lemma ReplaceEffect(db: DocDb, orderId: nat, ds: seq<Payload>, now: nat)
    ensures forall t :: t in Types(ds) ==> Payloads(DocsOf(Replace(db, orderId, ds, now), orderId, t)) == Filter(ds, OfType(t))
    ensures forall t :: t !in Types(ds) ==> DocsOf(Replace(db, orderId, ds, now), orderId, t) == DocsOf(db, orderId, t)
    ensures forall o, t :: o != orderId ==> DocsOf(Replace(db, orderId, ds, now), o, t) == DocsOf(db, o, t)
  {
    forall o, t ensures DocsOf(Replace(db, orderId, ds, now), o, t) == GroupAfter(db, orderId, ds, now, o, t) {
      GroupAfterReplace(db, orderId, ds, now, o, t);
    }
    forall t | t in Types(ds) ensures Payloads(Filter(NewRows(ds, orderId, db.nextId, now), InGroup(orderId, t))) == Filter(ds, OfType(t)) {
      NewRowsOfType(ds, orderId, db.nextId, now, t);
    }
  }

  /** What the group (o, t) holds after the replacement, case by case. */
  function GroupAfter(db: DocDb, orderId: nat, ds: seq<Payload>, now: nat, o: nat, t: OrderDocumentType): seq<OrderDocument> {
    if o != orderId then DocsOf(db, o, t)
    else if t in Types(ds) then Filter(NewRows(ds, orderId, db.nextId, now), InGroup(o, t))
    else DocsOf(db, o, t)
  }

  lemma GroupAfterReplace(db: DocDb, orderId: nat, ds: seq<Payload>, now: nat, o: nat, t: OrderDocumentType)
    ensures DocsOf(Replace(db, orderId, ds, now), o, t) == GroupAfter(db, orderId, ds, now, o, t)
  {
    var del := Survives(orderId, Types(ds));
    var q := InGroup(o, t);
    var kept := Filter(db.documents, del);
    var added := NewRows(ds, orderId, db.nextId, now);
    FilterAppend(kept, added, q);
    FilterFilter(db.documents, del, q);
    if o == orderId && t in Types(ds) {
      FilterNone(db.documents, Both(del, q));
    } else {
      FilterExt(db.documents, Both(del, q), q);
    }
    if o != orderId || t !in Types(ds) {
      FilterNone(added, q);
    }
  }

  /** The new rows of one type carry the payloads of that type, in order. */
  lemma {:induction false} NewRowsOfType(ds: seq<Payload>, orderId: nat, firstId: nat, now: nat, t: OrderDocumentType)
    ensures Payloads(Filter(NewRows(ds, orderId, firstId, now), InGroup(orderId, t))) == Filter(ds, OfType(t))
    decreases |ds|
  {
    if |ds| > 0 {
      NewRowsOfType(ds[1..], orderId, firstId + 1, now, t);
      var tail := Filter(NewRows(ds[1..], orderId, firstId + 1, now), InGroup(orderId, t));
      var head := if ds[0].docType == t then [NewRows(ds, orderId, firstId, now)[0]] else [];
      NewRowsCons(ds, orderId, firstId, now, t);
      PayloadsAppend(head, tail);
      assert Payloads(head) == if ds[0].docType == t then [ds[0]] else [];
    }
  }

  /** One step of the filter over the new rows. */
  lemma NewRowsCons(ds: seq<Payload>, orderId: nat, firstId: nat, now: nat, t: OrderDocumentType)
    requires |ds| > 0
    ensures var rows := NewRows(ds, orderId, firstId, now);
            Filter(rows, InGroup(orderId, t))
              == (if ds[0].docType == t then [rows[0]] else []) + Filter(NewRows(ds[1..], orderId, firstId + 1, now), InGroup(orderId, t))
    ensures Filter(ds, OfType(t)) == (if ds[0].docType == t then [ds[0]] else []) + Filter(ds[1..], OfType(t))
  {
    NewRowsTail(ds, orderId, firstId, now);
  }

  lemma NewRowsTail(ds: seq<Payload>, orderId: nat, firstId: nat, now: nat)
    requires |ds| > 0
    ensures NewRows(ds, orderId, firstId, now)[1..] == NewRows(ds[1..], orderId, firstId + 1, now)
  {
  }

  lemma PayloadsAppend(a: seq<OrderDocument>, b: seq<OrderDocument>)
    ensures Payloads(a + b) == Payloads(a) + Payloads(b)
  {
  }

  /** `getDocument`: ownership first, then the type, then the document itself. */
  function GetDocument(orders: Orders.OrderDb, db: DocDb, userId: nat, orderId: nat, docType: string)
    : (r: Result<OrderDocument, Error>)
    ensures !Owns(orders, userId, orderId) ==> r == Failure(NotFound(Orders.OrderNotFound))
    ensures Owns(orders, userId, orderId) && ParseDocumentType(docType).None? ==>
              r == Failure(BadRequest(InvalidDocumentType))
    ensures Owns(orders, userId, orderId) && ParseDocumentType(docType).Some? ==>
              var t := ParseDocumentType(docType).value;
              && (r.Failure? <==> |DocsOf(db, orderId, t)| == 0)
              && (r.Failure? ==> r.error == NotFound(DocumentNotFound))
              && (r.Success? ==> r.value == DocsOf(db, orderId, t)[0])
  {
    if FindOwned(orders, userId, orderId).None? then Failure(NotFound(Orders.OrderNotFound))
    else match ParseDocumentType(docType)
      case None => Failure(BadRequest(InvalidDocumentType))
      case Some(t) =>
        var found := DocsOf(db, orderId, t);
        if |found| == 0 then Failure(NotFound(DocumentNotFound)) else Success(found[0])
  }

  /** At most one document per (order, type). */
  ghost predicate OnePerType(db: DocDb) {
    forall o, t :: |DocsOf(db, o, t)| <= 1
  }

  /** The submitted types are pairwise different. */
  predicate DistinctTypes(ds: seq<Payload>) {
    forall i, j :: 0 <= i < j < |ds| ==> ds[i].docType != ds[j].docType
  }

  /** When the submitted types are distinct, saving keeps one document per (order, type),
      and `getDocument` returns exactly what was submitted for each saved type. */
  lemma SaveThenGet(orders: Orders.OrderDb, db: DocDb, userId: nat, orderId: nat, documents: seq<RawDocEntry>, now: nat, k: nat)
    requires OnePerType(db)
    requires DistinctTypes(NormalizeAll(documents))
    requires k < |NormalizeAll(documents)|
    ensures var r := SaveDocuments(orders, db, userId, orderId, documents, now);
            r.Success? ==>
              && OnePerType(r.value.0)
              && var d := NormalizeAll(documents)[k];
                 GetDocument(orders, r.value.0, userId, orderId, d.docType.Name()).Success?
                 && PayloadOf(GetDocument(orders, r.value.0, userId, orderId, d.docType.Name()).value) == d
  {
    var r := SaveDocuments(orders, db, userId, orderId, documents, now);
    if r.Success? {
      var db' := r.value.0;
      var ds := NormalizeAll(documents);
      forall t | t in Types(ds) ensures Filter(ds, OfType(t)) == [ds[IndexOfType(ds, t)]] {
        SingleOfType(ds, t);
      }
      forall o, t ensures |DocsOf(db', o, t)| <= 1 {
        if o == orderId && t in Types(ds) {
          assert |Payloads(DocsOf(db', o, t))| == 1;
        }
      }
      var t := ds[k].docType;
      assert ParseDocumentType(t.Name()) == Some(t) by {
        match t
        case Invoice =>
        case Summary =>
      }
      assert t in Types(ds);
      assert IndexOfType(ds, t) == k;
      assert Payloads(DocsOf(db', orderId, t)) == [ds[k]];
      assert FindOwned(orders, userId, orderId).Some?;
    }
  }

  /** The position of the document of type `t`. */
  function IndexOfType(ds: seq<Payload>, t: OrderDocumentType): (r: nat)
    requires t in Types(ds)
    ensures r < |ds| && ds[r].docType == t
    ensures DistinctTypes(ds) ==> forall i :: 0 <= i < |ds| && ds[i].docType == t ==> i == r
  {
    IndexWhere(ds, (p: Payload) => p.docType == t).value
  }

  /** With distinct types, each submitted type occurs exactly once. */
  lemma {:induction false} SingleOfType(ds: seq<Payload>, t: OrderDocumentType)
    requires DistinctTypes(ds) && t in Types(ds)
    ensures Filter(ds, OfType(t)) == [ds[IndexOfType(ds, t)]]
    decreases |ds|
  {
    var q := OfType(t);
    var k := IndexOfType(ds, t);
    if k == 0 {
      FilterNone(ds[1..], q);
    } else {
      assert ds[1..][k - 1] == ds[k];
      assert t in Types(ds[1..]);
      SingleOfType(ds[1..], t);
      assert IndexOfType(ds[1..], t) == k - 1;
    }
  }

  /** Saving does not enforce one document per type: two submitted documents of the same
      type are both stored in the order's group for that type. */
  lemma SameTypeAllStored(orders: Orders.OrderDb, db: DocDb, userId: nat, orderId: nat, documents: seq<RawDocEntry>, now: nat, i: nat, j: nat)
    requires i < j < |NormalizeAll(documents)|
    requires NormalizeAll(documents)[i].docType == NormalizeAll(documents)[j].docType
    ensures var r := SaveDocuments(orders, db, userId, orderId, documents, now);
            r.Success? ==> |DocsOf(r.value.0, orderId, NormalizeAll(documents)[i].docType)| >= 2
  {
    var ds := NormalizeAll(documents);
    var t := ds[i].docType;
    assert t in Types(ds);
    FilterTwo(ds, OfType(t), i, j);
  }

  /** The code as written stores every submitted document: two invoices in one request are
      both kept, so a later `getDocument` returns only one of them. */
  lemma TwoInvoicesBothStored()
    ensures var orders := Orders.OrderDb([Order(1, Some(5), [], 0, Processing, None, None, 0)], 2);
            var doc := Some(RawDocument("invoice", Some("a.pdf"), None, Some("QQ==")));
            var r := SaveDocuments(orders, DocDb([], 1), 5, 1, [doc, doc], 0);
            r.Success? && |DocsOf(r.value.0, 1, Invoice)| >= 2
  {
    var orders := Orders.OrderDb([Order(1, Some(5), [], 0, Processing, None, None, 0)], 2);
    var doc := Some(RawDocument("invoice", Some("a.pdf"), None, Some("QQ==")));
    assert Kept(doc);
    assert FindOwned(orders, 5, 1) == Some(0);
    TwoCopiesNormalized(doc);
    SameTypeAllStored(orders, DocDb([], 1), 5, 1, [doc, doc], 0, 0, 1);
  }

  lemma TwoCopiesNormalized(doc: RawDocEntry)
    requires Kept(doc)
    ensures NormalizeAll([doc, doc]) == [Normalize(doc), Normalize(doc)]
  {
    assert [doc, doc][1..] == [doc];
    assert [doc][1..] == [];
  }
}

=== FILE: orders.dfy ===
/** Order creation, lookup and status changes (backend/src/modules/orders/orders.service.ts).
    Prices come from the catalogue, never from the client; the order and its items are
    written in one transaction, so a failed request leaves no order behind. */
module Orders {
  import opened Wrappers
  import opened Text
  import opened Entities
  import opened Seqs
  import Products

  const EmptyCart: string := "Il carrello è vuoto"
  const InvalidRows: string := "Righe ordine non valide"
  const MissingProductsPrefix: string := "Prodotti non validi o non disponibili: "
  const OrderNotFound: string := "Ordine non trovato"

  /** The `orders` table in insertion order, with the next id. */
  datatype OrderDb = OrderDb(orders: seq<Order>, nextId: nat)

  /** Order ids are unique and below the next one, and rows were inserted in `createdAt` order. */
  ghost predicate Valid(db: OrderDb) {
    && (forall i, j :: 0 <= i < j < |db.orders| ==> db.orders[i].id != db.orders[j].id)
    && (forall i :: 0 <= i < |db.orders| ==> db.orders[i].id < db.nextId)
    && Ascending(db.orders, CreatedAt)
  }

  function CreatedAt(o: Order): nat {
    o.createdAt
  }

  /** One requested row, each field after `Number(...)`; `unitPrice` is the client's price. */
  datatype RawItem = RawItem(productId: JsNumber, quantity: JsNumber, unitPrice: JsNumber)

  /** A row with an integer, positive product id and quantity. */
  predicate ValidRow(item: RawItem) {
    && item.productId.Integer? && item.productId.value > 0
    && item.quantity.Integer? && item.quantity.value > 0
  }

  predicate AllValid(items: seq<RawItem>) {
    forall i :: 0 <= i < |items| ==> ValidRow(items[i])
  }

  /** The requested product ids, row by row. */
  function ProductIds(items: seq<RawItem>): (r: seq<nat>)
    requires AllValid(items)
    ensures |r| == |items| && forall i :: 0 <= i < |items| ==> r[i] == items[i].productId.value
  {
    seq(|items|, i requires 0 <= i < |items| => items[i].productId.value as nat)
  }

  /** `x` occurs in `s` before any occurrence of `y`. */
  ghost predicate Before(s: seq<nat>, x: nat, y: nat) {
    exists a :: 0 <= a < |s| && s[a] == x && forall b :: 0 <= b <= a ==> s[b] != y
  }

  /** `Array.from(new Set(s))`: each value once, in order of first appearance. */
  function Distinct(s: seq<nat>): (r: seq<nat>)
    ensures forall x :: x in r <==> x in s
    ensures forall i, j :: 0 <= i < j < |r| ==> r[i] != r[j]
    ensures forall i, j :: 0 <= i < j < |r| ==> Before(s, r[i], r[j])
  {
    if |s| == 0 then []
    else
      var init, last := s[..|s| - 1], s[|s| - 1];
      var rest := Distinct(init);
      assert s == init + [last];
      BeforeExtends(init, last, rest);
      if last in rest then rest
      else
        var r := rest + [last];
        forall i | 0 <= i < |rest| ensures Before(s, r[i], last) {
          assert rest[i] in init;
          var a :| 0 <= a < |init| && init[a] == rest[i];
          assert s[a] == r[i];
          assert forall b :: 0 <= b <= a ==> s[b] == init[b];
        }
        r
  }

  lemma BeforeExtends(init: seq<nat>, last: nat, rest: seq<nat>)
    requires forall i, j :: 0 <= i < j < |rest| ==> Before(init, rest[i], rest[j])
    ensures forall i, j :: 0 <= i < j < |rest| ==> Before(init + [last], rest[i], rest[j])
  {
    forall i, j | 0 <= i < j < |rest| ensures Before(init + [last], rest[i], rest[j]) {
      var a :| 0 <= a < |init| && init[a] == rest[i] && forall b :: 0 <= b <= a ==> init[b] != rest[j];
      assert (init + [last])[a] == rest[i];
      assert forall b :: 0 <= b <= a ==> (init + [last])[b] == init[b];
    }
  }

  /** The requested ids with no active product, each once, in order of first request. */
  function MissingIds(catalog: Products.Catalog, ids: seq<nat>): (r: seq<nat>)
    ensures forall x :: x in r <==> x in ids && Products.FindOne(catalog, x).Failure?
    ensures forall i, j :: 0 <= i < j < |r| ==> r[i] != r[j]
  {
    var d := Distinct(ids);
    var r := Filter(d, (id: nat) => Products.FindOne(catalog, id).Failure?);
    FilterIsSubsequence(d, (id: nat) => Products.FindOne(catalog, id).Failure?);
    SubsequenceDistinct(r, d);
    r
  }

  /** A subsequence of a sequence without repeats has none either. */
  lemma {:induction false} SubsequenceDistinct(s: seq<nat>, t: seq<nat>)
    requires IsSubsequence(s, t)
    requires forall i, j :: 0 <= i < j < |t| ==> t[i] != t[j]
    ensures forall i, j :: 0 <= i < j < |s| ==> s[i] != s[j]
    decreases |t|
  {
    if |s| > 0 {
      assert |t| > 0;
      if s[0] == t[0] {
        SubsequenceDistinct(s[1..], t[1..]);
        forall j | 0 < j < |s| ensures s[0] != s[j] {
          SubsequenceMember(s[1..], t[1..], j - 1);
        }
      } else {
        SubsequenceDistinct(s, t[1..]);
      }
    }
  }

  /** The message listing the missing ids, separated by ", ". */
  function MissingMessage(missing: seq<nat>): string {
    MissingProductsPrefix + Join(seq(|missing|, i requires 0 <= i < |missing| => NatToString(missing[i])), ", ")
  }

  /** The order lines: one per requested row, in order, priced from the catalogue. */
  function Lines(catalog: Products.Catalog, items: seq<RawItem>): (r: seq<OrderItem>)
    requires AllValid(items)
    requires forall i :: 0 <= i < |items| ==> Products.FindOne(catalog, items[i].productId.value).Success?
    ensures |r| == |items|
    ensures forall i :: 0 <= i < |items| ==>
              && r[i].productId == items[i].productId.value
              && r[i].quantity == items[i].quantity.value
              && r[i].unitPrice == Products.FindOne(catalog, items[i].productId.value).value.price
  {
    seq(|items|, i requires 0 <= i < |items| =>
      var id := items[i].productId.value as nat;
      OrderItem(id, items[i].quantity.value, Products.FindOne(catalog, id).value.price))
  }

  /** `reduce((sum, line) => sum + line.unitPrice * line.quantity, 0)`. */
  function Total(lines: seq<OrderItem>): int {
    if |lines| == 0 then 0
    else Total(lines[..|lines| - 1]) + lines[|lines| - 1].unitPrice * lines[|lines| - 1].quantity
  }

  /** The total of a concatenation is the sum of the totals. */
  lemma {:induction false} TotalAppend(a: seq<OrderItem>, b: seq<OrderItem>)
    ensures Total(a + b) == Total(a) + Total(b)
    decreases |b|
  {
    if |b| == 0 {
      assert a + b == a;
    } else {
      assert (a + b)[..|a + b| - 1] == a + b[..|b| - 1];
      TotalAppend(a, b[..|b| - 1]);
    }
  }

  /** With non-negative prices and positive quantities the total is non-negative, and it
      is zero only for zero prices. */
  lemma {:induction false} TotalNonNegative(lines: seq<OrderItem>)
    requires forall i :: 0 <= i < |lines| ==> lines[i].unitPrice >= 0 && lines[i].quantity > 0
    ensures Total(lines) >= 0
    ensures Total(lines) == 0 ==> forall i :: 0 <= i < |lines| ==> lines[i].unitPrice == 0
    decreases |lines|
  {
    if |lines| > 0 {
      var init := lines[..|lines| - 1];
      TotalNonNegative(init);
      var last := lines[|lines| - 1];
      assert last.unitPrice * last.quantity >= 0;
      if Total(lines) == 0 {
        assert last.unitPrice * last.quantity == 0;
        forall i | 0 <= i < |lines| ensures lines[i].unitPrice == 0 {
          if i < |lines| - 1 {
            assert lines[i] == init[i];
          }
        }
      }
    }
  }

  /** One line per requested row, in order, with the row's product and quantity and the
      price of that product's active catalogue row. */
  ghost predicate PricedLines(lines: seq<OrderItem>, items: seq<RawItem>, catalog: Products.Catalog) {
    && |lines| == |items|
    && forall i :: 0 <= i < |lines| ==>
         && items[i].productId == Integer(lines[i].productId)
         && items[i].quantity == Integer(lines[i].quantity)
         && exists p :: p in catalog.products && p.isActive && p.id == lines[i].productId && lines[i].unitPrice == p.price
  }

  /** `createOrder`: three validations in turn, then one new PROCESSING order whose items
      are the requested rows with catalogue prices and whose total is their sum. */
  function CreateOrder(
    db: OrderDb, catalog: Products.Catalog, userId: nat, items: Option<seq<RawItem>>,
    shippingAddress: Option<string>, notes: Option<string>, now: nat)
    : (r: Result<(OrderDb, Order), Error>)
    ensures (r.Failure? && r.error == BadRequest(EmptyCart)) <==> items.None? || |items.value| == 0
    ensures items.Some? && |items.value| > 0 && !AllValid(items.value) ==> r == Failure(BadRequest(InvalidRows))
    ensures items.Some? && |items.value| > 0 && AllValid(items.value) ==>
              var missing := MissingIds(catalog, ProductIds(items.value));
              && (r.Failure? <==> |missing| > 0)
              && (r.Failure? ==> r.error == BadRequest(MissingMessage(missing)))
    ensures r.Success? ==>
              && items.Some? && AllValid(items.value)
              && var o := r.value.1;
                 && r.value.0 == OrderDb(db.orders + [o], db.nextId + 1)
                 && o.id == db.nextId && o.userId == Some(userId) && o.status == Processing
                 && o.shippingAddress == shippingAddress && o.notes == notes && o.createdAt == now
                 && PricedLines(o.items, items.value, catalog)
                 && o.total == Total(o.items)
  {
    if items.None? || |items.value| == 0 then Failure(BadRequest(EmptyCart))
    else if !AllValid(items.value) then Failure(BadRequest(InvalidRows))
    else
      var ids := ProductIds(items.value);
      var missing := MissingIds(catalog, ids);
      if |missing| > 0 then Failure(BadRequest(MissingMessage(missing)))
      else
        assert forall i :: 0 <= i < |items.value| ==> ids[i] in ids;
        var lines := Lines(catalog, items.value);
        assert PricedLines(lines, items.value, catalog);
        var o := Order(db.nextId, Some(userId), lines, Total(lines), Processing, shippingAddress, notes, now);
        Success((OrderDb(db.orders + [o], db.nextId + 1), o))
  }

  /** A created order keeps the store valid when the clock has not gone backwards, and
      `findOne` returns it. */
  lemma CreateOrderThenFind(
    db: OrderDb, catalog: Products.Catalog, userId: nat, items: Option<seq<RawItem>>,
    shippingAddress: Option<string>, notes: Option<string>, now: nat)
    requires Valid(db)
    requires forall i :: 0 <= i < |db.orders| ==> db.orders[i].createdAt <= now
    ensures var r := CreateOrder(db, catalog, userId, items, shippingAddress, notes, now);
            r.Success? ==> Valid(r.value.0) && FindOne(r.value.0, r.value.1.id) == Success(r.value.1)
  {
    var r := CreateOrder(db, catalog, userId, items, shippingAddress, notes, now);
    if r.Success? {
      AppendOrder(db, r.value.1);
    }
  }

  /** Appending an order with the next id and a current timestamp keeps the store valid
      and makes the order findable. */
  lemma AppendOrder(db: OrderDb, o: Order)
    requires Valid(db) && o.id == db.nextId
    requires forall i :: 0 <= i < |db.orders| ==> db.orders[i].createdAt <= o.createdAt
    ensures Valid(OrderDb(db.orders + [o], db.nextId + 1))
    ensures FindOne(OrderDb(db.orders + [o], db.nextId + 1), o.id) == Success(o)
  {
    var db' := OrderDb(db.orders + [o], db.nextId + 1);
    assert forall i :: 0 <= i < |db.orders| ==> db'.orders[i] == db.orders[i] && db.orders[i].id < o.id;
    assert db'.orders[|db.orders|] == o;
    var pos := IndexWhere(db'.orders, (x: Order) => x.id == o.id);
    assert pos == Some(|db.orders|);
  }

  /** The client's unit prices play no part: two requests that differ only in them give
      the same outcome. */
  lemma ClientPriceIgnored(
    db: OrderDb, catalog: Products.Catalog, userId: nat, a: seq<RawItem>, b: seq<RawItem>,
    shippingAddress: Option<string>, notes: Option<string>, now: nat)
    requires |a| == |b|
    requires forall i :: 0 <= i < |a| ==> a[i].productId == b[i].productId && a[i].quantity == b[i].quantity
    ensures CreateOrder(db, catalog, userId, Some(a), shippingAddress, notes, now)
            == CreateOrder(db, catalog, userId, Some(b), shippingAddress, notes, now)
  {
    if AllValid(a) {
      assert ProductIds(a) == ProductIds(b);
      if |MissingIds(catalog, ProductIds(a))| == 0 {
        assert forall i :: 0 <= i < |a| ==> ProductIds(a)[i] in ProductIds(a);
        assert Lines(catalog, a) == Lines(catalog, b);
      }
    }
  }

  /** A worked case: one row of two units of a product priced 19.99 makes an order of
      39.98, whatever price the client sent. */
  lemma PricedFromCatalog()
    ensures var p := Product(7, "Mug", "mug", None, 1999, [], 5, false, true, None, 0);
            var catalog := Products.Catalog([p], 8);
            var r := CreateOrder(OrderDb([], 1), catalog, 3, Some([RawItem(Integer(7), Integer(2), Integer(1))]),
                                 None, None, 10);
            && r.Success?
            && r.value.1.items == [OrderItem(7, 2, 1999)]
            && r.value.1.total == 3998
  {
    var p := Product(7, "Mug", "mug", None, 1999, [], 5, false, true, None, 0);
    var catalog := Products.Catalog([p], 8);
    var items := [RawItem(Integer(7), Integer(2), Integer(1))];
    assert Products.FindOne(catalog, 7) == Success(p);
    assert ProductIds(items) == [7];
    assert Distinct([7]) == [7];
    assert MissingIds(catalog, [7]) == [];
    var lines := Lines(catalog, items);
    assert lines == [OrderItem(7, 2, 1999)];
    assert Total(lines) == Total([]) + 1999 * 2;
  }

  /** A worked case: two rows naming the same unknown product report it once. */
  lemma MissingReportedOnce()
    ensures var r := CreateOrder(OrderDb([], 1), Products.Catalog([], 1), 3,
                                 Some([RawItem(Integer(9), Integer(1), NotInteger), RawItem(Integer(9), Integer(2), NotInteger)]),
                                 None, None, 10);
            r == Failure(BadRequest(MissingProductsPrefix + "9"))
  {
    var items := [RawItem(Integer(9), Integer(1), NotInteger), RawItem(Integer(9), Integer(2), NotInteger)];
    assert AllValid(items);
    assert ProductIds(items) == [9, 9];
    assert MissingIds(Products.Catalog([], 1), [9, 9]) == [9] by {
      var m := MissingIds(Products.Catalog([], 1), [9, 9]);
      assert 9 in m;
      assert forall x :: x in m ==> x == 9;
    }
    assert MissingMessage([9]) == MissingProductsPrefix + "9" by {
      assert NatToString(9) == "9";
      assert seq(1, i requires 0 <= i < 1 => NatToString([9][i])) == ["9"];
    }
  }

  /** `findByUser`: the user's orders, newest first. */
  function FindByUser(db: OrderDb, userId: nat): (r: seq<Order>)
    ensures forall i :: 0 <= i < |r| ==> r[i] in db.orders && r[i].userId == Some(userId)
    ensures forall i :: 0 <= i < |db.orders| && db.orders[i].userId == Some(userId) ==> db.orders[i] in r
    ensures |r| == |Filter(db.orders, (o: Order) => o.userId == Some(userId))|
    ensures Ascending(db.orders, CreatedAt) ==> Descending(r, CreatedAt)
  {
    var mine := Filter(db.orders, (o: Order) => o.userId == Some(userId));
    var r := Reverse(mine);
    assert forall i :: 0 <= i < |r| ==> r[i] == mine[|mine| - 1 - i];
    assert forall i :: 0 <= i < |mine| ==> mine[i] == r[|mine| - 1 - i];
    if Ascending(db.orders, CreatedAt) then
      FilterIsSubsequence(db.orders, (o: Order) => o.userId == Some(userId));
      SubsequenceAscending(mine, db.orders, CreatedAt);
      ReverseOfAscending(mine, CreatedAt);
      r
    else r
  }

  /** `findOne`: the order with id `id`. */
  function FindOne(db: OrderDb, id: nat): (r: Result<Order, Error>)
    ensures r.Failure? <==> forall i :: 0 <= i < |db.orders| ==> db.orders[i].id != id
    ensures r.Failure? ==> r.error == NotFound(OrderNotFound)
    ensures r.Success? ==> r.value in db.orders && r.value.id == id
  {
    match IndexWhere(db.orders, (o: Order) => o.id == id)
    case None => Failure(NotFound(OrderNotFound))
    case Some(k) => Success(db.orders[k])
  }

  /** The row position of order `id`. */
  function PositionOf(db: OrderDb, id: nat): Option<nat> {
    IndexWhere(db.orders, (o: Order) => o.id == id)
  }

  /** `updateStatus`: any status may follow any other; only the status of that order changes. */
  function UpdateStatus(db: OrderDb, id: nat, status: OrderStatus): (r: Result<(OrderDb, Order), Error>)
    ensures r.Failure? <==> FindOne(db, id).Failure?
    ensures r.Failure? ==> r.error == NotFound(OrderNotFound)
    ensures r.Success? ==>
              && r.value.1 == FindOne(db, id).value.(status := status)
              && r.value.0.nextId == db.nextId
              && var k := PositionOf(db, id).value;
                 k < |db.orders| && r.value.0.orders == db.orders[k := r.value.1]
  {
    match PositionOf(db, id)
    case None => Failure(NotFound(OrderNotFound))
    case Some(k) =>
      var o := db.orders[k].(status := status);
      Success((db.(orders := db.orders[k := o]), o))
  }

  /** The `status` field of the body `PUT /orders/:id/status` receives. The body is
      declared as a plain object type, so the validation pipe checks nothing and the
      field may be absent, a string, or any other JSON value. */
  datatype StatusField =
    | Missing
    | Text(text: string)
    /** `null`, a number, a boolean, an object or an array. */
    | NotText

  /** The error the enumeration column raises for a value that names no status. */
  const InvalidStatus: string := "invalid input value for enum orders_status_enum"

  /** The endpoint as the client reaches it: `findOne` first, then `order.status = status`
      and `save`. An absent field leaves the row as it was, since `save` skips undefined
      properties; a value that names no status is refused by the NOT NULL enumeration
      column, which the service does not catch. */
  function UpdateStatusRequest(db: OrderDb, id: nat, status: StatusField): (r: Result<(OrderDb, Order), Error>)
    ensures FindOne(db, id).Failure? ==> r == Failure(NotFound(OrderNotFound))
    ensures FindOne(db, id).Success? ==>
              (r.Failure? <==> status.NotText? || (status.Text? && forall t: OrderStatus :: t.Name() != status.text))
    ensures r.Failure? && FindOne(db, id).Success? ==> r.error == ServerError(InvalidStatus)
    ensures r.Success? && status.Missing? ==> r.value == (db, FindOne(db, id).value)
    ensures r.Success? && status.Text? ==>
              && r.value.1.status.Name() == status.text
              && r.value.1 == FindOne(db, id).value.(status := r.value.1.status)
              && r.value.0.nextId == db.nextId
              && var k := PositionOf(db, id).value;
                 k < |db.orders| && r.value.0.orders == db.orders[k := r.value.1]
  {
    match FindOne(db, id)
    case Failure(e) => Failure(e)
    case Success(o) =>
      match status
      case Missing => Success((db, o))
      case NotText => Failure(ServerError(InvalidStatus))
      case Text(s) =>
        match ParseOrderStatus(s)
        case None => Failure(ServerError(InvalidStatus))
        case Some(st) => UpdateStatus(db, id, st)
  }

  /** Sending the stored name of a status is the typed status change, and whatever the
      body holds, a request that succeeds keeps the store valid and is what `findOne`
      reports afterwards. */
  lemma UpdateStatusRequestThenFind(db: OrderDb, id: nat, status: StatusField)
    requires Valid(db)
    ensures status.Text? && ParseOrderStatus(status.text).Some? ==>
              UpdateStatusRequest(db, id, status) == UpdateStatus(db, id, ParseOrderStatus(status.text).value)
    ensures var r := UpdateStatusRequest(db, id, status);
            r.Success? ==> Valid(r.value.0) && FindOne(r.value.0, id) == Success(r.value.1)
  {
    var r := UpdateStatusRequest(db, id, status);
    if r.Success? && status.Text? {
      UpdateStatusThenFind(db, id, ParseOrderStatus(status.text).value, id);
    }
  }

  /** A status change keeps the store valid and is what `findOne` reports afterwards;
      every other order reads as before. */
  lemma UpdateStatusThenFind(db: OrderDb, id: nat, status: OrderStatus, other: nat)
    requires Valid(db)
    ensures var r := UpdateStatus(db, id, status);
            r.Success? ==>
              && Valid(r.value.0)
              && FindOne(r.value.0, id) == Success(r.value.1)
              && r.value.1.status == status
              && (other != id ==> FindOne(r.value.0, other) == FindOne(db, other))
  {
    var r := UpdateStatus(db, id, status);
    if r.Success? {
      var db' := r.value.0;
      var k := PositionOf(db, id).value;
      assert forall i :: 0 <= i < |db.orders| ==>
               db'.orders[i].id == db.orders[i].id && db'.orders[i].createdAt == db.orders[i].createdAt;
      assert IndexWhere(db'.orders, (o: Order) => o.id == id) == Some(k);
      if other != id {
        var x := IndexWhere(db.orders, (o: Order) => o.id == other);
        if x.Some? {
          assert x.value != k;
          assert IndexWhere(db'.orders, (o: Order) => o.id == other) == x;
        }
      }
    }
  }

  /** No transition rule: from every status an existing order can be moved to every status. */
  lemma AnyTransition(db: OrderDb, id: nat, status: OrderStatus)
    requires exists i :: 0 <= i < |db.orders| && db.orders[i].id == id
    ensures UpdateStatus(db, id, status).Success?
    ensures UpdateStatus(db, id, status).value.1.status == status
  {
  }
}

=== FILE: payment_methods.dfy ===
/** The server-side sanitiser for saved payment methods (`sanitizePaymentMethods` in
    backend/src/modules/auth/auth.service.ts): drop malformed entries, truncate and
    strip the masked fields, keep type-specific fields only for their type, and leave
    exactly one default. */
module PaymentMethods {
  import opened Wrappers
  import opened Text
  import opened Entities

  const MaxLabel: nat := 120
  const MaxPaypalEmail: nat := 120
  const MaxCardBrand: nat := 40
  const MaxCardExpiry: nat := 5
  const SuffixLength: nat := 4

  /** One element of the request's `paymentMethods` array. A field is `Some` only when it
      holds a string; `isDefault` is its truthiness. */
  datatype RawPaymentMethod = RawPaymentMethod(
    id: Option<string>,
    kind: Option<string>,
    maskedLabel: Option<string>,
    isDefault: bool,
    paypalEmail: Option<string>,
    cardBrand: Option<string>,
    cardLast4: Option<string>,
    cardExpiry: Option<string>,
    bankIbanLast4: Option<string>)

  /** An array element; `None` is an element that is not an object (null, a number...). */
  type RawEntry = Option<RawPaymentMethod>

  /** The filter: an object whose id and label are non-blank strings and whose method is
      one of the three allowed names. */
  predicate IsWellFormed(e: RawEntry) {
    && e.Some?
    && e.value.id.Some? && !IsBlank(e.value.id.value)
    && e.value.maskedLabel.Some? && !IsBlank(e.value.maskedLabel.value)
    && e.value.kind.Some? && ParsePaymentMethodType(e.value.kind.value).Some?
  }

  /** The field bounds every sanitised method satisfies: label, e-mail, brand and expiry
      within their lengths, card and IBAN suffixes at most four characters (the card one
      digits only, the IBAN one free of whitespace), and each type-specific field present
      only on its own type. */
  predicate Bounded(m: SavedPaymentMethod) {
    && |m.maskedLabel| <= MaxLabel
    && (m.paypalEmail.Some? ==> m.kind == Paypal && |m.paypalEmail.value| <= MaxPaypalEmail)
    && (m.cardBrand.Some? ==> m.kind == Card && |m.cardBrand.value| <= MaxCardBrand)
    && (m.cardExpiry.Some? ==> m.kind == Card && |m.cardExpiry.value| <= MaxCardExpiry)
    && (m.cardLast4.Some? ==> m.kind == Card && |m.cardLast4.value| <= SuffixLength
                              && AllDigits(m.cardLast4.value))
    && (m.bankIbanLast4.Some? ==> m.kind == Bank && |m.bankIbanLast4.value| <= SuffixLength
                                  && NoWhitespace(m.bankIbanLast4.value))
  }

  /** `f.slice(0, n)` when `f` is a string and the entry has type `want`, else undefined. */
  function Truncated(f: Option<string>, n: nat, kind: PaymentMethodType, want: PaymentMethodType): (r: Option<string>)
    ensures r.Some? <==> kind == want && f.Some?
    ensures r.Some? ==> |r.value| <= n && StartsWith(f.value, r.value)
    ensures r.Some? ==> IsHead(r.value, f.value, n)
  {
    if kind == want && f.Some? then Some(Take(f.value, n)) else None
  }

  /** The `map` step applied to one well-formed entry. */
  function Normalize(e: RawEntry): (m: SavedPaymentMethod)
    requires IsWellFormed(e)
    ensures Bounded(m)
    ensures m.id == e.value.id.value && m.kind.Name() == e.value.kind.value
    ensures m.isDefault == e.value.isDefault
    ensures IsHead(m.maskedLabel, e.value.maskedLabel.value, MaxLabel)
    ensures m.paypalEmail.Some? <==> m.kind == Paypal && e.value.paypalEmail.Some?
    ensures m.paypalEmail.Some? ==> IsHead(m.paypalEmail.value, e.value.paypalEmail.value, MaxPaypalEmail)
    ensures m.cardBrand.Some? <==> m.kind == Card && e.value.cardBrand.Some?
    ensures m.cardBrand.Some? ==> IsHead(m.cardBrand.value, e.value.cardBrand.value, MaxCardBrand)
    ensures m.cardExpiry.Some? <==> m.kind == Card && e.value.cardExpiry.Some?
    ensures m.cardExpiry.Some? ==> IsHead(m.cardExpiry.value, e.value.cardExpiry.value, MaxCardExpiry)
    ensures m.cardLast4.Some? <==> m.kind == Card && e.value.cardLast4.Some?
    ensures m.cardLast4.Some? ==> IsTail(m.cardLast4.value, DigitsOnly(e.value.cardLast4.value), SuffixLength)
    ensures m.bankIbanLast4.Some? <==> m.kind == Bank && e.value.bankIbanLast4.Some?
    ensures m.bankIbanLast4.Some? ==>
              IsTail(m.bankIbanLast4.value, StripWhitespace(e.value.bankIbanLast4.value), SuffixLength)
  {
    var raw := e.value;
    var kind := ParsePaymentMethodType(raw.kind.value).value;
    SavedPaymentMethod(
      raw.id.value,
      kind,
      Take(raw.maskedLabel.value, MaxLabel),
      raw.isDefault,
      Truncated(raw.paypalEmail, MaxPaypalEmail, kind, Paypal),
      Truncated(raw.cardBrand, MaxCardBrand, kind, Card),
      if kind == Card && raw.cardLast4.Some? then Some(TakeLast(DigitsOnly(raw.cardLast4.value), SuffixLength)) else None,
      Truncated(raw.cardExpiry, MaxCardExpiry, kind, Card),
      if kind == Bank && raw.bankIbanLast4.Some? then Some(TakeLast(StripWhitespace(raw.bankIbanLast4.value), SuffixLength)) else None)
  }

  /** The `filter` then `map` steps, keeping the input order. */
  function NormalizeAll(entries: seq<RawEntry>): (r: seq<SavedPaymentMethod>)
    ensures |r| <= |entries|
    ensures forall k :: 0 <= k < |r| ==> Bounded(r[k])
    ensures |r| == 0 <==> forall i :: 0 <= i < |entries| ==> !IsWellFormed(entries[i])
  {
    if |entries| == 0 then []
    else
      var rest := NormalizeAll(entries[1..]);
      assert forall i :: 1 <= i < |entries| ==> entries[i] == entries[1..][i - 1];
      if IsWellFormed(entries[0]) then [Normalize(entries[0])] + rest else rest
  }

  /** `method` is the only default among `ms`. */
  ghost predicate OnlyDefaultAt(ms: seq<SavedPaymentMethod>, k: int) {
    0 <= k < |ms| && ms[k].isDefault && forall j :: 0 <= j < |ms| && j != k ==> !ms[j].isDefault
  }

  /** Exactly one method of `ms` is flagged default. */
  ghost predicate ExactlyOneDefault(ms: seq<SavedPaymentMethod>) {
    exists k :: OnlyDefaultAt(ms, k)
  }

  predicate HasDefault(ms: seq<SavedPaymentMethod>) {
    exists k :: 0 <= k < |ms| && ms[k].isDefault
  }

  /** `ms[k]` is the first flagged method. */
  ghost predicate FirstFlagged(ms: seq<SavedPaymentMethod>, k: int) {
    0 <= k < |ms| && ms[k].isDefault && forall j :: 0 <= j < k ==> !ms[j].isDefault
  }

  /** The index of the first flagged method, or `|ms|` when none is flagged. */
  function FirstDefaultIndex(ms: seq<SavedPaymentMethod>): (k: nat)
    ensures k <= |ms|
    ensures k < |ms| ==> ms[k].isDefault
    ensures forall j :: 0 <= j < k ==> !ms[j].isDefault
  {
    if |ms| == 0 || ms[0].isDefault then 0 else 1 + FirstDefaultIndex(ms[1..])
  }

  /** The two default-fixing branches: promote the first method when none is flagged,
      otherwise clear every flag after the first flagged one. */
  function EnforceSingleDefault(ms: seq<SavedPaymentMethod>): (r: seq<SavedPaymentMethod>)
    ensures |r| == |ms|
    ensures forall i :: 0 <= i < |ms| ==> r[i] == ms[i].(isDefault := r[i].isDefault)
    ensures |ms| > 0 ==> ExactlyOneDefault(r)
    ensures HasDefault(ms) ==> forall i :: 0 <= i < |r| ==> (r[i].isDefault <==> FirstFlagged(ms, i))
    ensures !HasDefault(ms) && |ms| > 0 ==> r[0].isDefault
  {
    var first := FirstDefaultIndex(ms);
    var keep := if first < |ms| then first else 0;
    var r := seq(|ms|, i requires 0 <= i < |ms| => ms[i].(isDefault := i == keep));
    assert |ms| > 0 ==> OnlyDefaultAt(r, keep);
    r
  }

  /** `sanitizePaymentMethods`. */
  function Sanitize(entries: seq<RawEntry>): (r: seq<SavedPaymentMethod>)
    ensures |r| <= |entries|
    ensures |r| == 0 <==> forall i :: 0 <= i < |entries| ==> !IsWellFormed(entries[i])
    ensures |r| > 0 ==> ExactlyOneDefault(r)
    ensures forall k :: 0 <= k < |r| ==> Bounded(r[k])
  {
    EnforceSingleDefault(NormalizeAll(entries))
  }

  /** Filtering and mapping distribute over concatenation, so each well-formed entry
      yields one method, in input order, and malformed ones yield nothing. */
  lemma {:induction false} NormalizeAllAppend(a: seq<RawEntry>, b: seq<RawEntry>)
    ensures NormalizeAll(a + b) == NormalizeAll(a) + NormalizeAll(b)
    decreases |a|
  {
    if |a| == 0 {
      assert a + b == b;
    } else {
      assert (a + b)[1..] == a[1..] + b;
      NormalizeAllAppend(a[1..], b);
    }
  }

  lemma NormalizeAllSingle(e: RawEntry)
    ensures NormalizeAll([e]) == if IsWellFormed(e) then [Normalize(e)] else []
  {
    assert [e][1..] == [];
  }

  // ---------------------------------------------------------------------------
  // Resubmission: the client sends back the list it was given.

  /** A method as the client sends it back to the server. */
  function ToRaw(m: SavedPaymentMethod): RawEntry {
    Some(RawPaymentMethod(Some(m.id), Some(m.kind.Name()), Some(m.maskedLabel), m.isDefault,
      m.paypalEmail, m.cardBrand, m.cardLast4, m.cardExpiry, m.bankIbanLast4))
  }

  function ToRawAll(ms: seq<SavedPaymentMethod>): (r: seq<RawEntry>)
    ensures |r| == |ms|
    ensures forall i :: 0 <= i < |ms| ==> r[i] == ToRaw(ms[i])
  {
    seq(|ms|, i requires 0 <= i < |ms| => ToRaw(ms[i]))
  }

  /** A list the sanitiser accepts unchanged: bounded, non-blank ids and labels, and
      exactly one default unless empty. */
  ghost predicate Stable(ms: seq<SavedPaymentMethod>) {
    && (forall k :: 0 <= k < |ms| ==> Bounded(ms[k]))
    && (forall k :: 0 <= k < |ms| ==> !IsBlank(ms[k].id) && !IsBlank(ms[k].maskedLabel))
    && (|ms| > 0 ==> ExactlyOneDefault(ms))
  }

  /** A bounded method with non-blank id and label survives sanitising unchanged. */
  lemma NormalizeFixesBounded(m: SavedPaymentMethod)
    requires Bounded(m) && !IsBlank(m.id) && !IsBlank(m.maskedLabel)
    ensures IsWellFormed(ToRaw(m)) && Normalize(ToRaw(m)) == m
  {
    assert ParsePaymentMethodType(m.kind.Name()) == Some(m.kind);
    if m.cardLast4.Some? {
      DigitsOnlyOfDigits(m.cardLast4.value);
    }
    if m.bankIbanLast4.Some? {
      StripOfCompact(m.bankIbanLast4.value);
    }
  }

  lemma {:induction false} NormalizeAllFixesStable(ms: seq<SavedPaymentMethod>)
    requires forall k :: 0 <= k < |ms| ==> Bounded(ms[k]) && !IsBlank(ms[k].id) && !IsBlank(ms[k].maskedLabel)
    ensures NormalizeAll(ToRawAll(ms)) == ms
    decreases |ms|
  {
    if |ms| > 0 {
      NormalizeFixesBounded(ms[0]);
      assert ToRawAll(ms)[1..] == ToRawAll(ms[1..]);
      NormalizeAllFixesStable(ms[1..]);
      assert ms == [ms[0]] + ms[1..];
    }
  }

  lemma EnforceFixesSingleDefault(ms: seq<SavedPaymentMethod>)
    requires |ms| > 0 ==> ExactlyOneDefault(ms)
    ensures EnforceSingleDefault(ms) == ms
  {
    var r := EnforceSingleDefault(ms);
    if |ms| > 0 {
      var k :| OnlyDefaultAt(ms, k);
      assert HasDefault(ms);
      forall i | 0 <= i < |ms| ensures r[i] == ms[i] {
        assert r[i].isDefault <==> FirstFlagged(ms, i);
      }
    }
  }

  /** Sending back a stable list stores the very same list. */
  lemma ResubmitStable(ms: seq<SavedPaymentMethod>)
    requires Stable(ms)
    ensures Sanitize(ToRawAll(ms)) == ms
  {
    NormalizeAllFixesStable(ms);
    EnforceFixesSingleDefault(ms);
  }

  /** The sanitiser's output is stable (so a second round trip changes nothing) as long
      as truncation to 120 characters leaves each label non-blank. */
  lemma {:induction false} SanitizeIsStable(entries: seq<RawEntry>)
    requires forall i :: 0 <= i < |entries| && IsWellFormed(entries[i]) ==>
               !IsBlank(Take(entries[i].value.maskedLabel.value, MaxLabel))
    ensures Stable(Sanitize(entries))
    ensures Sanitize(ToRawAll(Sanitize(entries))) == Sanitize(entries)
  {
    NormalizeAllNonBlank(entries);
    ResubmitStable(Sanitize(entries));
  }

  lemma {:induction false} NormalizeAllNonBlank(entries: seq<RawEntry>)
    requires forall i :: 0 <= i < |entries| && IsWellFormed(entries[i]) ==>
               !IsBlank(Take(entries[i].value.maskedLabel.value, MaxLabel))
    ensures forall k :: 0 <= k < |NormalizeAll(entries)| ==>
              !IsBlank(NormalizeAll(entries)[k].id) && !IsBlank(NormalizeAll(entries)[k].maskedLabel)
    decreases |entries|
  {
    if |entries| > 0 {
      assert forall i :: 1 <= i < |entries| ==> entries[i] == entries[1..][i - 1];
      NormalizeAllNonBlank(entries[1..]);
    }
  }

  /** Truncation can leave a blank label: a label of 120 spaces followed by "x" is kept
      on the first save but dropped when the stored list is sent back. */
  lemma LabelTruncationCanBlank()
    ensures var padded := seq(MaxLabel, i => ' ') + "x";
            var e := Some(RawPaymentMethod(Some("1"), Some("card"), Some(padded), true,
                                           None, None, None, None, None));
            |Sanitize([e])| == 1 && Sanitize(ToRawAll(Sanitize([e]))) == []
  {
    var padded := seq(MaxLabel, i => ' ') + "x";
    var e := Some(RawPaymentMethod(Some("1"), Some("card"), Some(padded), true, None, None, None, None, None));
    assert padded[MaxLabel] == 'x' && !IsWhitespace('x');
    assert "1"[0] == '1' && !IsWhitespace('1');
    assert ParsePaymentMethodType("card") == Some(Card);
    assert IsWellFormed(e);
    NormalizeAllSingle(e);
    var m := Normalize(e);
    assert m.maskedLabel == padded[..MaxLabel];
    assert IsBlank(m.maskedLabel);
    var back := ToRawAll(Sanitize([e]));
    assert !IsWellFormed(back[0]);
    assert back == [back[0]];
    NormalizeAllSingle(back[0]);
  }
}

=== FILE: products.dfy ===
/** The product catalogue service (backend/src/modules/products/products.service.ts).
    Products are never deleted: removal clears `isActive`, and every read sees active
    products only. */
module Products {
  import opened Wrappers
  import opened Entities
  import opened Seqs

  const ProductNotFound: string := "Prodotto non trovato"
  const DuplicateSlug: string := "duplicate key value violates unique constraint on slug"

  /** The `products` table in insertion order, with the next id to hand out. */
  datatype Catalog = Catalog(products: seq<Product>, nextId: nat)

  /** Ids and slugs are unique (the primary key and the unique index on `slug`), ids lie
      below the next one, and rows were inserted in `createdAt` order. */
  ghost predicate Valid(c: Catalog) {
    && (forall i, j :: 0 <= i < j < |c.products| ==>
          c.products[i].id != c.products[j].id && c.products[i].slug != c.products[j].slug)
    && (forall i :: 0 <= i < |c.products| ==> c.products[i].id < c.nextId)
    && Ascending(c.products, CreatedAt)
  }

  function CreatedAt(p: Product): nat {
    p.createdAt
  }

  /** The `findAll` filters: active, in category `categoryId` when it is truthy, with the
      given `featured` flag when one is given. */
  predicate Listed(p: Product, categoryId: Option<int>, featured: Option<bool>) {
    && p.isActive
    && (categoryId.Some? && categoryId.value != 0 ==> p.categoryId.Some? && p.categoryId.value == categoryId.value)
    && (featured.Some? ==> p.featured == featured.value)
  }

  function IsListed(categoryId: Option<int>, featured: Option<bool>): Product -> bool {
    (p: Product) => Listed(p, categoryId, featured)
  }

  /** `findAll`: the listed products, each once, newest first. */
  function FindAll(c: Catalog, categoryId: Option<int>, featured: Option<bool>): (r: seq<Product>)
    ensures forall i :: 0 <= i < |r| ==> r[i] in c.products && Listed(r[i], categoryId, featured)
    ensures forall i :: 0 <= i < |c.products| && Listed(c.products[i], categoryId, featured) ==> c.products[i] in r
    ensures |r| == |Filter(c.products, IsListed(categoryId, featured))|
    ensures Ascending(c.products, CreatedAt) ==> Descending(r, CreatedAt)
  {
    var kept := Filter(c.products, IsListed(categoryId, featured));
    var r := Reverse(kept);
    assert forall i :: 0 <= i < |r| ==> r[i] == kept[|kept| - 1 - i];
    assert forall i :: 0 <= i < |kept| ==> kept[i] == r[|kept| - 1 - i];
    if Ascending(c.products, CreatedAt) then
      FilterIsSubsequence(c.products, IsListed(categoryId, featured));
      SubsequenceAscending(kept, c.products, CreatedAt);
      ReverseOfAscending(kept, CreatedAt);
      r
    else r
  }

  /** `findOne`: the active product with id `id`. */
  function FindOne(c: Catalog, id: nat): (r: Result<Product, Error>)
    ensures r.Failure? <==> forall i :: 0 <= i < |c.products| ==> !(c.products[i].id == id && c.products[i].isActive)
    ensures r.Failure? ==> r.error == NotFound(ProductNotFound)
    ensures r.Success? ==> r.value in c.products && r.value.id == id && r.value.isActive
  {
    match IndexWhere(c.products, (p: Product) => p.id == id && p.isActive)
    case None => Failure(NotFound(ProductNotFound))
    case Some(k) => Success(c.products[k])
  }

  /** `findBySlug`: the active product with slug `slug`. */
  function FindBySlug(c: Catalog, slug: string): (r: Result<Product, Error>)
    ensures r.Failure? <==> forall i :: 0 <= i < |c.products| ==> !(c.products[i].slug == slug && c.products[i].isActive)
    ensures r.Failure? ==> r.error == NotFound(ProductNotFound)
    ensures r.Success? ==> r.value in c.products && r.value.slug == slug && r.value.isActive
  {
    match IndexWhere(c.products, (p: Product) => p.slug == slug && p.isActive)
    case None => Failure(NotFound(ProductNotFound))
    case Some(k) => Success(c.products[k])
  }

  /** `CreateProductDto`; the price in cents. */
  datatype CreateProductDto = CreateProductDto(
    name: string,
    slug: string,
    description: Option<string>,
    price: nat,
    images: Option<seq<string>>,
    stock: nat,
    featured: Option<bool>,
    categoryId: nat)

  /** `UpdateProductDto`: every field optional; the slug cannot be changed. */
  datatype UpdateProductDto = UpdateProductDto(
    name: Option<string>,
    description: Option<string>,
    price: Option<nat>,
    images: Option<seq<string>>,
    stock: Option<nat>,
    featured: Option<bool>,
    categoryId: Option<nat>,
    isActive: Option<bool>)

  /** `create`: insert a row with the column defaults; the unique index on `slug`
      rejects a slug any row (active or not) already has. */
  function Create(c: Catalog, dto: CreateProductDto, now: nat): (r: Result<(Catalog, Product), Error>)
    ensures r.Failure? <==> exists i :: 0 <= i < |c.products| && c.products[i].slug == dto.slug
    ensures r.Failure? ==> r.error == ServerError(DuplicateSlug)
    ensures r.Success? ==>
              && r.value.0.products == c.products + [r.value.1]
              && r.value.0.nextId == c.nextId + 1
              && var p := r.value.1;
                 && p.id == c.nextId && p.isActive && p.createdAt == now
                 && p.name == dto.name && p.slug == dto.slug && p.price == dto.price && p.stock == dto.stock
                 && p.description == dto.description && p.categoryId == Some(dto.categoryId)
                 && p.featured == (dto.featured == Some(true))
                 && p.images == (if dto.images.Some? then dto.images.value else [])
  {
    match IndexWhere(c.products, (p: Product) => p.slug == dto.slug)
    case Some(_) => Failure(ServerError(DuplicateSlug))
    case None =>
      var p := Product(c.nextId, dto.name, dto.slug, dto.description, dto.price, dto.images.GetOr([]),
                       dto.stock, dto.featured.GetOr(false), true, Some(dto.categoryId), now);
      Success((Catalog(c.products + [p], c.nextId + 1), p))
  }

  /** `Object.assign(product, dto)` with the fields the DTO defines. */
  function Assign(p: Product, dto: UpdateProductDto): Product {
    p.(name := dto.name.GetOr(p.name),
       description := if dto.description.Some? then dto.description else p.description,
       price := if dto.price.Some? then dto.price.value else p.price,
       images := dto.images.GetOr(p.images),
       stock := if dto.stock.Some? then dto.stock.value else p.stock,
       featured := dto.featured.GetOr(p.featured),
       categoryId := if dto.categoryId.Some? then dto.categoryId else p.categoryId,
       isActive := dto.isActive.GetOr(p.isActive))
  }

  /** Replace the row at position `k`. */
  function SaveAt(c: Catalog, k: nat, p: Product): (c': Catalog)
    requires k < |c.products|
    ensures |c'.products| == |c.products| && c'.products[k] == p && c'.nextId == c.nextId
    ensures forall j :: 0 <= j < |c.products| && j != k ==> c'.products[j] == c.products[j]
  {
    c.(products := c.products[k := p])
  }

  /** `update`: an inactive or unknown product is not found; otherwise the defined fields
      are overwritten and the id, slug and creation time stay. */
  function Update(c: Catalog, id: nat, dto: UpdateProductDto): (r: Result<(Catalog, Product), Error>)
    ensures r.Failure? <==> FindOne(c, id).Failure?
    ensures r.Failure? ==> r.error == NotFound(ProductNotFound)
    ensures r.Success? ==>
              exists k :: 0 <= k < |c.products| && c.products[k] == FindOne(c, id).value
                && r.value.0 == SaveAt(c, k, r.value.1)
                && var old_, p := c.products[k], r.value.1;
                   && p.id == old_.id && p.slug == old_.slug && p.createdAt == old_.createdAt
                   && (dto.name.None? ==> p.name == old_.name) && (dto.name.Some? ==> p.name == dto.name.value)
                   && (dto.price.None? ==> p.price == old_.price) && (dto.price.Some? ==> p.price == dto.price.value)
                   && (dto.stock.None? ==> p.stock == old_.stock) && (dto.stock.Some? ==> p.stock == dto.stock.value)
                   && (dto.images.None? ==> p.images == old_.images) && (dto.images.Some? ==> p.images == dto.images.value)
                   && (dto.featured.None? ==> p.featured == old_.featured)
                   && (dto.featured.Some? ==> p.featured == dto.featured.value)
                   && (dto.description.None? ==> p.description == old_.description)
                   && (dto.description.Some? ==> p.description == dto.description)
                   && (dto.categoryId.None? ==> p.categoryId == old_.categoryId)
                   && (dto.categoryId.Some? ==> p.categoryId == dto.categoryId)
                   && p.isActive == (dto.isActive != Some(false))
  {
    match IndexWhere(c.products, (p: Product) => p.id == id && p.isActive)
    case None => Failure(NotFound(ProductNotFound))
    case Some(k) =>
      var p := Assign(c.products[k], dto);
      Success((SaveAt(c, k, p), p))
  }

  /** `remove`: a soft delete of an active product. */
  function Remove(c: Catalog, id: nat): (r: Result<(Catalog, Product), Error>)
    ensures r.Failure? <==> FindOne(c, id).Failure?
    ensures r.Failure? ==> r.error == NotFound(ProductNotFound)
    ensures r.Success? ==>
              exists k :: 0 <= k < |c.products| && c.products[k] == FindOne(c, id).value
                && r.value.1 == c.products[k].(isActive := false)
                && r.value.0 == SaveAt(c, k, r.value.1)
  {
    match IndexWhere(c.products, (p: Product) => p.id == id && p.isActive)
    case None => Failure(NotFound(ProductNotFound))
    case Some(k) =>
      var p := c.products[k].(isActive := false);
      Success((SaveAt(c, k, p), p))
  }

  /** A created product is found by its id and by its slug, and the catalogue stays valid
      when the clock has not gone backwards. */
  lemma CreateThenFind(c: Catalog, dto: CreateProductDto, now: nat)
    requires Valid(c)
    requires forall i :: 0 <= i < |c.products| ==> c.products[i].createdAt <= now
    ensures var r := Create(c, dto, now);
            r.Success? ==>
              && Valid(r.value.0)
              && FindOne(r.value.0, r.value.1.id) == Success(r.value.1)
              && FindBySlug(r.value.0, dto.slug) == Success(r.value.1)
  {
    var r := Create(c, dto, now);
    if r.Success? {
      var c', p := r.value.0, r.value.1;
      var n := |c.products|;
      assert forall i :: 0 <= i < n ==> c'.products[i] == c.products[i];
      assert c'.products[n] == p;
      assert FindOne(c', p.id) == Success(p) by {
        assert IndexWhere(c'.products, (q: Product) => q.id == p.id && q.isActive) == Some(n);
      }
      assert FindBySlug(c', dto.slug) == Success(p) by {
        assert IndexWhere(c'.products, (q: Product) => q.slug == dto.slug && q.isActive) == Some(n);
      }
    }
  }

  /** After a removal the product is no longer found, by id, by slug or in any listing, and
      every other row is unchanged. */
  lemma RemoveHides(c: Catalog, id: nat, categoryId: Option<int>, featured: Option<bool>)
    requires Valid(c)
    ensures var r := Remove(c, id);
            r.Success? ==>
              && Valid(r.value.0)
              && FindOne(r.value.0, id).Failure?
              && FindBySlug(r.value.0, r.value.1.slug).Failure?
              && (forall i :: 0 <= i < |FindAll(r.value.0, categoryId, featured)| ==>
                    FindAll(r.value.0, categoryId, featured)[i].id != id)
              && Remove(r.value.0, id) == Failure(NotFound(ProductNotFound))
  {
    var r := Remove(c, id);
    if r.Success? {
      var c' := r.value.0;
      var k :| 0 <= k < |c.products| && c.products[k] == FindOne(c, id).value
                && r.value.1 == c.products[k].(isActive := false) && c' == SaveAt(c, k, r.value.1);
      forall i | 0 <= i < |c'.products| && c'.products[i].id == id ensures i == k {
      }
      forall i | 0 <= i < |c'.products| && c'.products[i].slug == r.value.1.slug ensures i == k {
      }
      SavePreservesValid(c, k, r.value.1);
    }
  }

  /** Replacing a row by one with the same id, slug and creation time keeps the catalogue valid. */
  lemma SavePreservesValid(c: Catalog, k: nat, p: Product)
    requires Valid(c) && k < |c.products|
    requires p.id == c.products[k].id && p.slug == c.products[k].slug && p.createdAt == c.products[k].createdAt
    ensures Valid(SaveAt(c, k, p))
  {
    var c' := SaveAt(c, k, p);
    assert forall i :: 0 <= i < |c.products| ==>
             c'.products[i].id == c.products[i].id && c'.products[i].slug == c.products[i].slug
             && c'.products[i].createdAt == c.products[i].createdAt;
  }

  /** An update that does not deactivate the product is visible to `findOne` at once and
      keeps the catalogue valid. */
  lemma UpdateThenFind(c: Catalog, id: nat, dto: UpdateProductDto)
    requires Valid(c)
    requires dto.isActive != Some(false)
    ensures var r := Update(c, id, dto);
            r.Success? ==> Valid(r.value.0) && FindOne(r.value.0, id) == Success(r.value.1)
  {
    var r := Update(c, id, dto);
    if r.Success? {
      var c' := r.value.0;
      var k :| 0 <= k < |c.products| && c.products[k] == FindOne(c, id).value && c' == SaveAt(c, k, r.value.1);
      SavePreservesValid(c, k, r.value.1);
      forall i | 0 <= i < |c'.products| && c'.products[i].id == id ensures i == k {
      }
      assert IndexWhere(c'.products, (q: Product) => q.id == id && q.isActive) == Some(k);
    }
  }
}

=== FILE: profile_page.dfy ===
/** The profile page's two forms (frontend/src/pages/ProfilePage.tsx): the contact details
    and the password change, each checked before the request is sent. */
module ProfilePage {
  import opened Wrappers
  import opened Text
  import opened Auth

  const MinPasswordLength: nat := 6

  // ---------------------------------------------------------------------------
  // Password

  /** The error keys `savePassword` can report, in the order it checks them. */
  datatype PasswordError = PasswordCurrentRequired | PasswordTooShort | PasswordsDontMatch

  /** `savePassword`: the body of `PATCH /auth/me/password`, or the first error. The current
      password must be given, the new one must have at least six characters, and the
      confirmation must repeat it. */
  function SavePassword(currentPassword: string, newPassword: string, confirmNewPassword: string)
    : (r: Result<ChangePasswordDto, PasswordError>)
    ensures r.Success? <==> currentPassword != "" && |newPassword| >= MinPasswordLength && newPassword == confirmNewPassword
    ensures r.Success? ==> r.value == ChangePasswordDto(currentPassword, newPassword)
    ensures r == Failure(PasswordCurrentRequired) <==> currentPassword == ""
    ensures r == Failure(PasswordTooShort) <==> currentPassword != "" && |newPassword| < MinPasswordLength
    ensures r == Failure(PasswordsDontMatch) <==>
              currentPassword != "" && |newPassword| >= MinPasswordLength && newPassword != confirmNewPassword
  {
    if currentPassword == "" then Failure(PasswordCurrentRequired)
    else if newPassword == "" || |newPassword| < MinPasswordLength then Failure(PasswordTooShort)
    else if newPassword != confirmNewPassword then Failure(PasswordsDontMatch)
    else Success(ChangePasswordDto(currentPassword, newPassword))
  }

  /** A request the page sends changes the password so that the new one logs in, whenever
      the current password was right, including when the new password repeats the current one. */
  lemma SavedPasswordLogsIn(db: AuthDb, userId: nat, currentPassword: string, newPassword: string,
                            scheme: PasswordScheme, sign: TokenSigner)
    requires Valid(db) && SoundScheme(scheme)
    requires SavePassword(currentPassword, newPassword, newPassword).Success?
    ensures var dto := SavePassword(currentPassword, newPassword, newPassword).value;
            var r := ChangePassword(db, userId, dto, scheme);
            r.Success? ==>
              exists k :: 0 <= k < |db.users| && db.users[k].id == userId
                && Login(r.value, LoginDto(db.users[k].email, newPassword), scheme, sign).Success?
  {
    ChangedPasswordLogsIn(db, userId, ChangePasswordDto(currentPassword, newPassword), scheme, sign);
  }

  // ---------------------------------------------------------------------------
  // Contact details

  /** The fields of the profile form. */
  datatype ProfileForm = ProfileForm(
    firstName: string,
    lastName: string,
    email: string,
    phone: string,
    address: string,
    billingAddress: string)

  /** The error key `saveProfile` reports for an unusable e-mail. */
  datatype ProfileError = InvalidEmail

  /** `saveProfile`: the body of `PATCH /auth/me` with every field as typed, or the error
      when the e-mail is blank or does not have the `\S+@\S+\.\S+` shape. */
  function SaveProfile(form: ProfileForm): (r: Result<UpdateProfileDto, ProfileError>)
    ensures r.Success? <==> EmailShaped(form.email)
    ensures r.Success? ==> r.value == UpdateProfileDto(Some(form.firstName), Some(form.lastName), Some(form.email),
                                                       Some(form.phone), Some(form.address), Some(form.billingAddress), None)
  {
    if IsBlank(form.email) || !MatchesEmailPattern(form.email) then Failure(InvalidEmail)
    else Success(UpdateProfileDto(Some(form.firstName), Some(form.lastName), Some(form.email),
                                  Some(form.phone), Some(form.address), Some(form.billingAddress), None))
  }

  /** Every update the page sends keeps the account store consistent: the e-mail it carries
      is never empty, so e-mail uniqueness survives. */
  lemma SavedProfileKeepsStoreValid(db: AuthDb, userId: nat, form: ProfileForm)
    requires Valid(db)
    requires SaveProfile(form).Success?
    ensures var r := UpdateProfile(db, userId, SaveProfile(form).value);
            r.Success? ==> Valid(r.value.0)
  {
    UpdateProfilePreservesValid(db, userId, SaveProfile(form).value);
  }
}

=== FILE: seqs.dfy ===
/** Sequence helpers for the table models: tables are kept in insertion order, so
    `ORDER BY createdAt DESC` reads a table backwards. */
module Seqs {
  import opened Wrappers

  /** The position of the first element satisfying `p` (a `findOne` on a table). */
  function IndexWhere<T>(s: seq<T>, p: T -> bool): (r: Option<nat>)
    ensures r.Some? ==> r.value < |s| && p(s[r.value])
    ensures r.Some? ==> forall j :: 0 <= j < r.value ==> !p(s[j])
    ensures r.None? ==> forall j :: 0 <= j < |s| ==> !p(s[j])
  {
    if |s| == 0 then None
    else if p(s[0]) then Some(0)
    else match IndexWhere(s[1..], p)
      case None => None
      case Some(k) => Some(k + 1)
  }

  /** The elements of `s` satisfying `p`, in order (`Array.prototype.filter`, or a
      `WHERE` clause over a table). */
  function Filter<T>(s: seq<T>, p: T -> bool): (r: seq<T>)
    ensures |r| <= |s|
    ensures forall i :: 0 <= i < |r| ==> r[i] in s && p(r[i])
    ensures forall i :: 0 <= i < |s| && p(s[i]) ==> s[i] in r
  {
    if |s| == 0 then []
    else (if p(s[0]) then [s[0]] else []) + Filter(s[1..], p)
  }

  lemma {:induction false} FilterAppend<T>(a: seq<T>, b: seq<T>, p: T -> bool)
    ensures Filter(a + b, p) == Filter(a, p) + Filter(b, p)
    decreases |a|
  {
    if |a| == 0 {
      assert a + b == b;
    } else {
      assert (a + b)[1..] == a[1..] + b;
      FilterAppend(a[1..], b, p);
    }
  }

  /** The conjunction of two predicates. */
  function Both<T>(p: T -> bool, q: T -> bool): T -> bool {
    (x: T) => p(x) && q(x)
  }

  /** Filtering twice keeps what satisfies both predicates. */
  lemma {:induction false} FilterFilter<T>(s: seq<T>, p: T -> bool, q: T -> bool)
    ensures Filter(Filter(s, p), q) == Filter(s, Both(p, q))
    decreases |s|
  {
    if |s| > 0 {
      FilterFilter(s[1..], p, q);
      var head := if p(s[0]) then [s[0]] else [];
      assert Filter(s, p) == head + Filter(s[1..], p);
      FilterAppend(head, Filter(s[1..], p), q);
    }
  }

  /** Predicates that agree on every element filter alike. */
  lemma {:induction false} FilterExt<T>(s: seq<T>, p: T -> bool, q: T -> bool)
    requires forall i :: 0 <= i < |s| ==> p(s[i]) == q(s[i])
    ensures Filter(s, p) == Filter(s, q)
    decreases |s|
  {
    if |s| > 0 {
      FilterExt(s[1..], p, q);
    }
  }

  /** A predicate no element satisfies filters everything out. */
  lemma {:induction false} FilterNone<T>(s: seq<T>, p: T -> bool)
    requires forall i :: 0 <= i < |s| ==> !p(s[i])
    ensures Filter(s, p) == []
    decreases |s|
  {
    if |s| > 0 {
      FilterNone(s[1..], p);
    }
  }

  /** A predicate every element satisfies filters nothing out. */
  lemma {:induction false} FilterAll<T>(s: seq<T>, p: T -> bool)
    requires forall i :: 0 <= i < |s| ==> p(s[i])
    ensures Filter(s, p) == s
    decreases |s|
  {
    if |s| > 0 {
      FilterAll(s[1..], p);
    }
  }

  /** Two elements satisfying `p` both survive the filter. */
  lemma {:induction false} FilterTwo<T>(s: seq<T>, p: T -> bool, i: nat, j: nat)
    requires i < j < |s| && p(s[i]) && p(s[j])
    ensures |Filter(s, p)| >= 2
    decreases |s|
  {
    if i == 0 {
      assert p(s[1..][j - 1]);
      assert s[1..][j - 1] in Filter(s[1..], p);
    } else {
      FilterTwo(s[1..], p, i - 1, j - 1);
    }
  }

  /** Filtering keeps the relative order of the kept elements. */
  lemma {:induction false} FilterIsSubsequence<T>(s: seq<T>, p: T -> bool)
    ensures IsSubsequence(Filter(s, p), s)
    decreases |s|
  {
    if |s| > 0 {
      FilterIsSubsequence(s[1..], p);
      if p(s[0]) {
        assert Filter(s, p)[1..] == Filter(s[1..], p);
      } else {
        assert Filter(s, p) == Filter(s[1..], p);
        SubsequenceSkip(Filter(s[1..], p), s);
      }
    }
  }

  /** A subsequence of the tail of `t` is a subsequence of `t`. */
  lemma {:induction false} SubsequenceSkip<T>(s: seq<T>, t: seq<T>)
    requires |t| > 0 && IsSubsequence(s, t[1..])
    ensures IsSubsequence(s, t)
    decreases |t|, 0
  {
    if |s| > 0 && s[0] == t[0] {
      SubsequenceDropHead(s, t[1..]);
    }
  }

  /** Dropping the first element of a subsequence leaves a subsequence. */
  lemma {:induction false} SubsequenceDropHead<T>(s: seq<T>, u: seq<T>)
    requires |s| > 0 && IsSubsequence(s, u)
    ensures IsSubsequence(s[1..], u)
    decreases |u|, 1
  {
    if s[0] == u[0] {
      SubsequenceSkip(s[1..], u);
    } else {
      SubsequenceDropHead(s, u[1..]);
      SubsequenceSkip(s[1..], u);
    }
  }

  /** `s` read backwards. */
  function Reverse<T>(s: seq<T>): (r: seq<T>)
    ensures |r| == |s|
    ensures forall i :: 0 <= i < |s| ==> r[i] == s[|s| - 1 - i]
  {
    if |s| == 0 then [] else Reverse(s[1..]) + [s[0]]
  }

  /** Each element of `s` is `key`-ordered after (or level with) the one before it. */
  predicate Ascending<T>(s: seq<T>, key: T -> nat) {
    forall i, j :: 0 <= i < j < |s| ==> key(s[i]) <= key(s[j])
  }

  /** Each element of `s` is `key`-ordered before (or level with) the one before it. */
  predicate Descending<T>(s: seq<T>, key: T -> nat) {
    forall i, j :: 0 <= i < j < |s| ==> key(s[i]) >= key(s[j])
  }

  /** `s` is obtained from `t` by deleting elements (the order of `t` is kept). */
  predicate IsSubsequence<T(==)>(s: seq<T>, t: seq<T>)
    decreases |t|
  {
    if |s| == 0 then true
    else if |t| == 0 then false
    else if s[0] == t[0] then IsSubsequence(s[1..], t[1..])
    else IsSubsequence(s, t[1..])
  }

  /** Reading an ascending table backwards yields newest first. */
  lemma {:induction false} ReverseOfAscending<T>(s: seq<T>, key: T -> nat)
    requires Ascending(s, key)
    ensures Descending(Reverse(s), key)
  {
    var r := Reverse(s);
    forall i, j | 0 <= i < j < |r| ensures key(r[i]) >= key(r[j]) {
      assert r[i] == s[|s| - 1 - i] && r[j] == s[|s| - 1 - j];
    }
  }

  /** Deleting elements keeps an ascending table ascending. */
  lemma {:induction false} SubsequenceAscending<T>(s: seq<T>, t: seq<T>, key: T -> nat)
    requires IsSubsequence(s, t) && Ascending(t, key)
    ensures Ascending(s, key)
    decreases |t|
  {
    if |s| == 0 {
    } else if s[0] == t[0] {
      SubsequenceAscending(s[1..], t[1..], key);
      forall j | 0 < j < |s| ensures key(s[0]) <= key(s[j]) {
        SubsequenceMember(s[1..], t[1..], j - 1);
      }
    } else {
      SubsequenceAscending(s, t[1..], key);
    }
  }

  /** Every element of a subsequence is an element of the later part of the original. */
  lemma {:induction false} SubsequenceMember<T>(s: seq<T>, t: seq<T>, k: nat)
    requires IsSubsequence(s, t) && k < |s|
    ensures s[k] in t
    decreases |t|
  {
    if s[0] == t[0] {
      if k > 0 {
        SubsequenceMember(s[1..], t[1..], k - 1);
      }
    } else {
      SubsequenceMember(s, t[1..], k);
    }
  }
}

=== FILE: text.dfy ===
/** String helpers mirroring the JavaScript string operations the storefront uses:
    `trim`, the `\s` and `\D` character classes, `slice`, `toLowerCase`, `includes`,
    `startsWith`, `join`, and the `^\S+@\S+\.\S+$` e-mail pattern. */
module Text {

  /** The `\d` class: an ASCII decimal digit. */
  predicate IsDigit(c: char) {
    '0' <= c <= '9'
  }

  /** The `\s` class, which is also the set of characters `trim()` removes
      (ECMAScript WhiteSpace and LineTerminator code points). */
  predicate IsWhitespace(c: char) {
    || c == ' ' || c == '\t' || c == '\n' || c == '\r'
    || c == '\U{0B}' || c == '\U{0C}' || c == '\U{A0}' || c == '\U{1680}'
    || ('\U{2000}' <= c <= '\U{200A}')
    || c == '\U{2028}' || c == '\U{2029}' || c == '\U{202F}' || c == '\U{205F}'
    || c == '\U{3000}' || c == '\U{FEFF}'
  }

  predicate AllDigits(s: string) {
    forall i :: 0 <= i < |s| ==> IsDigit(s[i])
  }

  predicate NoWhitespace(s: string) {
    forall i :: 0 <= i < |s| ==> !IsWhitespace(s[i])
  }

  /** `s.trim().length === 0`: the string holds only whitespace. */
  predicate IsBlank(s: string) {
    forall i :: 0 <= i < |s| ==> IsWhitespace(s[i])
  }

  /** Drops the leading whitespace. */
  function TrimStart(s: string): (r: string)
    ensures |r| <= |s| && r == s[|s| - |r|..]
    ensures IsBlank(s[..|s| - |r|])
    ensures |r| == 0 || !IsWhitespace(r[0])
  {
    if |s| > 0 && IsWhitespace(s[0]) then TrimStart(s[1..]) else s
  }

  /** Drops the trailing whitespace. */
  function TrimEnd(s: string): (r: string)
    ensures |r| <= |s| && r == s[..|r|]
    ensures IsBlank(s[|r|..])
    ensures |r| == 0 || !IsWhitespace(r[|r| - 1])
  {
    if |s| > 0 && IsWhitespace(s[|s| - 1]) then TrimEnd(s[..|s| - 1]) else s
  }

  /** `String.prototype.trim`. */
  function Trim(s: string): (r: string)
    ensures |r| <= |s|
    ensures |r| == 0 <==> IsBlank(s)
    ensures |r| > 0 ==> !IsWhitespace(r[0]) && !IsWhitespace(r[|r| - 1])
  {
    var t := TrimStart(s);
    var u := TrimEnd(t);
    assert |u| == 0 ==> IsBlank(s) by {
      if |u| == 0 {
        assert t[|u|..] == t;
        assert s == s[..|s| - |t|] + t;
        BlankAppend(s[..|s| - |t|], t);
      }
    }
    u
  }

  lemma BlankAppend(a: string, b: string)
    requires IsBlank(a) && IsBlank(b)
    ensures IsBlank(a + b)
  {
    forall i | 0 <= i < |a + b| ensures IsWhitespace((a + b)[i]) {
      if i >= |a| {
        assert (a + b)[i] == b[i - |a|];
      }
    }
  }

  /** `s.replace(/\D/g, '')`: the digits of `s`, in order. */
  function DigitsOnly(s: string): (r: string)
    ensures AllDigits(r)
    ensures |r| <= |s|
  {
    if |s| == 0 then []
    else (if IsDigit(s[0]) then [s[0]] else []) + DigitsOnly(s[1..])
  }

  /** `s.replace(/\s+/g, '')`: `s` with every whitespace character removed. */
  function StripWhitespace(s: string): (r: string)
    ensures NoWhitespace(r)
    ensures |r| <= |s|
  {
    if |s| == 0 then []
    else (if IsWhitespace(s[0]) then [] else [s[0]]) + StripWhitespace(s[1..])
  }

  /** `r` is what `s.slice(0, n)` returns: the first `n` characters of `s`, or all of
      `s` when it is shorter. */
  ghost predicate IsHead(r: string, s: string, n: nat) {
    |r| == (if |s| <= n then |s| else n) && r == s[..|r|]
  }

  /** `r` is what `s.slice(-n)` returns for a positive `n`: the last `n` characters of
      `s`, or all of `s` when it is shorter. */
  ghost predicate IsTail(r: string, s: string, n: nat) {
    |r| == (if |s| <= n then |s| else n) && r == s[|s| - |r|..]
  }

  /** `s.slice(0, n)`. */
  function Take(s: string, n: nat): (r: string)
    ensures |r| <= n && |r| <= |s|
    ensures |r| == (if |s| <= n then |s| else n)
    ensures r == s[..|r|]
    ensures |s| <= n ==> r == s
  {
    if |s| <= n then s else s[..n]
  }

  /** `s.slice(-n)` for a positive `n`: the last `n` characters, or all of `s` when shorter. */
  function TakeLast(s: string, n: nat): (r: string)
    ensures |r| <= n && |r| <= |s|
    ensures |r| == (if |s| <= n then |s| else n)
    ensures r == s[|s| - |r|..]
    ensures |s| <= n ==> r == s
  {
    if |s| <= n then s else s[|s| - n..]
  }

  /** `s.startsWith(p)`. */
  predicate StartsWith(s: string, p: string) {
    |p| <= |s| && s[..|p|] == p
  }

  /** `s.endsWith(p)`. */
  predicate EndsWith(s: string, p: string) {
    |p| <= |s| && s[|s| - |p|..] == p
  }

  /** `toLowerCase` on one character; only the ASCII letters are folded. */
  function LowerChar(c: char): char {
    if 'A' <= c <= 'Z' then (c as int + 32) as char else c
  }

  /** `s.toLowerCase()` (ASCII letters only). */
  function Lower(s: string): (r: string)
    ensures |r| == |s|
    ensures forall i :: 0 <= i < |s| ==> r[i] == LowerChar(s[i])
  {
    seq(|s|, i requires 0 <= i < |s| => LowerChar(s[i]))
  }

  /** `needle` occurs in `hay` at some position. */
  ghost predicate IsSubstring(needle: string, hay: string) {
    exists i :: OccursAt(needle, hay, i)
  }

  /** `needle` occurs in `hay` starting at index `i`. */
  ghost predicate OccursAt(needle: string, hay: string, i: int) {
    0 <= i <= |hay| - |needle| && hay[i..i + |needle|] == needle
  }

  /** `hay.includes(needle)`, computed by trying each start position in turn. */
  function Contains(hay: string, needle: string): (r: bool)
    ensures r <==> IsSubstring(needle, hay)
    decreases |hay|
  {
    if |needle| > |hay| then false
    else if hay[..|needle|] == needle then
      assert OccursAt(needle, hay, 0);
      true
    else
      var rest := Contains(hay[1..], needle);
      assert rest ==> IsSubstring(needle, hay) by {
        if rest {
          var i :| OccursAt(needle, hay[1..], i);
          assert hay[i + 1..i + 1 + |needle|] == hay[1..][i..i + |needle|];
          assert OccursAt(needle, hay, i + 1);
        }
      }
      assert IsSubstring(needle, hay) ==> rest by {
        if IsSubstring(needle, hay) {
          var i :| OccursAt(needle, hay, i);
          assert i != 0;
          assert hay[1..][i - 1..i - 1 + |needle|] == hay[i..i + |needle|];
          assert OccursAt(needle, hay[1..], i - 1);
        }
      }
      rest
  }

  /** Only digits pass through `DigitsOnly`, so a digit string is its own digits. */
  lemma {:induction false} DigitsOnlyOfDigits(s: string)
    requires AllDigits(s)
    ensures DigitsOnly(s) == s
    decreases |s|
  {
    if |s| > 0 {
      DigitsOnlyOfDigits(s[1..]);
      assert s == [s[0]] + s[1..];
    }
  }

  /** A string without whitespace loses nothing to `StripWhitespace`. */
  lemma {:induction false} StripOfCompact(s: string)
    requires NoWhitespace(s)
    ensures StripWhitespace(s) == s
    decreases |s|
  {
    if |s| > 0 {
      StripOfCompact(s[1..]);
      assert s == [s[0]] + s[1..];
    }
  }

  /** The digits of a concatenation are the digits of each part. */
  lemma {:induction false} DigitsOnlyAppend(a: string, b: string)
    ensures DigitsOnly(a + b) == DigitsOnly(a) + DigitsOnly(b)
    decreases |a|
  {
    if |a| == 0 {
      assert a + b == b;
    } else {
      assert (a + b)[1..] == a[1..] + b;
      DigitsOnlyAppend(a[1..], b);
    }
  }

  /** A string with no whitespace at either end is its own trim. */
  lemma TrimKeeps(s: string)
    requires |s| == 0 || (!IsWhitespace(s[0]) && !IsWhitespace(s[|s| - 1]))
    ensures Trim(s) == s
  {
  }

  /** Trimming drops one trailing whitespace character after such a string. */
  lemma TrimDropsTrailing(s: string, c: char)
    requires |s| > 0 && !IsWhitespace(s[0]) && !IsWhitespace(s[|s| - 1]) && IsWhitespace(c)
    ensures Trim(s + [c]) == s
  {
    assert (s + [c])[..|s|] == s;
  }

  /** The decimal rendering of a natural number, as `String(n)` produces it. */
  function NatToString(n: nat): (r: string)
    ensures |r| > 0 && AllDigits(r)
    ensures n < 10 <==> |r| == 1
  {
    var d := ['0' + (n % 10) as char];
    if n < 10 then d else NatToString(n / 10) + d
  }

  /** `parts.join(sep)`. */
  function Join(parts: seq<string>, sep: string): string {
    if |parts| == 0 then ""
    else if |parts| == 1 then parts[0]
    else parts[0] + sep + Join(parts[1..], sep)
  }

  /** The `^\S+@\S+\.\S+$` pattern, stated by its meaning: no whitespace anywhere,
      an `@` with at least one character before it, then a `.` with at least one
      character between it and the `@` and at least one after it. */
  ghost predicate EmailShaped(s: string) {
    && NoWhitespace(s)
    && exists i, j :: 0 < i && i + 1 < j < |s| - 1 && s[i] == '@' && s[j] == '.'
  }

  /** The first index `k >= from` with `s[k] == c`, or `|s|` when there is none. */
  function IndexFrom(s: string, c: char, from: nat): (k: nat)
    requires from <= |s|
    ensures from <= k <= |s|
    ensures k < |s| ==> s[k] == c
    ensures forall m :: from <= m < k ==> s[m] != c
    decreases |s| - from
  {
    if from == |s| || s[from] == c then from else IndexFrom(s, c, from + 1)
  }

  /** The regular-expression test `/^\S+@\S+\.\S+$/.test(s)`, computed by locating the
      first `@` after position 0 and then any `.` that leaves room on both sides. */
  function MatchesEmailPattern(s: string): (r: bool)
    ensures r <==> EmailShaped(s)
  {
    if |s| == 0 then false
    else
      var at := IndexFrom(s, '@', 1);
      if at + 2 >= |s| then
        false
      else
        var dot := IndexFrom(s, '.', at + 2);
        var ok := NoWhitespace(s) && dot < |s| - 1;
        assert EmailShaped(s) ==> ok by {
          if EmailShaped(s) {
            var i, j :| 0 < i && i + 1 < j < |s| - 1 && s[i] == '@' && s[j] == '.';
            assert at <= i;
            assert dot <= j;
          }
        }
        ok
  }
}

=== FILE: wrappers.dfy ===
/** Failure-carrying result types shared by every service of the storefront. */
module Wrappers {

  /** A value that may be absent: a JavaScript `undefined`/`null` or an optional DTO field. */
  datatype Option<+T> = None | Some(value: T) {

    /** The value, or `default` when absent (the `??` operator). */
    function GetOr(default: T): T {
      match this
      case Some(v) => v
      case None => default
    }
  }

  /** The outcome of a service call: a value, or the exception the service throws. */
  datatype Result<+R, +E> = Success(value: R) | Failure(error: E) {

    predicate IsFailure() {
      Failure?
    }

    function PropagateFailure<U>(): Result<U, E>
      requires Failure?
    {
      Failure(error)
    }

    function Extract(): R
      requires Success?
    {
      value
    }
  }
}
